=== FILE: README.md ===
# Vue-Vite admin template: a Dafny model of its core

This project models the logic core of a Vue 3 admin template. It has three parts:

- **EasyCrud.** A generic create/read/update/delete component, made of the
  configuration, hook, form, table and action composables and the shared
  `deleteFlag` column.
- **Router.** It turns `views/**/page.ts` modules into flat and then nested
  routes. It also filters and orders the menu by role and runs the login
  route guard.
- **Stores and HTTP client.** The stores for login, user, layout and system
  parameters, and the axios wrapper with its request and response
  interceptors, cancellation, retry and download naming.

Every operation is a pure function. It takes the state before and returns
the state after, plus a list of the effects it caused: requests sent, toasts,
notifications, progress-bar calls and navigations. Anything that comes from
the outside is a parameter of the function:

- the outcome of a network request;
- what the user chose in a confirmation dialog;
- the result of form validation;
- the clock;
- the SHA-256 digest;
- fresh cancel tokens.

EasyCrud's hooks are functions the caller registers. A hook before an
action is handed the live form store and may write to it; the action then
reads the store, `formData` included, as the hook left it. The model lets a
hook answer with a verdict together with the store it leaves behind.

Modules, one per source file or concept:

- `Values`: JavaScript values, their truthiness, `Option`, and `Prop`. `Prop`
  tells apart an optional property that is missing, set to `undefined`, or
  given. The difference matters because `{ ...defaults, ...given }` and `??`
  treat those cases differently.
- `Strings`, `Seqs`, `Sorting`: `String.prototype.split` and `join`, a stable
  sort-by-key (what `toSorted` and `sort` are specified to be) and
  `insertRoute`'s insertion step, with their algebra.
- `CrudTypes`, `UseConfig`, `UseHooks`, `UseForm`, `UseTable`, `UseActions`,
  `CommonProps`: the EasyCrud composables.
- `Routes`, `RouteBuild`, `RouterStore`: route records, `router/utils.ts` and
  the router store.
- `UserStore`, `LoginStore`, `LayoutStore`, `SystemParams`: the Pinia stores.
- `HttpClient`: `utils/http.ts`.
- `ExampleCrud`: the user-management page, the one configuration the
  repository ships.

`buildNestedRoutes` mutates shared objects: a route is pushed into its
parent's `children` array, and that array may already sit inside another
list. The model therefore keeps a small heap:

- one object per path;
- a child list per path, whose entries are either a copy (`{ ...route,
  children: [] }`) or a reference to the path's object;
- the set of paths still in the map.

The route tree is read out of this heap at the end.

## Model

| member | source | states |
|---|---|---|
| UseConfig.SpreadRecord | src/components/EasyCrud/hooks/useConfig.ts:8-23 | Attribute bags merge so that every key the caller gives wins, every other default survives, and nothing else appears |
| UseConfig.ResolveAttrs | src/components/EasyCrud/hooks/useConfig.ts:8-23 | Form attributes merge over label width 120 and drawer attributes over size 500; table and pagination attributes are the caller's, or empty |
| UseConfig.ResolveTable | src/components/EasyCrud/hooks/useConfig.ts:25-32 | Each table key the caller leaves out takes its default (menu shown, centred, 150 wide, titled, buttons on active rows); each key the caller sets, even to `undefined`, is kept |
| UseConfig.ResolvePagination | src/components/EasyCrud/hooks/useConfig.ts:33-39 | Each pagination key left out takes its default (page 1, size 10, sizes 10/20/50/100, the standard layout); each key set is kept |
| UseConfig.ResolveButtonAuth | src/components/EasyCrud/hooks/useConfig.ts:40-45 | Each button permission left out defaults to enabled; each one set is kept |
| UseConfig.ResolveEndpoints | src/components/EasyCrud/hooks/useConfig.ts:46-53 | Each endpoint name left out defaults to its own name (query, add, edit, delete, deleteFlag); each one set is kept |
| UseConfig.UseConfig | src/components/EasyCrud/hooks/useConfig.ts:5-63 | Url, source and row keys pass through unchanged; `debug` and `isAfterMountQuery` are on only when given as true; hooks default to none. Every option group is resolved key by key as above, a group the caller leaves out counting as one with every key missing |
| UseConfig.DefaultsWhenAbsent | src/components/EasyCrud/hooks/useConfig.ts:8-55 | With only `url` and `source`, every documented default applies: label width 120, drawer size 500, centred 150-wide menu, active-row buttons, page 1 of 10 with sizes 10/20/50/100, all buttons enabled, endpoint names query/add/edit/delete/deleteFlag |
| UseConfig.CallerKeysWin | src/components/EasyCrud/hooks/useConfig.ts:8-53 | Any key the caller spells out, even as `undefined`, overrides the default in every option group, including the row-button predicate and all four attribute bags |
| UseConfig.ResolveIdempotent | src/components/EasyCrud/hooks/useConfig.ts:5-63 | Resolution always yields a configuration with no missing key, and resolving it again changes nothing |
| UseConfig.AttrsAbsorb | src/components/EasyCrud/hooks/useConfig.ts:8-23 | Resolving attribute bags that already hold label width and size gives them back unchanged |
| UseConfig.SpreadRecordAbsorbs | src/components/EasyCrud/hooks/useConfig.ts:8-23 | Merging defaults into a bag that already has all their keys leaves the bag as it is |
| UseHooks.HookHandler | src/components/EasyCrud/hooks/useHooks.ts:4-17 | A registered function hook decides the result; a missing or non-function hook passes the data through |
| UseHooks.HookHandlerIsolated | src/components/EasyCrud/hooks/useHooks.ts:9-14 | Registering a hook under one name never changes what another name dispatches to |
| UseHooks.HookHandlerDependsOnEntryOnly | src/components/EasyCrud/hooks/useHooks.ts:9-14 | The dispatch depends only on the entry stored under the name asked for |
| UseForm.Seed | src/components/EasyCrud/hooks/useForm.ts:22-48 | A seeded form has exactly the defined keys that are listed, each holding its declared default |
| UseForm.UseFormStore | src/components/EasyCrud/hooks/useForm.ts:12-51 | The form is shown, the drawer is closed in create mode, and each live form equals its frozen snapshot. The search form holds exactly the defined filter fields with their search defaults; the edit form holds the editor fields with their add defaults |
| UseForm.ChangedKeys | src/components/EasyCrud/hooks/useForm.ts:26-46 | A key is reported as changed exactly when a snapshot key's live value differs from its snapshot |
| UseForm.Reset | src/components/EasyCrud/hooks/useForm.ts:53-70 | Without `close` only the widget's `resetFields` runs. With `close`, every snapshot key is copied back into the chosen form and other keys and the other form are untouched; the change watchers fire for exactly the keys that differed |
| UseForm.SetField | src/components/EasyCrud/hooks/useForm.ts:26-46 | Writing one field changes only that field; a change event is raised exactly when the key is watched and the value differs |
| UseForm.EditsKeepSnapshots | src/components/EasyCrud/hooks/useForm.ts:16-25 | No sequence of field edits touches the snapshots, the other form, the flags, the current row or the payload |
| UseForm.ResetRestoresSeed | src/components/EasyCrud/hooks/useForm.ts:53-66 | After any edits, a closing reset puts every seeded key back to its declared default |
| UseForm.ResetIdempotent | src/components/EasyCrud/hooks/useForm.ts:53-66 | A second closing reset changes nothing and fires no watcher |
| UseForm.SearchSeedOfWellFormed | src/components/EasyCrud/hooks/useForm.ts:22-25 | When every listed name is defined, the search form holds exactly the filter fields with their defaults |
| UseTable.TableColumns | src/components/EasyCrud/hooks/useTable.ts:15 | A column is shown exactly when it is both expandable and selected |
| UseTable.TableColumnsOrdered | src/components/EasyCrud/hooks/useTable.ts:15 | Shown columns keep the `expand` order (they form a subsequence of it) |
| UseTable.TableColumnsSetOnly | src/components/EasyCrud/hooks/useTable.ts:15 | Only which names are selected matters, not their order or repetition |
| UseTable.TableColumnsOnExpand | src/components/EasyCrud/hooks/useTable.ts:15 | Selected names outside `expand` have no effect |
| UseTable.TableColumnsOfOrderedCheck | src/components/EasyCrud/hooks/useTable.ts:15 | With distinct `expand` names, a selection already in `expand` order is shown exactly as given |
| UseTable.UseTableStore | src/components/EasyCrud/hooks/useTable.ts:10-23 | The table starts idle and empty, selects the configured columns, and takes each pagination value from the configuration unless it is `undefined`, in which case it falls back to 1, 10, 10/20/30/40/50 and the default layout |
| UseTable.PageSizesFallbacks | src/components/EasyCrud/hooks/useTable.ts:22 | Page sizes are 10/20/50/100 when pagination is not configured, and 10/20/30/40/50 when the caller passes `pageSizes: undefined` |
| UseTable.InitialColumns | src/components/EasyCrud/hooks/useTable.ts:14-15 | The initial columns are the `column` names that are also expandable |
| CrudTypes.KeyToUse | src/components/EasyCrud/hooks/useActions.ts:78 | A non-empty `rowKeys` wins over `rowKey`; there is no key exactly when neither is given |
| CrudTypes.GetValueFromRow | src/components/EasyCrud/hooks/useActions.ts:195-199 | The picked record has exactly the chosen key field(s), each holding the row's value |
| UseActions.RunHook | src/components/EasyCrud/hooks/useActions.ts:25-26 | A missing or non-function hook lets the action go on with the store untouched. A registered hook is handed the live form store; the action goes on exactly when its answer is truthy, and continues with the store as the hook left it |
| UseActions.PlainAnswerKeepsStore | src/components/EasyCrud/hooks/useActions.ts:25-26 | A hook that answers with a plain value writes nothing: the action continues with the store it handed over, exactly when the value is truthy |
| UseActions.Endpoint | src/components/EasyCrud/hooks/useActions.ts:29 | The request url is the base url, '/', and the endpoint name, or the text "undefined" when the endpoint is not set |
| UseActions.OrZero | src/components/EasyCrud/hooks/useActions.ts:42-43 | A missing page block reads as 0 for both the total and the page number |
| UseActions.QueryData | src/components/EasyCrud/hooks/useActions.ts:23 | The query payload holds the page number and size, the search fields and the call's parameters. Later sources win |
| UseActions.Query | src/components/EasyCrud/hooks/useActions.ts:21-50 | The payload (page, search form, parameters) is written to `formData` before `beforeQuery` runs; the request carries `formData` as that hook left it, and is made exactly when the hook allows. The table shows the rows `afterQuery` returns, with total and page from the answer (0 when missing), exactly when the request succeeded and that hook answered truthily; otherwise rows and counters are kept. Loading stops exactly on that success or on a failure that is not a cancellation; page size, sizes, layout and selection never change |
| UseActions.QueryWithoutHooks | src/components/EasyCrud/hooks/useActions.ts:21-45 | Without hooks, a query sends exactly its payload, and a successful one shows exactly the server's rows and counters; a `null` instead of rows leaves the table as it was, still loading |
| UseActions.QueryTwiceSameAnswer | src/components/EasyCrud/hooks/useActions.ts:21-50 | With the hook allowing both runs, querying again with the same answer leaves the table as the first query left it |
| UseActions.QuerySendsWhatHookWrote | src/components/EasyCrud/hooks/useActions.ts:23-30 | A `beforeQuery` hook that overwrites `formData` changes what is sent: the request carries exactly what the hook wrote |
| UseActions.Add | src/components/EasyCrud/hooks/useActions.ts:53-60 | Add titles the drawer for creation, hands that store to `beforeAdd`, sends nothing, leaves the table alone, and opens the drawer on the store the hook left exactly when the hook allows |
| UseActions.CopyEditorFields | src/components/EasyCrud/hooks/useActions.ts:68 | Each editor field takes the row's value; other edit fields keep theirs |
| UseActions.EditingStore | src/components/EasyCrud/hooks/useActions.ts:63-68 | Before `beforeEdit` runs, the store is titled for editing, holds the row as current row and has exactly the editor fields copied from the row; nothing else changes |
| UseActions.Edit | src/components/EasyCrud/hooks/useActions.ts:63-74 | Edit hands the editing store to `beforeEdit`, sends nothing, leaves the table alone, and opens the drawer on the store the hook left exactly when the hook allows |
| UseActions.RemoveData | src/components/EasyCrud/hooks/useActions.ts:85 | The removal payload holds the row's key fields and the toggled flag: 1 when the row's flag is 0, else 0 |
| UseActions.Remove | src/components/EasyCrud/hooks/useActions.ts:77-108 | Without any key only a warning is logged. Otherwise the removal payload is written to `formData` before `beforeRemove`; the dialog appears exactly when that hook allows; a request is made exactly when the user also confirms, to the delete endpoint with `formData` as the hook left it; success is reported exactly when the request succeeded and `afteRemove` allows. The table is never touched |
| UseActions.RemoveWithoutHooks | src/components/EasyCrud/hooks/useActions.ts:85-105 | Without hooks a confirmed removal shows the dialog, sends the key fields with the toggled flag, and reports success exactly when the request succeeds |
| UseActions.HandleAdd | src/components/EasyCrud/hooks/useActions.ts:133-153 | `formData` becomes the edit form before `beforeSubmitAdd`; a request is made exactly when that hook allows, carrying `formData` as it left it. Only a successful request that `afterSubmitAdd` allows re-queries with the edit form as that hook left it, closes the drawer and reports success; otherwise at most the request is made and the table is untouched |
| UseActions.HandleAddWithoutHooks | src/components/EasyCrud/hooks/useActions.ts:133-153 | Without hooks a successful creation sends the edit form, queries with it as parameters, closes the drawer and reports success |
| UseActions.FindRow | src/components/EasyCrud/hooks/useActions.ts:173 | `findIndex` gives the first row whose key field equals the value, or -1 when none does |
| UseActions.PatchOrRequery | src/components/EasyCrud/hooks/useActions.ts:171-182 | With a row key, a missing row makes `Object.assign` throw and nothing after it happens; otherwise only the table row and the drawer change. Without a row key the page is re-queried. Unless it threw, the drawer closes and success is reported last |
| UseActions.RequeryAfterEdit | src/components/EasyCrud/hooks/useActions.ts:177-182 | Without a row key the submitted data is queried as parameters: the request is made exactly when `beforeQuery` allows, the form is as that hook left it with the drawer closed, and success is reported last |
| UseActions.HandleEdit | src/components/EasyCrud/hooks/useActions.ts:156-184 | `formData` becomes the current row overlaid with the edit form before `beforeSubmitEdit`; a request is made exactly when that hook allows, carrying `formData` as it left it. Only a successful request that `afterSubmitEdit` allows goes on to patch or re-query, with the store as that hook left it; otherwise at most the request is made and the table is untouched |
| UseActions.EditPatchesOneRow | src/components/EasyCrud/hooks/useActions.ts:171-176 | With both hooks allowing, a successful edit merges `formData` as the hooks left it into exactly the first row with its key, keeping every other row and the page length; with no such row the table is untouched and the error is the last effect |
| UseActions.Submit | src/components/EasyCrud/hooks/useActions.ts:111-130 | Nothing happens without a form. An invalid form hands the fields and the store to `submitValidateErr` and warns exactly when it answers truthily. A valid one goes on exactly when `beforeSubmit` allows, to creation or editing by the drawer title as that hook left it |
| UseActions.EditThenSubmitSendsRow | src/components/EasyCrud/hooks/useActions.ts:63-74 | Without hooks, editing a row and submitting sends, to the edit endpoint, a payload that agrees with the row on every field |
| UseActions.AddThenSubmitSendsEditForm | src/components/EasyCrud/hooks/useActions.ts:133-143 | Without hooks, add then submit sends exactly the edit form to the add endpoint |
| UseActions.RemoveToggleInvolutive | src/components/EasyCrud/hooks/useActions.ts:85 | For a 0/1 flag, applying the removal toggle twice restores the flag |
| CommonProps.SwitchData | src/components/EasyCrud/index.ts:94-102 | The switch payload is the toggled flag, plus the row's key fields when the key choice is truthy |
| CommonProps.ShownFlag | src/components/EasyCrud/index.ts:108 | The switch shows the row's flag, or 0 when it is `undefined` or `null` |
| CommonProps.DeleteFlagSwitch | src/components/EasyCrud/index.ts:91-113 | The switch posts to the `deleteFlag` endpoint, shows the row's flag and carries the toggled payload |
| CommonProps.UpdateFlag | src/components/EasyCrud/index.ts:109 | Updating the model writes the new flag and leaves every other field alone |
| CommonProps.UpdateThenShow | src/components/EasyCrud/index.ts:108-109 | After the switch writes 0 or 1, it shows that value and offers the opposite one |
| CommonProps.SwitchAgreesWithRemove | src/components/EasyCrud/index.ts:94-102 | With a key, the switch sends the same payload as the table's remove action |
| CommonProps.MissingFlagShownAndSentAlike | src/components/EasyCrud/index.ts:96-108 | A row without a flag is shown as 0 and also sends 0, so the switch does not change it (see Findings) |
| CommonProps.SwitchDataIntended | src/components/EasyCrud/index.ts:96-108 | The corrected payload toggles the flag the switch shows |
| CommonProps.IntendedPayloadFlips | src/components/EasyCrud/index.ts:96-108 | With the correction, the value sent always differs from the value shown |
| ExampleCrud.ExampleWellFormed | src/views/example/crud-default.ts:113-200 | Every name in the four field lists has a definition |
| ExampleCrud.ExampleColumnsInExpand | src/views/example/crud-default.ts:198-199 | Every shown column is expandable, so the initial table shows exactly the `column` names |
| ExampleCrud.PasswordOnlyWhenCreating | src/views/example/crud-default.ts:127-140 | The password field appears in the create drawer and in no other mode, and no other field has a visibility rule |
| ExampleCrud.SearchDefaults | src/views/example/crud-default.ts:109-126 | `deleteFlag` searches for 0 by default and `userName` has no default |
| ExampleCrud.ExampleSearchSeed | src/views/example/crud-default.ts:195-196 | The page's search form starts with exactly the filter fields, `deleteFlag` at 0 |
| ExampleCrud.Enabled | src/views/example/crud-default.ts:216 | The kept options are exactly the given ones that are not disabled |
| ExampleCrud.EnabledAppend | src/views/example/crud-default.ts:216 | The filter keeps a single option exactly when it is enabled and distributes over concatenation, so kept options stay in order with their repetitions |
| ExampleCrud.EnabledKeepsAllEnabled | src/views/example/crud-default.ts:216 | A list without disabled options comes back unchanged |
| ExampleCrud.InstallOptions | src/views/example/crud-default.ts:211-219 | Each answered key whose definition has an option list gets the enabled options; every other definition is unchanged |
| ExampleCrud.Warned | src/views/example/crud-default.ts:214-218 | A warning is logged exactly for the answered keys without an option list |
| ExampleCrud.ExampleOptionsInstalled | src/views/example/crud-default.ts:204-219 | Whatever the store answers for the three keys asked, no warning is raised and no disabled option is offered |
| ExampleCrud.AdminTypeNotOffered | src/views/example/crud-default.ts:207 | A user type with id 1 is disabled and filtered out; any other is offered with its id and value |
| SystemParams.HashKey | src/stores/useSystemParams.ts:76-78 | The cache key is the map key, '_', and the digest's first eight characters (all of it when shorter) |
| SystemParams.UpdateCache | src/stores/useSystemParams.ts:95-98 | The write stores the options and an expiry eight hours ahead, leaves other entries alone, and is valid at once |
| SystemParams.UpdatedCacheLifetime | src/stores/useSystemParams.ts:86-98 | A fresh entry is valid exactly until eight hours have passed |
| SystemParams.ToOption | src/stores/useSystemParams.ts:143-147 | Each custom mapping replaces its default: `itemId`, `itemValue`, not disabled |
| SystemParams.ToOptions | src/stores/useSystemParams.ts:143 | Items map to options one for one, in order |
| SystemParams.DefaultOptionMapping | src/stores/useSystemParams.ts:143-147 | A mapping without functions gives every item as id, value, enabled |
| SystemParams.PartitionByCache | src/stores/useSystemParams.ts:117-127 | The cache pass only answers requested keys, and queues at most one class key per entry |
| SystemParams.PartitionSpec | src/stores/useSystemParams.ts:117-127 | Keys with a valid cache entry are answered from the cache; exactly the other entries' class keys, in order, are requested |
| SystemParams.PartitionNoCache | src/stores/useSystemParams.ts:117-127 | The queued class keys are those of the uncached entries, in map order |
| SystemParams.PartitionResult | src/stores/useSystemParams.ts:117-127 | Each key is answered by the pass exactly when its cache entry is valid, and then with the cached options |
| SystemParams.FirstIndex | src/stores/useSystemParams.ts:135 | `indexOf` gives the first position of the key, or -1 exactly when it is absent |
| SystemParams.ApplyGroups | src/stores/useSystemParams.ts:133-153 | Folding the fetched groups only answers keys that were requested or already answered, never loses an answer or a cache entry, and leaves answers under keys no entry has as they were |
| SystemParams.ApplyGroupsAppend | src/stores/useSystemParams.ts:133 | The groups are folded one after another: two runs of groups fold as the first run, then the second |
| SystemParams.ApplyGroupsAnswers | src/stores/useSystemParams.ts:133-153 | Any non-empty group of a class answers the first entry asking for that class |
| SystemParams.ApplyOneGroup | src/stores/useSystemParams.ts:133-153 | A non-empty group goes to the first entry whose class key matches its first item, as options built by that entry's mapping, and is cached under that entry's hash key for eight hours; when no entry matches it changes neither answer nor cache |
| SystemParams.GetSystemParams | src/stores/useSystemParams.ts:105-157 | A request is made exactly when some entry is uncached, and carries their class keys. Without one, the cache answers and is unchanged; a failed request rejects and leaves the cache unchanged; a successful one folds its groups over the cached answers with the clock read after the request. Every entry with a valid cache entry is answered |
| SystemParams.FetchedAnswers | src/stores/useSystemParams.ts:105-157 | After a successful request every entry is answered that was cached, or that is the first to ask for a class the answer holds a non-empty group of |
| SystemParams.UncachedHas | src/stores/useSystemParams.ts:117-127 | An entry whose cache is not valid is among those whose class keys are requested |
| LayoutStore.ToggleCollapse | src/stores/useLayout.ts:14-16 | Toggling flips the collapsed flag and keeps the mode |
| LayoutStore.SetLayoutMode | src/stores/useLayout.ts:20-22 | Setting the mode changes only the mode |
| LayoutStore.ResetStore | src/stores/useLayout.ts:24-27 | A reset expands the side bar and selects the vertical layout |
| LayoutStore.ToggleTwice | src/stores/useLayout.ts:14-16 | Toggling twice is the identity |
| LayoutStore.SetLayoutModeLastWins | src/stores/useLayout.ts:20-22 | The last mode set wins, and setting the current mode changes nothing |
| LayoutStore.ResetFromAnyState | src/stores/useLayout.ts:12-27 | A reset reaches the initial state from anywhere, and toggling commutes with setting the mode |
| UserStore.OwnRole | src/stores/useUser.ts:82 | The user's roles are the keys of the permission map, or none without one |
| UserStore.Reset | src/stores/useUser.ts:84-89 | A reset clears the user info, token, rights and permissions |
| UserStore.ResetLogsOut | src/stores/useUser.ts:81-89 | After a reset the user is logged out and has no role |
| UserStore.LoginNeedsAllParts | src/stores/useUser.ts:81 | Being logged in needs a non-empty token, a permission map and user info, and those suffice |
| LoginStore.ChildKeys | src/stores/useLogin.ts:210 | The child keys are the children's `domKey`s, in order |
| LoginStore.Traverse | src/stores/useLogin.ts:205-218 | Traversal only adds non-empty keys, each with a non-empty child list |
| LoginStore.TraverseAll | src/stores/useLogin.ts:216 | Traversing a list of children keeps what was there and adds only non-empty keys with non-empty lists |
| LoginStore.GeneratePermissions | src/stores/useLogin.ts:202-223 | Every role in the map has a non-empty name and a non-empty list |
| LoginStore.FoldAppend | src/stores/useLogin.ts:205-218 | Recording two batches of entries in turn is recording their concatenation |
| LoginStore.FoldOne | src/stores/useLogin.ts:213 | Recording one entry is one map update |
| LoginStore.TraverseIsFold | src/stores/useLogin.ts:205-218 | The recursive traversal equals recording, in pre-order, every named node that has children |
| LoginStore.TraverseAllIsFold | src/stores/useLogin.ts:216 | Traversing the children in order equals recording their pre-order entries |
| LoginStore.FoldLookup | src/stores/useLogin.ts:212-213 | After recording, a key is present exactly when it was before or was recorded; its value is the last one recorded |
| LoginStore.GeneratePermissionsSpec | src/stores/useLogin.ts:202-223 | A role is in the map exactly when some node in pre-order has that name and children; the last such node decides its list |
| LoginStore.EntriesOfRoot | src/stores/useLogin.ts:208-213 | A childless root gives the empty map; a named root with children is recorded first |
| LoginStore.LaterNodeOverwrites | src/stores/useLogin.ts:212-216 | When two nodes share a `domKey`, the one visited later overwrites the earlier list |
| LoginStore.RedirectPath | src/stores/useLogin.ts:105 | Login goes to the redirect query when it is non-empty, else to '/' |
| LoginStore.Login | src/stores/useLogin.ts:70-112 | Missing data fails with nothing stored. Otherwise the token and user info are stored before the rights are parsed, so a later failure keeps them. A falsy tree stores `{}` and then fails; only a real tree stores permissions and navigates |
| LoginStore.LoginSucceedsIff | src/stores/useLogin.ts:78-106 | Login succeeds exactly with complete data and a parsable tree. It then leaves the user logged in with the tree's roles, and the next guard registers the menu built from them |
| LoginStore.FailedLoginStaysLoggedOut | src/stores/useLogin.ts:108-111 | A failed login from a logged-out state stays logged out and navigates nowhere |
| LoginStore.Logout | src/stores/useLogin.ts:159-165 | Logout clears the user, clears the route flag and goes to /login |
| LoginStore.LogoutThenGuard | src/stores/useLogin.ts:159-165 | After logout, any page outside the white list sends the user to /login, and the next login registers the menu routes again |
| LoginStore.Serialize | src/stores/useLogin.ts:182-189 | The saved login form exists exactly when "remember" is on, and it keeps the name and password |
| LoginStore.Restore | src/stores/useLogin.ts:179-190 | Restoring nothing keeps the form; restoring keeps the verify code the form has |
| LoginStore.SerializeRoundTrip | src/stores/useLogin.ts:63-68 | A remembered form comes back without its verify code; a form that is not remembered comes back as the default |
| RouterStore.FilterRoutes | src/stores/useRouter.ts:99-128 | Filtering never lengthens a route list |
| RouterStore.FilterOne | src/stores/useRouter.ts:100-126 | A route is kept exactly when it is visible, permitted and either a leaf or a parent with a non-empty filtered child list; a kept route keeps its own fields, and a parent keeps only its filtered children |
| RouterStore.FilterRoutesSound | src/stores/useRouter.ts:99-128 | At every depth the filtered menu holds only visible, permitted routes, and no parent is left without children |
| RouterStore.FilterRoutesPrunes | src/stores/useRouter.ts:99-128 | The filtered menu is an order-preserving pruning of the original tree |
| RouterStore.FilterRoutesIdempotent | src/stores/useRouter.ts:99-128 | Filtering twice with the same roles gives the same menu |
| RouterStore.FilterKeepsShownLeaves | src/stores/useRouter.ts:102-125 | Every visible, permitted leaf of the list filtered survives unchanged; leaves at deeper levels are covered by `RouterStore.FilterRoutesExact` with `RouterStore.SurvivesByChild` |
| RouterStore.MenuRoutes | src/stores/useRouter.ts:11-16 | The "all" role sees every route; anyone else gets a sound pruning that keeps exactly the surviving routes at every level |
| RouterStore.FilterOneSurvives | src/stores/useRouter.ts:100-126 | One filter step keeps a route exactly when it survives: visible, permitted, and a leaf or a parent of a surviving route |
| RouterStore.FilterRoutesNonEmpty | src/stores/useRouter.ts:99-128 | A filtered list is non-empty exactly when one of its routes survives |
| RouterStore.FilterRoutesExact | src/stores/useRouter.ts:99-128 | The filter keeps exactly the surviving routes, in order, at every level, with their own fields |
| RouterStore.SurvivesByChild | src/stores/useRouter.ts:117-125 | A visible, permitted parent of a surviving route survives, so a surviving leaf keeps its visible, permitted ancestors |
| RouterStore.SortEachChildrenAt | src/stores/useRouter.ts:148-158 | Each route keeps its place and gets its children sorted |
| RouterStore.SortThenMap | src/stores/useRouter.ts:138-158 | The result is the stable sort by order, followed by sorting each route's children |
| RouterStore.SortRoutesSorted | src/stores/useRouter.ts:136-162 | Orders never decrease along any child list at any depth |
| RouterStore.SortEachChildrenSorted | src/stores/useRouter.ts:148-158 | After the map step, every route's children are sorted at every depth |
| RouterStore.NodesOfSorted | src/stores/useRouter.ts:138-145 | Ignoring children, the sorted list is the stable sort by order of the input |
| RouterStore.NodesOfEach | src/stores/useRouter.ts:148-158 | Sorting the children changes no route's own fields |
| RouterStore.SortRoutesPermutes | src/stores/useRouter.ts:138-145 | The sort is a permutation, and routes with equal order keep their relative order |
| RouterStore.AddRoute | src/stores/useRouter.ts:23-30 | Adding registers the sorted, filtered menu tree once more and sets the flag |
| RouterStore.HandleRouteGuard | src/stores/useRouter.ts:34-65 | A logged-out visit passes only the white list and otherwise goes to /login with its origin. A logged-in visit to /login is blocked. The first other visit registers the menu and re-navigates, or goes back to the origin of a /404; later visits pass |
| RouterStore.Reset | src/stores/useRouter.ts:68-70 | Reset clears the flag; routes already registered stay registered |
| RouterStore.LoggedOutOnlyWhiteList | src/stores/useRouter.ts:35-48 | Logged out, a visit is allowed exactly when its path is on the white list, and no route is registered |
| RouterStore.RoutesRegisteredOnce | src/stores/useRouter.ts:50-64 | Logged in, one visit registers the menu at most once; after that every visit except /login passes and registers nothing |
| RouterStore.ResetRegistersAgain | src/stores/useRouter.ts:53-62 | After a reset, the next logged-in visit registers the menu again |
| Routes.Node | src/router/utils.ts:51 | The child-less copy of a route keeps its order |
| Routes.Nodes | src/router/utils.ts:51 | The copies of a list, one per route, in order |
| Sorting.InsertIndex | src/router/utils.ts:84-96 | The insertion point lies within the list, and exactly the elements before it are not greater than the new one |
| Sorting.InsertBy | src/router/utils.ts:82-99 | Insertion puts the element at its insertion point and keeps every other element in order |
| Sorting.InsertByPermutes | src/router/utils.ts:82-99 | Insertion adds exactly the one element and loses none |
| Sorting.InsertKeepsSorted | src/router/utils.ts:82-99 | Inserting into a sorted list keeps it sorted |
| Sorting.SortBy | src/stores/useRouter.ts:138-145 | Sorting by a key is a permutation |
| Sorting.SortBySorted | src/stores/useRouter.ts:138-145 | Keys never decrease along the sorted list |
| Sorting.SortByStable | src/stores/useRouter.ts:138-145 | Elements with equal keys keep their relative order |
| Sorting.SortByMap | src/stores/useRouter.ts:148-158 | Mapping a key-preserving function commutes with sorting |
| RouteBuild.Level | src/router/utils.ts:22 | A path's level is the number of '/' in it plus one |
| RouteBuild.PagePath | src/router/utils.ts:27 | The route path is never empty |
| RouteBuild.PagePathOfModule | src/router/utils.ts:27 | A module `../views<dir>/page.ts` gets the path `<dir>`, or `/index` at the root |
| RouteBuild.MenuPagePath | src/views/menu/page.ts:4-8 | The menu module is served at /menu |
| RouteBuild.IndexPagePath | src/views/page.ts:4-8 | The root module is served at /index |
| RouteBuild.RouteName | src/router/utils.ts:28 | A route name is never empty |
| RouteBuild.RouteNameSegments | src/router/utils.ts:28 | The name is the non-empty path segments joined by '_', so splitting it on '_' gives them back |
| RouteBuild.RouteNameExample | src/router/utils.ts:28 | /menu is named "menu" and /index "index" |
| RouteBuild.NameOfOneSegment | src/router/utils.ts:28 | A one-segment path is named after its segment |
| RouteBuild.ComponentKeyOfModule | src/router/utils.ts:29 | A page module's component is the `index.vue` next to it |
| RouteBuild.FlatRoute | src/router/utils.ts:24-34 | A flat route takes its path, name, component presence, redirect below its own path, and meta from the module, with no children |
| RouteBuild.OrderedPages | src/router/utils.ts:21-24 | The ordered pages are a permutation of the pages |
| RouteBuild.BuildFlatRoutes | src/router/utils.ts:20-35 | One flat route per page, in the deeper-first order |
| RouteBuild.OrderedPagesDeeperFirst | src/router/utils.ts:21-24 | Pages are ordered from deepest to shallowest, and pages of equal depth keep their order |
| RouteBuild.RouteGreaterAsymmetric | src/router/utils.ts:89-90 | The insertion comparison never holds both ways |
| RouteBuild.InsertRoute | src/router/utils.ts:82-99 | The route goes before the first entry that has a greater order, or an equal order and a greater path; when there is none it goes last |
| RouteBuild.InsertRouteKeepsOthers | src/router/utils.ts:87-98 | Inserting adds exactly the route, and removing it gives back the list |
| RouteBuild.InsertRouteKeepsSorted | src/router/utils.ts:82-99 | Inserting into a list sorted by (order, path) keeps it sorted |
| RouteBuild.Objects | src/router/utils.ts:51 | There is one child-less object per distinct path; the last route with a path wins |
| RouteBuild.Paths | src/router/utils.ts:51-52 | Each path appears once, as a `Map` iterates its keys |
| RouteBuild.ParentPath | src/router/utils.ts:57 | The parent path is never empty |
| RouteBuild.ParentPathOf | src/router/utils.ts:57 | The parent of `a/b` is `a`, or '/' when `a` is empty |
| RouteBuild.ParentPathExamples | src/router/utils.ts:57 | /menu lives under '/' and /menu/sub under /menu |
| RouteBuild.SubUnderMenu | src/router/utils.ts:57 | /menu/sub lives under /menu |
| RouteBuild.PrependCopy | src/router/utils.ts:54-55 | A route with a component gets a child-less copy of itself at the head of its children; nothing else changes |
| RouteBuild.Place | src/router/utils.ts:52-66 | A route still in the map is inserted among its parent's children and leaves the map; any other route is inserted at the top level |
| RouteBuild.Materialize | src/router/utils.ts:47-70 | Reading a route out of the heap gives its own fields |
| RouteBuild.MaterializeAll | src/router/utils.ts:47-70 | Reading a child list gives one route per entry, in order |
| RouteBuild.BuildNestedRoutes | src/router/utils.ts:47-70 | The result has one route per top-level entry |
| RouteBuild.PlaceKeepsPlaced | src/router/utils.ts:60-66 | Placing a route never unplaces another |
| RouteBuild.NestAllPlacesAll | src/router/utils.ts:52-67 | After the pass, every path is placed somewhere |
| RouteBuild.NestAllTopSorted | src/router/utils.ts:65 | The top level stays sorted by (order, path) |
| RouteBuild.BuildNestedSpec | src/router/utils.ts:47-70 | Every flat route is placed in the top-level list or in some route's child list of the nesting the result is read from, and the returned top level is sorted by (order, path) |
| RouteBuild.TwoObjects | src/router/utils.ts:51 | Two routes with distinct paths give two objects, in order |
| RouteBuild.PlaceFirstOfTwo | src/router/utils.ts:54-66 | A first top-level route gets its self-copy and opens the top list |
| RouteBuild.PlaceSecondOfTwo | src/router/utils.ts:54-66 | A second top-level route with a smaller key goes before the first |
| RouteBuild.TwoTopLevelNest | src/router/utils.ts:47-70 | Two unrelated top-level routes end up as two sorted top entries, each with its self-copy |
| RouteBuild.SelfCopyMaterializes | src/router/utils.ts:54-55 | A route whose only child is its copy reads out as itself with itself as its one child |
| RouteBuild.TwoTopLevelRoutes | src/router/utils.ts:47-70 | Two unrelated routes with components nest as [smaller with itself as child, larger with itself as child] |
| RouteBuild.SampleNesting | src/router/utils.ts:47-70 | The repository's two pages nest as /index above /menu, each with its self-copy |
| RouteBuild.SamplePagesFacts | src/views/menu/page.ts:4-8 | Both sample pages live under '/', and /menu (order 1) sorts after /index (order -99) |
| RouteBuild.MenuUnderRoot | src/router/utils.ts:57 | /menu has the parent '/' |
| RouteBuild.IndexUnderRoot | src/router/utils.ts:57 | /index has the parent '/' |
| HttpClient.AxiosMethod | src/utils/http.ts:336 | The method in a request key is the request's method in lower case, or "get" when it is missing, undefined or empty |
| HttpClient.MethodCaseIgnored | src/utils/http.ts:336 | Methods differing only in case share a request key, and so do a missing or undefined method and "GET" |
| HttpClient.HandleCancelToken | src/utils/http.ts:336-352 | Any live source under the same method:url is cancelled, and exactly one source is stored for the key. It is a do-nothing source when the config carries a token; otherwise it is a fresh live one, which the config then carries |
| HttpClient.RemoveCancelToken | src/utils/http.ts:355-358 | Removal drops exactly the original method:url key |
| HttpClient.InterceptRequest | src/utils/http.ts:83-102 | The counter rises by one; only the first request schedules the progress bar. The original url is saved, and a cancel source is registered unless cancellation is switched off |
| HttpClient.InterceptRequestError | src/utils/http.ts:103-110 | A request error zeroes the counter and ends the progress bar |
| HttpClient.SplitMessage | src/utils/http.ts:361-365 | Without ':' the whole message is the body. With ':' the title is the text before the first ':' and the body is the text up to the next ':' |
| HttpClient.FirstPiece | src/utils/http.ts:363-364 | The first piece of a split is a colon-free prefix ending at the end of the text or at the separator |
| HttpClient.SplitMessageOneColon | src/utils/http.ts:361-365 | With exactly one ':', title ':' body gives back the message |
| HttpClient.Classify | src/utils/http.ts:126-163 | The verify-code url, and only it, resolves raw data. Otherwise a missing content type or one of the two download types resolves the whole response; any other type resolves the envelope data exactly when `code` is 0 and rejects exactly when it is not |
| HttpClient.OnResponse | src/utils/http.ts:117-164 | The answer clears the timer, drops its cancel source and lowers the counter. The progress bar ends exactly at zero, a notification is shown exactly on rejection, and the missing-content-type warning exactly when that branch is taken |
| HttpClient.HandleTimeoutError | src/utils/http.ts:382-409 | Without a config the error rejects. With retries left the request is resubmitted at the original url with one retry fewer after `retryDelay`, or 1000 ms when that is unset or 0. Otherwise it gives up |
| HttpClient.OnError | src/utils/http.ts:165-183 | Every error drops its source and lowers the counter. Exactly the timeout errors go to the retry logic, without clearing the timer or ending the progress bar |
| HttpClient.Outgoing | src/utils/http.ts:83-102 | The interceptor keeps the retry count, timeout, url and method, records the url as the original, and keeps a token the config already carries |
| HttpClient.Resubmitted | src/utils/http.ts:172-217 | A timed-out request is resubmitted through `Request`: the retry count and url are kept, `timeout` becomes undefined, and the timed-out attempt's token stays on the config |
| HttpClient.Resubmissions | src/utils/http.ts:382-409 | A request that keeps timing out is resubmitted at most `retry` times, and at least once exactly when its first attempt can time out and it has retries left |
| HttpClient.ResubmittedAtMostOnce | src/utils/http.ts:193-217 | On an instance without a default timeout a request is resubmitted at most once, whatever `retry` says (see Findings) |
| HttpClient.ResubmissionsWithInstanceTimeout | src/utils/http.ts:382-409 | On an instance with a positive default timeout a request that keeps timing out is resubmitted exactly `retry` times |
| HttpClient.RetryRequestConfig | src/utils/http.ts:230-232 | Missing fields default to 3 retries, 5000 ms timeout, 1000 ms delay and POST; every field the caller sets, `undefined` included, is kept |
| HttpClient.RetryRequestUndefinedMethod | src/utils/http.ts:230-232 | A caller's `method: undefined` survives the spread, so the request goes out as a GET; a missing method gives a POST |
| HttpClient.RetryRequestResubmitsOnce | src/utils/http.ts:230-232 | `RetryRequest` on the shared instance grants three retries by default, yet a request that keeps timing out is resubmitted once (see Findings) |
| HttpClient.ResubmittedIntended | src/utils/http.ts:390-403 | The corrected resubmission keeps the retry count, url and timeout of the timed-out attempt |
| HttpClient.ResubmissionsIntended | src/utils/http.ts:390-403 | The corrected chain resubmits at most `retry` times, and at least once exactly when the first attempt can time out with retries left |
| HttpClient.ResubmissionsIntendedExact | src/utils/http.ts:390-403 | With the correction a request that keeps timing out is resubmitted exactly `retry` times on any instance |
| HttpClient.RetryRequestResubmitsThriceIntended | src/utils/http.ts:230-232 | With the correction `RetryRequest` resubmits three times by default |
| HttpClient.Request | src/utils/http.ts:193-217 | The request carries its own token unless the config has one, drops `timeout`, and arms a manual timer for the given timeout or 5000 ms |
| HttpClient.SupersededRequestNotCancelled | src/utils/http.ts:214 | A second request to the same method and url cancels nothing (see Findings) |
| HttpClient.HandleCancelTokenIntended | src/utils/http.ts:336-352 | The corrected registration always stores a live source for the token the config carries |
| HttpClient.SupersededRequestCancelledIntended | src/utils/http.ts:336-352 | With the correction, a second request cancels the first one's token |
| HttpClient.ManualTimeoutNotRetried | src/utils/http.ts:198-200 | The manual timer's cancellation carries no config and is not a timeout: it is never retried, and the request's cancel source stays registered under its key (see Findings) |
| HttpClient.WithSentConfig | src/utils/http.ts:382-386 | An error without a config is paired with the config its request was sent with; an error with one is unchanged |
| HttpClient.OnErrorIntended | src/utils/http.ts:165-183 | The corrected handler treats the manual timer's cancellation as a timeout, handles an error without a config with the config the request was sent with, and ends the progress bar whenever no resubmission follows and the counter reaches zero |
| HttpClient.ManualTimeoutRetriedIntended | src/utils/http.ts:377-409 | With the correction, a `Request` that the manual timer cancels while it has retries left is resubmitted to its own url and method with one retry fewer, and its cancel source is forgotten |
| HttpClient.ExhaustedTimeoutLeavesProgress | src/utils/http.ts:170-173 | A last timeout gives up with the counter at zero but the progress bar still running (see Findings) |
| HttpClient.ExhaustedTimeoutFinishesProgressIntended | src/utils/http.ts:406-408 | With the correction, that last timeout ends the progress bar |
| HttpClient.RequestThenResponseForgetsSource | src/utils/http.ts:93-124 | A request and its answer leave the counter as it was and no source under the key, and keep other sources |
| HttpClient.Run | src/utils/http.ts:85-180 | After any run of sends and answers, the counter is the number of sends minus the number of answers |
| HttpClient.Sends | src/utils/http.ts:87 | The number of requests among the events: all of them exactly when every event is a request, none exactly when every event is an answer |
| HttpClient.SendsAppend | src/utils/http.ts:87 | The request count of two event runs put together is the sum of their counts |
| HttpClient.OneRoundTrip | src/utils/http.ts:85-121 | One send and its answer start the progress bar and end it |
| HttpClient.DownloadFilename | src/utils/http.ts:289-310 | An empty body downloads nothing. A Content-Disposition header decides the name, or "unknown"; otherwise the name is a non-empty, slash-free piece of the original url, or "unknown" |
| HttpClient.FilenameIsLastSegment | src/utils/http.ts:308-309 | Without the header the name is the text after the last '/', or "unknown" when that is empty |
| HttpClient.LastPiece | src/utils/http.ts:309 | The last piece of a split is the text after the last separator |

## Left out

- The network, timers, `NProgress`, `ElMessage`, `ElNotification` and `ElMessageBox` become effects or parameters: a request's outcome, the dialog's answer and form validation are inputs, and the effect lists record what would be shown.
- Three `console.warn` calls are kept, because each marks a branch: the missing content type (`HttpClient.OnResponse`), the missing row key (`UseActions.Remove`) and the missing option list (`ExampleCrud.Warned`).
- Every other `console` call is dropped, including `console.log` in `useForm`'s reset, `handleCommonErrors`, `logout` and the store's route guard, and `console.error` in the login store. They only log. The change watchers of `useForm` emit `change:searchForm` or `change:editForm` with the form and the key; those emits are the change events in `UseForm`, and only the watchers' debug-only `console.log` is dropped.
- Concurrency and interleaving of promises are not modelled. Each action runs to completion with the outcomes it is given, and `HttpClient.Run` replays interceptor calls in one order.
- Vue reactivity, `watch`, `computed`, rendering (`h()`, Logo, Menu) and the widget components are not modelled. A watcher firing is an event in `UseForm`.
- Session, local and Pinia persistence are not modelled. The login form's `pick` and serializer are modelled as `Serialize` and `Restore`.
- `JSON.parse`, `JSON.stringify`, MD5, SHA-256, `decodeURIComponent` and the Content-Disposition regular expression are not modelled. The parse outcome, the digest and the parsed filename are parameters.
- Download progress uses floating-point ratios and is not modelled.
- `getVerifyCode` and `simulateLogin` are not modelled. The first only fetches an image url; the second writes a fixed fake user.
- The `userId` remote search of the example page is a network call inside a widget callback and is not modelled.
- `src/utils/http/index.ts` and `src/api/modules/user.ts` are not part of this model; they only wrap the client.
- `src/router/index.ts` is not part of this model. The guard it installs is its own inline `router.beforeEach` (src/router/index.ts:63-89), not `RouterStore.HandleRouteGuard`. That guard registers the routes on the first visit and then returns at line 89, so its login checks are unreachable. It also reads `isAddRoute` and `addRoute` from the user store, which defines neither.
- Nothing in the source calls the store's `handleRouteGuard`. `RouterStore.HandleRouteGuard`, and the lemmas that run it after a login or logout (`LoginStore.LoginSucceedsIff`, `LoginStore.LogoutThenGuard`), describe that function as written, not what a visit does in the running application.
- `EasyCrudRequest`'s answer is opaque: an action receives it as an `Outcome`.
- A truthy `afterQuery` result that is not a row list lies outside the hook's declared type. The table then gets no rows.
- A route's `children: undefined` is treated as `[]`. Filtering and sorting treat the two alike.
- A permission tree node always has `nodeData`. Any other JSON value is the single `NotATree` case, on which `generatePermissions` throws.
- `route.query.redirect` given as an array is not modelled; it is a string or absent.
- `isCancelToken` defaults to true, as `createAxiosInstance` sets it. An explicit `false` is the only way to switch cancellation off.
- A hook that replaces the store's refs themselves (`formStore.formData = …` rather than `formStore.formData.value = …`) is not modelled: the action keeps the refs it destructured, so such a write would go unseen, and the model treats every store a hook hands back as written through.
- UseActions.PatchOrRequery: `currentRow` is held by value. In the source `Edit` stores the very row object it is given, and a table row slot passes the table's row, so the `Object.assign` patch changes `currentRow` too; who calls `Edit` with which object is not part of this model. The same holds for UseActions.HandleEdit.
- Routes.OrderOf: `meta.order` is an integer; the source's `number` also admits fractions. Only the comparison of orders is used, which fractions would not change in kind.
- HttpClient.Resubmissions: a negative `timeout` is treated like 0, as no timeout.
- HttpClient.ResubmissionsWithInstanceTimeout: assumes every attempt ends in an axios timeout; the manual timer of `Request` is not part of the chain. It fires at `timeout ?? 5000` and is never cleared. If the first attempt itself went through `Request`, it carries the timer's token. On an instance whose default timeout is longer, such as the CRUD actions' 10 s, the timer then cancels the attempt first, and nothing is resubmitted (see `HttpClient.ManualTimeoutNotRetried`).
- UserStore.OwnRole: the roles are a set rather than the key array, because only membership is ever asked of them.
- RouteBuild.Materialize: reading the tree out of the heap takes a fuel bound (the number of paths plus one). A route with path '/' is its own parent, so the source puts it into its own child list and builds a cyclic object; the model cuts that cycle after finitely many levels. That the bound never truncates a cycle-free tree is not proved.
- RouteBuild.BuildNestedSpec: placement is proved in the nesting state that the result is read from, not as reachability in the returned tree, because the read-out uses fuel (see `RouteBuild.Materialize`).
- RouteBuild.BuildNestedRoutes: the contract gives only the length; placement and ordering are in `RouteBuild.BuildNestedSpec`, and concrete shapes in the two-route lemmas.
- ExampleCrud.ExampleColumnsInExpand: states which columns are shown; their order is `UseTable.TableColumnsOrdered`.
- RouterStore.FilterRoutes: the contract gives only the length bound; soundness, pruning and exactly what is kept are the lemmas after it.

## Findings

| source | as written | input that shows it | evidently intended | confidence | as-written member | corrected member |
|---|---|---|---|---|---|---|
| src/utils/http.ts:214 | `Request` always passes `cancelToken` to the instance, so `handleCancelToken` stores a source whose `cancel` does nothing | two `Request` calls with the same method and url, neither answered | the second request cancels the first | not executed | HttpClient.SupersededRequestNotCancelled | HttpClient.SupersededRequestCancelledIntended |
| src/utils/http.ts:198-200 | the manual timer cancels with reason "超时手动取消请求"; the resulting error has code `ERR_CANCELED` and no config, so `isTimeoutError` rejects it and the error interceptor cannot remove the request's cancel source | any `Request` whose server is silent past the timeout, with `retry: 3` | a manual timeout is retried like an axios timeout, which also needs the config the request was sent with, because `handleTimeoutError` rejects an error without one (http.ts:385-386) | not executed | HttpClient.ManualTimeoutNotRetried | HttpClient.ManualTimeoutRetriedIntended |
| src/utils/http.ts:172 | a timed-out request is resubmitted through `Request`, which sets `timeout` to undefined, so axios falls back to the instance's default; the shared instance has none, and the manual timer cancels a token the resubmission does not carry | `RetryPOST` on the shared instance (the login call) against a server that never answers: one resubmission, which then never times out | a request that keeps timing out is resubmitted `retry` times, three by default | not executed; relies on axios taking the instance's timeout for an undefined one | HttpClient.RetryRequestResubmitsOnce | HttpClient.RetryRequestResubmitsThriceIntended |
| src/utils/http.ts:170-173 | the timeout branch lowers the counter but never calls `NProgress.done()`, even when it gives up | one request with `retry: 0` that times out | the progress bar ends when the last request gives up | not executed | HttpClient.ExhaustedTimeoutLeavesProgress | HttpClient.ExhaustedTimeoutFinishesProgressIntended |
| src/components/EasyCrud/index.ts:96-108 | the switch shows `deleteFlag ?? 0` but sends `deleteFlag === 0 ? 1 : 0` | a row with no `deleteFlag`: it shows 0 and sends 0 | the switch sends the opposite of what it shows | not executed | CommonProps.MissingFlagShownAndSentAlike | CommonProps.IntendedPayloadFlips |

=== FILE: common_props.dfy ===
/** The `deleteFlag` column of `CommonProps`: the soft-delete switch shown
    in every row, its request payload, its displayed value and its url. The
    rendering itself is not modelled. */
module CommonProps {
  import opened Values
  import opened CrudTypes
  import UseActions

  /** The column's search-form default. */
  const DeleteFlagSearchDefault: Value := Num(0)

  /** What the switch of one row is given. */
  datatype SwitchProps = SwitchProps(modelValue: Value, url: string, formData: Record)

  /** `if (keyToUse)`: a key list is an array and always truthy; a single key
      is truthy unless it is the empty string. */
  predicate KeyTruthy(k: KeyChoice) {
    k.KeyList? || (k.SingleKey? && k.key != "")
  }

  /** The switch's payload: the key field(s) of the row when the key choice
      is truthy, and the toggled flag. */
  function SwitchData(row: Record, k: KeyChoice): (d: Record)
    ensures "deleteFlag" in d && d["deleteFlag"] == (if Get(row, "deleteFlag") == Num(0) then Num(1) else Num(0))
    ensures !KeyTruthy(k) ==> d.Keys == {"deleteFlag"}
    ensures KeyTruthy(k) ==> d.Keys == GetValueFromRow(row, k).Keys + {"deleteFlag"}
    ensures forall f :: f in d && f != "deleteFlag" ==> d[f] == Get(row, f)
  {
    if KeyTruthy(k) then GetValueFromRow(row, k)["deleteFlag" := ToggledDeleteFlag(row)]
    else map["deleteFlag" := ToggledDeleteFlag(row)]
  }

  /** `row.deleteFlag ?? 0` */
  function ShownFlag(row: Record): (v: Value)
    ensures Get(row, "deleteFlag") != Undefined && Get(row, "deleteFlag") != Null ==> v == Get(row, "deleteFlag")
    ensures Get(row, "deleteFlag") == Undefined || Get(row, "deleteFlag") == Null ==> v == Num(0)
  {
    var f := Get(row, "deleteFlag");
    if f == Undefined || f == Null then Num(0) else f
  }

  /** The switch of one row as the column renders it. */
  function DeleteFlagSwitch(cfg: CrudConfig, row: Record): (p: SwitchProps)
    ensures p.url == UseActions.Endpoint(cfg.url, cfg.apiEndpoints.deleteFlag)
    ensures p.modelValue == ShownFlag(row)
    ensures p.formData == SwitchData(row, KeyToUse(cfg.rowKey, cfg.rowKeys))
  {
    SwitchProps(ShownFlag(row), UseActions.Endpoint(cfg.url, cfg.apiEndpoints.deleteFlag),
                SwitchData(row, KeyToUse(cfg.rowKey, cfg.rowKeys)))
  }

  /** `onUpdate:modelValue`: the new value is written back into the row. */
  function UpdateFlag(row: Record, v: Value): (r: Record)
    ensures Get(r, "deleteFlag") == v
    ensures forall k :: k != "deleteFlag" ==> Get(r, k) == Get(row, k)
  {
    row["deleteFlag" := v]
  }

  /** After an update the switch shows the value written (a non-nullish one),
      and its next payload asks for the opposite state on {0, 1}. */
  lemma UpdateThenShow(cfg: CrudConfig, row: Record, v: Value)
    requires v == Num(0) || v == Num(1)
    ensures var p := DeleteFlagSwitch(cfg, UpdateFlag(row, v));
      p.modelValue == v && p.formData["deleteFlag"] == (if v == Num(0) then Num(1) else Num(0))
  {
  }

  /** With a truthy key the switch sends exactly what a removal of the same
      row sends. */
  lemma SwitchAgreesWithRemove(cfg: CrudConfig, row: Record)
    requires KeyTruthy(KeyToUse(cfg.rowKey, cfg.rowKeys))
    ensures DeleteFlagSwitch(cfg, row).formData == UseActions.RemoveData(row, KeyToUse(cfg.rowKey, cfg.rowKeys))
  {
  }

  /** A row with no `deleteFlag` field is shown as 0 (active), yet its switch
      payload also asks for 0, the state the row is shown in: the two derive
      the current state differently (`??` against `===`). */
  lemma MissingFlagShownAndSentAlike(cfg: CrudConfig, row: Record)
    requires "deleteFlag" !in row
    ensures DeleteFlagSwitch(cfg, row).modelValue == Num(0)
    ensures DeleteFlagSwitch(cfg, row).formData["deleteFlag"] == Num(0)
  {
  }

  /** The evidently intended payload: the opposite of the state shown. */
  function SwitchDataIntended(row: Record, k: KeyChoice): (d: Record)
    ensures "deleteFlag" in d && d["deleteFlag"] == (if ShownFlag(row) == Num(0) then Num(1) else Num(0))
    ensures forall f :: f in d && f != "deleteFlag" ==> d[f] == Get(row, f)
  {
    var flag := if ShownFlag(row) == Num(0) then Num(1) else Num(0);
    if KeyTruthy(k) then GetValueFromRow(row, k)["deleteFlag" := flag]
    else map["deleteFlag" := flag]
  }

  /** With the intended payload the switch always asks for a state other
      than the one it shows, when the shown state is 0 or 1. */
  lemma IntendedPayloadFlips(row: Record, k: KeyChoice)
    requires ShownFlag(row) == Num(0) || ShownFlag(row) == Num(1)
    ensures SwitchDataIntended(row, k)["deleteFlag"] != ShownFlag(row)
  {
  }
}

=== FILE: crud_types.dfy ===
/** The EasyCrud data model: column definitions, field classification, the
    caller's options and their resolved form, the form and table stores, the
    hook payloads and the backend envelope. */
module CrudTypes {
  import opened Values
  import UseHooks
  import SystemParams

  /** `FormMode`: '新增' (create), '编辑' (edit), '搜索' (search). */
  datatype FormMode = Create | Update | Search

  /** `Exclude<FormMode, '搜索'>`: the drawer is either creating or editing. */
  type DrawerMode = m: FormMode | m != Search witness Create

  /** `Exclude<FormMode, '新增'>`: which form a reset addresses. */
  type ResetMode = m: FormMode | m != Create witness Search

  /** `ColumnsItemType`: one field of the schema. A default that is not
      declared reads as `Undefined`; `options` is `componentProps.options`
      when the definition declares it; `title` is its `label` (a reserved
      word in Dafny). Rendering details are not modelled. */
  datatype ColumnDef = ColumnDef(
    component: string,
    title: string,
    disabled: Option<DrawerMode -> bool>,
    visible: Option<DrawerMode -> bool>,
    span: Option<int>,
    searchDefaultValue: Value,
    addDefaultValue: Value,
    options: Option<seq<SystemParams.ResultType>>)

  /** `Fields`: four possibly overlapping lists of field names. */
  datatype Fields = Fields(filter: seq<string>, editor: seq<string>, expand: seq<string>, column: seq<string>)

  /** `Source`: the column definitions and their classification. */
  datatype Source = Source(definitions: map<string, ColumnDef>, fields: Fields)

  /** Every classified name has a definition. */
  predicate WellFormedSource(s: Source) {
    && (forall i :: 0 <= i < |s.fields.filter| ==> s.fields.filter[i] in s.definitions)
    && (forall i :: 0 <= i < |s.fields.editor| ==> s.fields.editor[i] in s.definitions)
    && (forall i :: 0 <= i < |s.fields.expand| ==> s.fields.expand[i] in s.definitions)
    && (forall i :: 0 <= i < |s.fields.column| ==> s.fields.column[i] in s.definitions)
  }

  datatype Align = AlignLeft | AlignCenter | AlignRight

  /** `TableConfig` */
  datatype TableConfig = TableConfig(
    menuVisible: Prop<bool>,
    menuAlign: Prop<Align>,
    menuWidth: Prop<int>,
    menuTitle: Prop<bool>,
    defButVisible: Prop<Record -> bool>)

  /** `PaginationConfig` */
  datatype PaginationConfig = PaginationConfig(
    current: Prop<int>,
    pageSize: Prop<int>,
    pageSizes: Prop<seq<int>>,
    layout: Prop<string>)

  /** `ButtonAuth` */
  datatype ButtonAuth = ButtonAuth(add: Prop<bool>, edit: Prop<bool>, delete: Prop<bool>)

  /** `ApiEndpoints` */
  datatype ApiEndpoints = ApiEndpoints(
    query: Prop<string>,
    add: Prop<string>,
    edit: Prop<string>,
    delete: Prop<string>,
    deleteFlag: Prop<string>)

  /** `Attrs` as the caller writes it: each widget's attribute bag is optional. */
  datatype AttrsProps = AttrsProps(form: Option<Record>, drawer: Option<Record>, table: Option<Record>, pagination: Option<Record>)

  /** `Attrs` after resolution: every bag is present. */
  datatype Attrs = Attrs(form: Record, drawer: Record, table: Record, pagination: Record)

  /** `HooksConfig` keys. `AfterRemove` is the source's `afteRemoveHandler`. */
  datatype HookName =
    | BeforeQuery | AfterQuery
    | BeforeAdd | BeforeEdit
    | BeforeRemove | AfterRemove
    | BeforeSubmit | SubmitValidateErr
    | BeforeSubmitAdd | AfterSubmitAdd
    | BeforeSubmitEdit | AfterSubmitEdit

  /** `FormStore`: UI flags, the live search and edit models with their frozen
      seed snapshots (`_searchForm`, `_editForm`), the row being edited and the
      payload of the last submission. */
  datatype FormStore = FormStore(
    formVisible: bool,
    drawerVisible: bool,
    drawerTitle: DrawerMode,
    searchSnapshot: Record,
    searchForm: Record,
    editSnapshot: Record,
    editForm: Record,
    currentRow: Record,
    formData: Record)

  /** What a hook receives or returns: the form store, the validation-error
      bundle, the row list of a query, or a plain value. A hook handed the
      live store may write to it before it answers; `Answer` is such a hook's
      return value together with the store as the hook left it. */
  datatype Payload =
    | StorePayload(store: FormStore)
    | ValidateErrPayload(fields: seq<string>, store: FormStore)
    | RowsPayload(rows: seq<Record>)
    | PlainPayload(v: Value)
    | Answer(verdict: Value, store: FormStore)

  /** JS truthiness of a payload: objects and arrays are always truthy. */
  predicate PayloadTruthy(p: Payload) {
    match p
    case PlainPayload(v) => Truthy(v)
    case Answer(v, _) => Truthy(v)
    case _ => true
  }

  /** `HooksConfig` */
  type HooksConfig = map<HookName, UseHooks.Entry<Payload>>

  /** `CrudProps`: the caller's options. */
  datatype CrudProps = CrudProps(
    debug: Option<bool>,
    isAfterMountQuery: Option<bool>,
    url: string,
    rowKey: Option<string>,
    rowKeys: Option<seq<string>>,
    source: Source,
    attrs: Option<AttrsProps>,
    hooks: Option<HooksConfig>,
    apiEndpoints: Option<ApiEndpoints>,
    buttonAuth: Option<ButtonAuth>,
    table: Option<TableConfig>,
    pagination: Option<PaginationConfig>)

  /** `CrudConfig`: the options with defaults filled in. */
  datatype CrudConfig = CrudConfig(
    debug: bool,
    isAfterMountQuery: bool,
    url: string,
    rowKey: Option<string>,
    rowKeys: Option<seq<string>>,
    source: Source,
    attrs: Attrs,
    hooks: HooksConfig,
    apiEndpoints: ApiEndpoints,
    buttonAuth: ButtonAuth,
    table: TableConfig,
    pagination: PaginationConfig)

  /** `TableStore`: rows of the current page, loading flag, selected columns
      and the pagination state. */
  datatype TableStore = TableStore(
    loading: bool,
    tableData: seq<Record>,
    checkColumn: seq<string>,
    currentPage: int,
    pageSize: int,
    total: int,
    pageSizes: seq<int>,
    layout: string)

  /** The `page` block of a query response. */
  datatype Page = Page(pageNum: int, pageSize: int, pages: int, total: int)

  /** `RequestResult`: the backend envelope. `data` is `None` when the server
      sent `null`. */
  datatype Envelope = Envelope(code: int, message: string, data: Option<seq<Record>>, page: Option<Page>)

  /** How a request issued by an action ended: resolved with an envelope,
      rejected with an error that is not a cancellation, or cancelled. */
  datatype Outcome = Ok(envelope: Envelope) | AppError | Cancelled

  /** Key choice shared by removal and the status switch:
      `rowKeys && rowKeys.length > 0 ? rowKeys : rowKey`. */
  datatype KeyChoice = NoKey | SingleKey(key: string) | KeyList(keys: seq<string>)

  function KeyToUse(rowKey: Option<string>, rowKeys: Option<seq<string>>): (k: KeyChoice)
    ensures rowKeys.Some? && |rowKeys.value| > 0 ==> k == KeyList(rowKeys.value)
    ensures !(rowKeys.Some? && |rowKeys.value| > 0) && rowKey.Some? ==> k == SingleKey(rowKey.value)
    ensures k.NoKey? <==> (rowKeys.None? || |rowKeys.value| == 0) && rowKey.None?
  {
    if rowKeys.Some? && |rowKeys.value| > 0 then KeyList(rowKeys.value)
    else if rowKey.Some? then SingleKey(rowKey.value)
    else NoKey
  }

  /** `getValueFromRow(row, key)`: the row restricted to the key field(s); a
      missing field reads as `undefined`. */
  function GetValueFromRow(row: Record, key: KeyChoice): (r: Record)
    ensures key.NoKey? ==> r == map[]
    ensures key.SingleKey? ==> r.Keys == {key.key}
    ensures key.KeyList? ==> forall k :: k in r <==> k in key.keys
    ensures forall k :: k in r ==> r[k] == Get(row, k)
  {
    match key
    case NoKey => map[]
    case SingleKey(k) => map[k := Get(row, k)]
    case KeyList(ks) => map k | k in ks :: Get(row, k)
  }

  /** `row.deleteFlag === 0 ? 1 : 0` */
  function ToggledDeleteFlag(row: Record): Value {
    if Get(row, "deleteFlag") == Num(0) then Num(1) else Num(0)
  }
}

=== FILE: example_crud.dfy ===
/** The user-management schema of the example page: its column definitions,
    its field classification, the option lists it requests from the
    system-parameter store and how those are installed into the
    definitions. Component objects are named by strings. */
module ExampleCrud {
  import opened Values
  import opened CrudTypes
  import SystemParams
  import CommonProps
  import UseForm
  import UseTable

  /** A definition that declares only its component and label. */
  function Plain(component: string, title: string): (d: ColumnDef)
    ensures d.visible.None? && d.options.None? && d.searchDefaultValue == Undefined && d.addDefaultValue == Undefined
  {
    ColumnDef(component, title, None, None, None, Undefined, Undefined, None)
  }

  /** A definition whose `componentProps` declare an (initially empty)
      option list. */
  function WithOptions(component: string, title: string): (d: ColumnDef)
    ensures d.visible.None? && d.options == Some([]) && d.searchDefaultValue == Undefined
  {
    Plain(component, title).(options := Some([]))
  }

  /** `visible: Mode => Mode === '新增'` */
  function PasswordVisible(m: DrawerMode): bool {
    m == Create
  }

  /** The `deleteFlag` column of `CommonProps`. */
  const DeleteFlagDef: ColumnDef :=
    WithOptions("ReRadioGroup", "状态").(searchDefaultValue := CommonProps.DeleteFlagSearchDefault)

  /** `definitions` */
  const Definitions: map<string, ColumnDef> := map[
    "userId" := WithOptions("ReSelect", "用户ID"),
    "userType" := WithOptions("ReRadioGroup", "用户类型").(span := Some(18)),
    "userName" := Plain("ElInput", "用户名"),
    "password" := Plain("ElInput", "用户密码").(visible := Some(PasswordVisible)),
    "realName" := Plain("ElInput", "真实姓名"),
    "email" := Plain("ElInput", "Email"),
    "phoneNumber" := Plain("ElInput", "手机号码"),
    "sex" := WithOptions("ReRadioGroup", "性别"),
    "birth" := Plain("ElInput", "生日"),
    "idNo" := Plain("ElInput", "身份证号码"),
    "remark" := Plain("ElInput", "备注"),
    "orgId" := Plain("ElInput", "orgId"),
    "orgName" := Plain("ElInput", "orgName"),
    "openId" := Plain("ElInput", "openid[小程序]"),
    "woaOpenid" := Plain("ElInput", "openid[公众号]"),
    "photoUrlRoot" := Plain("ElInput", "url根"),
    "photoPath" := Plain("ElInput", "图片路径"),
    "operatorName" := Plain("{}", "操作人账号"),
    "deleteFlag" := DeleteFlagDef,
    "createTime" := Plain("{}", "创建时间"),
    "updateTime" := Plain("{}", "最后更新时间")
  ]

  /** `fields` */
  const ExampleFields: Fields := Fields(
    ["orgId", "userName", "realName", "phoneNumber", "userType", "deleteFlag"],
    ["orgId", "userType", "userName", "password", "realName", "phoneNumber", "email", "openId", "woaOpenid", "remark"],
    ["orgId", "orgName", "userId", "userName", "userType", "realName", "phoneNumber", "openId", "woaOpenid", "remark",
     "operatorName", "deleteFlag", "createTime", "updateTime"],
    ["orgName", "userName", "realName", "phoneNumber", "openId", "woaOpenid", "deleteFlag"])

  const ExampleSource: Source := Source(Definitions, ExampleFields)

  /** Every name in the four lists has a definition. */
  lemma ExampleWellFormed()
    ensures WellFormedSource(ExampleSource)
  {
  }

  /** Every shown column is also an expandable one, so the initial table
      columns are exactly the `column` names (in `expand` order, as
      `UseTable.TableColumnsOrdered` shows for every configuration). */
  lemma ExampleColumnsInExpand()
    ensures forall i :: 0 <= i < |ExampleFields.column| ==> ExampleFields.column[i] in ExampleFields.expand
    ensures var cols := UseTable.TableColumns(ExampleFields.expand, ExampleFields.column);
      forall k :: k in cols <==> k in ExampleFields.column
  {
  }

  /** The password field is shown in the creation drawer and in no other;
      it is the only field with a visibility rule. */
  lemma PasswordOnlyWhenCreating()
    ensures Definitions["password"].visible.Some?
    ensures forall m: DrawerMode :: Definitions["password"].visible.value(m) <==> m == Create
    ensures forall k :: k in Definitions && k != "password" ==> Definitions[k].visible.None?
  {
  }

  /** The declared search defaults: 0 for `deleteFlag` (from `CommonProps`),
      nothing for `userName`. */
  lemma SearchDefaults()
    ensures "deleteFlag" in Definitions && Definitions["deleteFlag"].searchDefaultValue == Num(0)
    ensures "userName" in Definitions && Definitions["userName"].searchDefaultValue == Undefined
  {
  }

  /** The search form of any configuration built on this schema starts with
      exactly the filter fields, with `deleteFlag` at 0 and `userName`
      undefined. */
  lemma ExampleSearchSeed(cfg: CrudConfig)
    requires cfg.source == ExampleSource
    ensures var s := UseForm.UseFormStore(cfg);
      (forall k :: k in s.searchForm <==> k in ExampleFields.filter)
      && "deleteFlag" in s.searchForm && s.searchForm["deleteFlag"] == Num(0)
      && "userName" in s.searchForm && s.searchForm["userName"] == Undefined
  {
    ExampleWellFormed();
    SearchDefaults();
    UseForm.SearchSeedOfWellFormed(cfg);
  }

  // ---------------------------------------------------------------------
  // system parameters

  function IsAdminType(item: SystemParams.Item): bool {
    item.itemId == 1
  }

  function ItemIdValue(item: SystemParams.Item): Value {
    Num(item.itemId)
  }

  function ItemValueText(item: SystemParams.Item): Value {
    Str(item.itemValue)
  }

  /** The mapping handed to `GetSystemParams`. */
  const ParamMapping: seq<(string, SystemParams.MapValue)> := [
    ("deleteFlag", SystemParams.MapValue("delete_flag", None, None, None)),
    ("userType", SystemParams.MapValue("user_type", None, None, Some(IsAdminType))),
    ("sex", SystemParams.MapValue("sex", Some(ItemIdValue), Some(ItemValueText), None))
  ]

  /** `value.filter(item => !item.disabled)` */
  function Enabled(opts: seq<SystemParams.ResultType>): (r: seq<SystemParams.ResultType>)
    ensures forall i :: 0 <= i < |r| ==> !r[i].disabled
    ensures forall o :: o in r <==> o in opts && !o.disabled
    decreases |opts|
  {
    if |opts| == 0 then []
    else (if opts[0].disabled then [] else [opts[0]]) + Enabled(opts[1..])
  }

  /** The filter works option by option: a single option is kept exactly
      when it is enabled, and filtering a concatenation concatenates the
      filtered parts, so order and repetitions survive. */
  lemma {:induction false} EnabledAppend(a: seq<SystemParams.ResultType>, b: seq<SystemParams.ResultType>)
    ensures Enabled(a + b) == Enabled(a) + Enabled(b)
    ensures forall o :: Enabled([o]) == (if o.disabled then [] else [o])
    decreases |a|
  {
    forall o ensures Enabled([o]) == (if o.disabled then [] else [o]) {
      assert [o][1..] == [];
    }
    if |a| == 0 {
      assert a + b == b;
    } else {
      assert (a + b)[1..] == a[1..] + b;
      EnabledAppend(a[1..], b);
    }
  }

  /** Nothing is dropped from a list without disabled options. */
  lemma {:induction false} EnabledKeepsAllEnabled(opts: seq<SystemParams.ResultType>)
    requires forall i :: 0 <= i < |opts| ==> !opts[i].disabled
    ensures Enabled(opts) == opts
    decreases |opts|
  {
    if |opts| > 0 {
      EnabledKeepsAllEnabled(opts[1..]);
    }
  }

  /** The `forEach` over the answer: each answered key whose definition has
      an option list gets the enabled options; the keys are distinct, so the
      visiting order does not matter. */
  function InstallOptions(defs: map<string, ColumnDef>, res: map<string, seq<SystemParams.ResultType>>): (r: map<string, ColumnDef>)
    ensures r.Keys == defs.Keys
    ensures forall k :: k in defs && k in res && defs[k].options.Some? ==>
      r[k] == defs[k].(options := Some(Enabled(res[k])))
    ensures forall k :: k in defs && !(k in res && defs[k].options.Some?) ==> r[k] == defs[k]
  {
    map k | k in defs :: if k in res && defs[k].options.Some? then defs[k].(options := Some(Enabled(res[k]))) else defs[k]
  }

  /** The answered keys that draw the "no `componentProps.options`"
      warning. */
  function Warned(defs: map<string, ColumnDef>, res: map<string, seq<SystemParams.ResultType>>): (ks: set<string>)
    ensures forall k :: k in ks <==> k in res && !(k in defs && defs[k].options.Some?)
  {
    set k | k in res && !(k in defs && defs[k].options.Some?)
  }

  /** Every key the example asks for has an option list to fill: whatever
      the store answers for those keys, no warning is raised, and after the
      installation no offered option is disabled. */
  lemma ExampleOptionsInstalled(res: map<string, seq<SystemParams.ResultType>>)
    requires res.Keys <= {"deleteFlag", "userType", "sex"}
    ensures Warned(Definitions, res) == {}
    ensures forall k :: k in res ==>
      var opts := InstallOptions(Definitions, res)[k].options;
      opts.Some? && forall o :: o in opts.value <==> o in res[k] && !o.disabled
  {
    assert forall k :: k in res ==> k in Definitions && Definitions[k].options.Some?;
  }

  /** A user type item with id 1 becomes a disabled option and is not
      offered; any other item is offered with its id and value. */
  lemma AdminTypeNotOffered(item: SystemParams.Item)
    ensures var o := SystemParams.ToOption(ParamMapping[1].1, item);
      (o.disabled <==> item.itemId == 1)
      && (item.itemId == 1 ==> Enabled([o]) == [])
      && (item.itemId != 1 ==> Enabled([o]) == [SystemParams.ResultType(Num(item.itemId), Str(item.itemValue), false)])
  {
    var o := SystemParams.ToOption(ParamMapping[1].1, item);
    assert [o][1..] == [];
  }
}

=== FILE: http_client.dfy ===
/** The bookkeeping of the axios wrapper `HttpClient`: the per-request
    cancel-source map, the in-flight counter behind the progress bar, the
    classification of responses, the error-notification split, the timeout
    retry countdown and the download file name. Transport, timers and UI are
    not modelled; what they would be asked to do is recorded as effects, and
    fresh cancel tokens are supplied by the caller as numbers. */
module HttpClient {
  import opened Values
  import Strings

  const TimeOut: int := 1000 * 5
  const Retry: int := 3
  const RetryDelay: int := 1000
  const VerifyCodeUrl: string := "/login/getVerifyCode"
  const TimeoutTitle: string := "请求超时"
  /** The reason the manual connection timer gives when it cancels. */
  const ManualTimeoutReason: string := "超时手动取消请求"

  /** The subset of `AxiosRequestConfig` the client reads or writes;
      `verb` is its `method`, which a caller may also set to `undefined`. */
  datatype ReqConfig = ReqConfig(
    verb: Prop<string>,
    url: Option<string>,
    baseURL: Option<string>,
    cancelToken: Prop<nat>,
    isCancelToken: Option<bool>,
    timeout: Prop<int>,
    retry: Prop<int>,
    retryDelay: Prop<int>,
    originalUrl: Option<string>,
    originalBaseURL: Option<string>)

  /** A stored `CancelTokenSource`: its token, and whether its `cancel`
      really cancels that token (`false` for the `() => {}` stand-in). */
  datatype CancelSource = CancelSource(token: nat, live: bool)

  /** The client's mutable fields: `cancelTokenSourceMap`, the tokens
      cancelled so far, and `requestCount`. */
  datatype Client = Client(sources: map<string, CancelSource>, cancelled: set<nat>, count: int)

  /** What the client asks of timers, the progress bar, the console and the
      notification service. */
  datatype Effect =
    | ScheduleProgressStart
    | ClearTimer
    | ProgressDone
    | WarnNoContentType
    | Notify(title: Option<string>, message: Option<string>)

  /** A new client: no sources, nothing cancelled, nothing in flight. */
  const Initial: Client := Client(map[], {}, 0)

  /** `${x}` of a possibly missing string. */
  function Text(o: Option<string>): string {
    if o.Some? then o.value else "undefined"
  }

  /** Lower case of an ASCII letter; every other character is kept. */
  function LowerChar(c: char): char {
    if 'A' <= c <= 'Z' then (c as int + 32) as char else c
  }

  /** `config.method` as the interceptors read it: axios lower-cases the
      method before they run, and a missing, undefined or empty one becomes
      'get'. HTTP methods are ASCII, so only ASCII letters are lower-cased. */
  function AxiosMethod(verb: Prop<string>): (m: string)
    ensures !verb.Given? || verb.value == "" ==> m == "get"
    ensures verb.Given? && verb.value != "" ==>
      |m| == |verb.value| && forall i :: 0 <= i < |m| ==> m[i] == LowerChar(verb.value[i])
  {
    if !verb.Given? || verb.value == "" then "get"
    else seq(|verb.value|, i requires 0 <= i < |verb.value| => LowerChar(verb.value[i]))
  }

  /** `${config.method}:${url}` */
  function RequestKey(verb: Prop<string>, url: Option<string>): string {
    AxiosMethod(verb) + ":" + Text(url)
  }

  /** Requests that differ only in the case of their method, or that leave
      out the method, set it to `undefined` or say 'GET', share one key. */
  lemma MethodCaseIgnored(url: Option<string>)
    ensures RequestKey(Given("POST"), url) == RequestKey(Given("post"), url)
    ensures RequestKey(Absent, url) == RequestKey(Given("GET"), url)
    ensures RequestKey(Undef, url) == RequestKey(Given("GET"), url)
  {
    assert AxiosMethod(Given("POST")) == "post";
    assert AxiosMethod(Given("GET")) == "get";
  }

  /** `handleCancelToken(config)`: cancel what is stored under the key, then
      store exactly one source for it — a do-nothing one around a token the
      config already carries, or a live one around `newToken`, which the config
      then carries. Returns the client and the config. */
  function HandleCancelToken(c: Client, cfg: ReqConfig, newToken: nat): (r: (Client, ReqConfig))
    ensures var key := RequestKey(cfg.verb, cfg.url);
      && r.0.sources.Keys == c.sources.Keys + {key}
      && (forall k :: k in c.sources && k != key ==> r.0.sources[k] == c.sources[k])
      && r.0.cancelled == c.cancelled + (if key in c.sources && c.sources[key].live then {c.sources[key].token} else {})
      && (cfg.cancelToken.Given? ==> r.0.sources[key] == CancelSource(cfg.cancelToken.value, false) && r.1 == cfg)
      && (!cfg.cancelToken.Given? ==> r.0.sources[key] == CancelSource(newToken, true) && r.1 == cfg.(cancelToken := Given(newToken)))
    ensures r.0.count == c.count
  {
    var key := RequestKey(cfg.verb, cfg.url);
    var cancelled := if key in c.sources && c.sources[key].live then c.cancelled + {c.sources[key].token} else c.cancelled;
    if cfg.cancelToken.Given? then
      (Client(c.sources[key := CancelSource(cfg.cancelToken.value, false)], cancelled, c.count), cfg)
    else
      (Client(c.sources[key := CancelSource(newToken, true)], cancelled, c.count), cfg.(cancelToken := Given(newToken)))
  }

  /** `removeCancelToken(config)`: forget the source under the key of the
      method and the original url. */
  function RemoveCancelToken(c: Client, cfg: ReqConfig): (r: Client)
    ensures r.sources.Keys == c.sources.Keys - {RequestKey(cfg.verb, cfg.originalUrl)}
    ensures forall k :: k in r.sources ==> r.sources[k] == c.sources[k]
    ensures r.cancelled == c.cancelled && r.count == c.count
  {
    c.(sources := c.sources - {RequestKey(cfg.verb, cfg.originalUrl)})
  }

  /** The outcome of one interceptor step: the client, the config, effects. */
  datatype Intercepted = Intercepted(client: Client, config: ReqConfig, effects: seq<Effect>)

  /** The request interceptor: count the request (scheduling the progress
      bar on the first one), remember the original url and base url, and
      register a cancel source unless `isCancelToken` is false (it defaults
      to true on the instance). */
  function InterceptRequest(c: Client, cfg: ReqConfig, newToken: nat): (r: Intercepted)
    ensures r.client.count == c.count + 1
    ensures r.effects == (if c.count == 0 then [ScheduleProgressStart] else [])
    ensures r.config.originalUrl == cfg.url && r.config.originalBaseURL == cfg.baseURL
    ensures r.config.url == cfg.url && r.config.verb == cfg.verb
    ensures cfg.isCancelToken != Some(false) ==> RequestKey(cfg.verb, cfg.url) in r.client.sources
    ensures cfg.isCancelToken == Some(false) ==> r.client.sources == c.sources && r.client.cancelled == c.cancelled
  {
    var effects := if c.count == 0 then [ScheduleProgressStart] else [];
    var c1 := c.(count := c.count + 1);
    var cfg1 := cfg.(originalBaseURL := cfg.baseURL, originalUrl := cfg.url);
    if cfg1.isCancelToken.GetOr(true) then
      var (c2, cfg2) := HandleCancelToken(c1, cfg1, newToken);
      Intercepted(c2, cfg2, effects)
    else Intercepted(c1, cfg1, effects)
  }

  /** The request interceptor's error branch: clear the timer, finish the
      progress bar and zero the counter. */
  function InterceptRequestError(c: Client): (r: Intercepted)
    ensures r.client == c.(count := 0)
    ensures ProgressDone in r.effects
  {
    Intercepted(c.(count := 0), ReqConfig(Absent, None, None, Absent, None, Absent, Absent, Absent, None, None),
                [ClearTimer, ProgressDone])
  }

  /** A response as the success interceptor sees it: its config, its
      `content-type` header and the envelope fields `code` and `message`. */
  datatype Response = Response(config: ReqConfig, contentType: Option<string>, code: Value, message: Option<string>)

  /** What the success interceptor resolves or rejects with. */
  datatype Verdict = ResolveRawData | ResolveWholeResponse | ResolveEnvelopeData | RejectResponse

  /** `handleErrorNotification`: `message ?? ''` split at colons, at most two
      pieces kept; without a colon the title is `undefined`. */
  function SplitMessage(full: Option<string>): (r: (Option<string>, Option<string>))
    ensures var m := full.GetOr("");
      && (':' !in m ==> r == (None, Some(m)))
      && (':' in m ==>
            var i := Strings.IndexOf(m, ':');
            && r.0 == Some(m[..i])
            && r.1.Some? && ':' !in r.1.value
            && Strings.StartsWith(m[i + 1..], r.1.value)
            && (i + 1 + |r.1.value| == |m| || m[i + 1 + |r.1.value|] == ':'))
  {
    var m := full.GetOr("");
    if ':' !in m then (None, Some(m))
    else
      var parts := Strings.Split(m, ':');
      var i := Strings.IndexOf(m, ':');
      assert parts == [m[..i]] + Strings.Split(m[i + 1..], ':');
      FirstPiece(m[i + 1..], ':');
      (Some(parts[0]), Some(parts[1]))
  }

  /** The first piece of a split is the text up to the first separator. */
  lemma FirstPiece(s: string, c: char)
    ensures var p := Strings.Split(s, c)[0];
      Strings.StartsWith(s, p) && c !in p && (|p| == |s| || s[|p|] == c)
  {
    var i := Strings.IndexOf(s, c);
    if i != -1 {
      assert Strings.Split(s, c)[0] == s[..i];
    }
  }

  /** With exactly one colon, title and message put back together give the
      whole message. */
  lemma SplitMessageOneColon(m: string)
    requires Strings.Count(m, ':') == 1
    ensures var r := SplitMessage(Some(m));
      r.0.Some? && r.1.Some? && r.0.value + ":" + r.1.value == m
  {
    var i := Strings.IndexOf(m, ':');
    if i == -1 {
      Strings.CountAbsent(m, ':');
    }
    Strings.CountAt(m, ':', i);
    var rest := m[i + 1..];
    if ':' in rest {
      var j := Strings.IndexOf(rest, ':');
      Strings.CountAt(rest, ':', j);
    }
    Strings.SplitLength(rest, ':');
    var r := SplitMessage(Some(m));
    assert Strings.Split(rest, ':') == [rest];
    assert m == m[..i] + ":" + rest;
  }

  /** The two content types that are handed back as the whole response. */
  predicate IsDownloadType(ct: string) {
    ct == "application/octet-stream" || ct == "application/x-msdownload"
  }

  /** The classification of a success response, in the order the source
      tests it. Only `code === 0` is a success code. */
  function Classify(resp: Response): (v: Verdict)
    ensures resp.config.url == Some(VerifyCodeUrl) <==> v == ResolveRawData
    ensures v == ResolveWholeResponse <==>
      && resp.config.url != Some(VerifyCodeUrl)
      && (!TruthyString(resp.contentType) || IsDownloadType(resp.contentType.value))
    ensures v == ResolveEnvelopeData <==>
      && resp.config.url != Some(VerifyCodeUrl)
      && TruthyString(resp.contentType)
      && !IsDownloadType(resp.contentType.value)
      && resp.code == Num(0)
    ensures v == RejectResponse <==>
      && resp.config.url != Some(VerifyCodeUrl)
      && TruthyString(resp.contentType)
      && !IsDownloadType(resp.contentType.value)
      && resp.code != Num(0)
  {
    if resp.config.url == Some(VerifyCodeUrl) then ResolveRawData
    else if !TruthyString(resp.contentType) then ResolveWholeResponse
    else if resp.contentType.value == "application/octet-stream" || resp.contentType.value == "application/x-msdownload" then
      ResolveWholeResponse
    else if resp.code != Num(0) then RejectResponse
    else ResolveEnvelopeData
  }

  /** The success interceptor: stop the timer, count the response (finishing
      the progress bar at zero), forget the cancel source, classify. */
  function OnResponse(c: Client, resp: Response): (r: (Client, Verdict, seq<Effect>))
    ensures r.0 == RemoveCancelToken(c, resp.config).(count := c.count - 1)
    ensures r.1 == Classify(resp)
    ensures |r.2| >= 1 && r.2[0] == ClearTimer
    ensures ProgressDone in r.2 <==> c.count - 1 == 0
    ensures (exists t, m :: Notify(t, m) in r.2) <==> r.1 == RejectResponse
    ensures r.1 == RejectResponse ==>
      Notify(SplitMessage(resp.message).0, SplitMessage(resp.message).1) in r.2
    ensures WarnNoContentType in r.2 <==> resp.config.url != Some(VerifyCodeUrl) && !TruthyString(resp.contentType)
  {
    var c1 := RemoveCancelToken(c, resp.config).(count := c.count - 1);
    var progress := [ClearTimer] + (if c1.count == 0 then [ProgressDone] else []);
    var v := Classify(resp);
    var extra :=
      if v == RejectResponse then [Notify(SplitMessage(resp.message).0, SplitMessage(resp.message).1)]
      else if resp.config.url != Some(VerifyCodeUrl) && !TruthyString(resp.contentType) then [WarnNoContentType]
      else [];
    (c1, v, progress + extra)
  }

  /** An axios error: the config it carries, if any, its code and message. */
  datatype HttpError = HttpError(config: Option<ReqConfig>, code: Option<string>, message: string)

  /** `isTimeoutError(error)` */
  predicate IsTimeoutError(e: HttpError) {
    e.code == Some("ECONNABORTED") && Strings.Contains(e.message, "timeout")
  }

  /** What `handleTimeoutError` does with a timed-out request. */
  datatype TimeoutDecision =
    | RejectWithoutConfig
    | Resubmit(config: ReqConfig, delay: int)
    | GiveUp

  /** `handleTimeoutError(error)`: with `retry` positive, resubmit after
      `retryDelay || 1000` ms with one retry fewer, at the original url and
      base url; otherwise report the timeout and reject. */
  function HandleTimeoutError(e: HttpError): (d: TimeoutDecision)
    ensures e.config.None? <==> d.RejectWithoutConfig?
    ensures d.Resubmit? <==> e.config.Some? && e.config.value.retry.Given? && e.config.value.retry.value > 0
    ensures d.Resubmit? ==>
      && d.config.retry == Given(e.config.value.retry.value - 1)
      && d.config.url == e.config.value.originalUrl
      && d.config.baseURL == e.config.value.originalBaseURL
      && d.config.verb == e.config.value.verb
      && d.delay == (if e.config.value.retryDelay.Given? && e.config.value.retryDelay.value != 0
                     then e.config.value.retryDelay.value else 1000)
  {
    match e.config
    case None => RejectWithoutConfig
    case Some(cfg) =>
      if cfg.retry.Given? && cfg.retry.value > 0 then
        var delay := if cfg.retryDelay.Given? && cfg.retryDelay.value != 0 then cfg.retryDelay.value else 1000;
        Resubmit(cfg.(url := cfg.originalUrl, baseURL := cfg.originalBaseURL, retry := Given(cfg.retry.value - 1),
                      originalUrl := None, originalBaseURL := None), delay)
      else GiveUp
  }

  /** The error interceptor: forget the cancel source when there is a
      config; a timeout is counted down and handed to the retry logic
      (without stopping the timer or the progress bar); any other error
      stops the timer, counts the response and finishes the bar at zero. */
  function OnError(c: Client, e: HttpError): (r: (Client, Option<TimeoutDecision>, seq<Effect>))
    ensures r.0.count == c.count - 1
    ensures e.config.Some? ==> r.0.sources == RemoveCancelToken(c, e.config.value).sources
    ensures e.config.None? ==> r.0.sources == c.sources
    ensures IsTimeoutError(e) <==> r.1.Some?
    ensures r.1.Some? ==> r.1.value == HandleTimeoutError(e)
    ensures !IsTimeoutError(e) ==> r.2 == [ClearTimer] + (if c.count - 1 == 0 then [ProgressDone] else [])
    ensures IsTimeoutError(e) ==> ProgressDone !in r.2 && ClearTimer !in r.2
  {
    var c1 := if e.config.Some? then RemoveCancelToken(c, e.config.value) else c;
    var c2 := c1.(count := c.count - 1);
    if IsTimeoutError(e) then
      var d := HandleTimeoutError(e);
      (c2, Some(d), if d.GiveUp? then [Notify(Some(TimeoutTitle), None)] else [])
    else (c2, None, [ClearTimer] + (if c2.count == 0 then [ProgressDone] else []))
  }

  /** Whether an attempt can end in an axios timeout: axios applies the
      config's `timeout`, or the instance's default when the config leaves it
      missing or `undefined`, and only a positive one expires. The shared
      `Http` instance sets no default (0); the CRUD actions' instance sets ten
      seconds. */
  predicate CanTimeOut(cfg: ReqConfig, instanceTimeout: int) {
    cfg.timeout.OrElse(instanceTimeout) > 0
  }

  /** The resubmissions `handleTimeoutError` still grants a config. */
  function RetriesLeft(cfg: ReqConfig): nat {
    if cfg.retry.Given? && cfg.retry.value > 0 then cfg.retry.value else 0
  }

  /** The config axios sends an attempt with, once the request interceptor
      has recorded its url and registered its token. It does not depend on
      the client's state. */
  function Outgoing(cfg: ReqConfig, newToken: nat): (r: ReqConfig)
    ensures r.retry == cfg.retry && r.timeout == cfg.timeout
    ensures r.url == cfg.url && r.verb == cfg.verb && r.originalUrl == cfg.url
    ensures cfg.cancelToken.Given? ==> r.cancelToken == cfg.cancelToken
  {
    InterceptRequest(Initial, cfg, newToken).config
  }

  /** The next attempt after a timeout: the error interceptor hands the
      resubmitted config to `Request` (own token `own`), whose config the
      request interceptor then sees. `timeout` is gone, and a token the
      timed-out attempt carried is kept, so the manual timer's token is not
      the one the attempt carries. */
  function Resubmitted(next: ReqConfig, own: nat): (r: ReqConfig)
    ensures r.retry == next.retry && r.url == next.url && r.verb == next.verb
    ensures r.timeout == Undef
    ensures next.cancelToken.Given? ==> r.cancelToken == next.cancelToken
  {
    Outgoing(Request(next, own).0, own)
  }

  /** A timeout error for an attempt. */
  function TimeoutOf(cfg: ReqConfig): HttpError {
    HttpError(Some(cfg), Some("ECONNABORTED"), "timeout exceeded")
  }

  /** The number of resubmissions of a request whose attempts time out as
      long as they can, on an instance with default timeout
      `instanceTimeout`: an attempt that times out with retries left is
      resubmitted, and the chain ends at an attempt that cannot time out or
      has no retry left. Never more than `retry`. */
  function Resubmissions(cfg: ReqConfig, instanceTimeout: int, own: nat): (n: nat)
    ensures n <= RetriesLeft(cfg)
    ensures n >= 1 <==> CanTimeOut(cfg, instanceTimeout) && RetriesLeft(cfg) > 0
    decreases RetriesLeft(cfg)
  {
    if !CanTimeOut(cfg, instanceTimeout) then 0
    else
      var d := HandleTimeoutError(TimeoutOf(cfg));
      if d.Resubmit? then 1 + Resubmissions(Resubmitted(d.config, own), instanceTimeout, own) else 0
  }

  /** On an instance without a default timeout a request is resubmitted at
      most once, whatever `retry` says: the resubmission has no timeout left
      to expire (see Findings). */
  lemma ResubmittedAtMostOnce(cfg: ReqConfig, own: nat)
    ensures Resubmissions(cfg, 0, own) == (if CanTimeOut(cfg, 0) && RetriesLeft(cfg) > 0 then 1 else 0)
  {
    if CanTimeOut(cfg, 0) && RetriesLeft(cfg) > 0 {
      var next := HandleTimeoutError(TimeoutOf(cfg)).config;
      assert !CanTimeOut(Resubmitted(next, own), 0);
    }
  }

  /** On an instance with a positive default timeout every resubmission can
      time out again, and a request that keeps timing out is resubmitted
      exactly `retry` times. */
  lemma {:induction false} ResubmissionsWithInstanceTimeout(cfg: ReqConfig, instanceTimeout: int, own: nat)
    requires instanceTimeout > 0
    ensures Resubmissions(cfg, instanceTimeout, own) == (if CanTimeOut(cfg, instanceTimeout) then RetriesLeft(cfg) else 0)
    decreases RetriesLeft(cfg)
  {
    if CanTimeOut(cfg, instanceTimeout) {
      var d := HandleTimeoutError(TimeoutOf(cfg));
      if d.Resubmit? {
        ResubmissionsWithInstanceTimeout(Resubmitted(d.config, own), instanceTimeout, own);
      }
    }
  }

  /** `RetryRequest(config)`: `{ method: 'POST', timeout: TIME_OUT, retry:
      RETRY, retryDelay: RETRY_DELAY, ...config }`. */
  function RetryRequestConfig(cfg: ReqConfig): (r: ReqConfig)
    ensures cfg.retry.Absent? ==> r.retry == Given(Retry)
    ensures cfg.timeout.Absent? ==> r.timeout == Given(TimeOut)
    ensures cfg.retryDelay.Absent? ==> r.retryDelay == Given(RetryDelay)
    ensures cfg.verb.Absent? ==> r.verb == Given("POST")
    ensures !cfg.verb.Absent? ==> r.verb == cfg.verb
    ensures !cfg.timeout.Absent? ==> r.timeout == cfg.timeout
    ensures !cfg.retry.Absent? ==> r.retry == cfg.retry
    ensures !cfg.retryDelay.Absent? ==> r.retryDelay == cfg.retryDelay
    ensures r.url == cfg.url
  {
    cfg.(verb := cfg.verb.Spread("POST"),
         timeout := cfg.timeout.Spread(TimeOut),
         retry := cfg.retry.Spread(Retry),
         retryDelay := cfg.retryDelay.Spread(RetryDelay))
  }

  /** The spread keeps a method the caller set to `undefined`, so such a
      request goes out as a GET rather than a POST; a missing method gives a
      POST. */
  lemma RetryRequestUndefinedMethod(cfg: ReqConfig)
    ensures cfg.verb.Undef? ==> AxiosMethod(RetryRequestConfig(cfg).verb) == "get"
    ensures cfg.verb.Absent? ==> AxiosMethod(RetryRequestConfig(cfg).verb) == "post"
  {
    assert AxiosMethod(Given("POST")) == "post";
  }

  /** `RetryRequest` with the default three retries on the shared `Http`
      instance: its first attempt times out after 5000 ms and is resubmitted
      once, and that resubmission never times out (see Findings). */
  lemma RetryRequestResubmitsOnce(cfg: ReqConfig, newToken: nat, own: nat)
    requires cfg.retry.Absent? && cfg.timeout.Absent?
    ensures RetriesLeft(RetryRequestConfig(cfg)) == 3
    ensures Resubmissions(Outgoing(RetryRequestConfig(cfg), newToken), 0, own) == 1
  {
    ResubmittedAtMostOnce(Outgoing(RetryRequestConfig(cfg), newToken), own);
  }

  /** The evidently intended next attempt: the resubmission keeps the
      timeout it was sent with, as the first attempt of `RetryRequest` does. */
  function ResubmittedIntended(next: ReqConfig, newToken: nat): (r: ReqConfig)
    ensures r.retry == next.retry && r.url == next.url && r.verb == next.verb
    ensures r.timeout == next.timeout
  {
    Outgoing(next, newToken)
  }

  /** The resubmission chain with the intended next attempt. */
  function ResubmissionsIntended(cfg: ReqConfig, instanceTimeout: int, newToken: nat): (n: nat)
    ensures n <= RetriesLeft(cfg)
    ensures n >= 1 <==> CanTimeOut(cfg, instanceTimeout) && RetriesLeft(cfg) > 0
    decreases RetriesLeft(cfg)
  {
    if !CanTimeOut(cfg, instanceTimeout) then 0
    else
      var d := HandleTimeoutError(TimeoutOf(cfg));
      if d.Resubmit? then 1 + ResubmissionsIntended(ResubmittedIntended(d.config, newToken), instanceTimeout, newToken) else 0
  }

  /** With the intended next attempt a request that keeps timing out is
      resubmitted exactly `retry` times on any instance. */
  lemma {:induction false} ResubmissionsIntendedExact(cfg: ReqConfig, instanceTimeout: int, newToken: nat)
    ensures ResubmissionsIntended(cfg, instanceTimeout, newToken) == (if CanTimeOut(cfg, instanceTimeout) then RetriesLeft(cfg) else 0)
    decreases RetriesLeft(cfg)
  {
    if CanTimeOut(cfg, instanceTimeout) {
      var d := HandleTimeoutError(TimeoutOf(cfg));
      if d.Resubmit? {
        ResubmissionsIntendedExact(ResubmittedIntended(d.config, newToken), instanceTimeout, newToken);
      }
    }
  }

  /** With the intended next attempt `RetryRequest` resubmits three times by
      default on the shared instance. */
  lemma RetryRequestResubmitsThriceIntended(cfg: ReqConfig, newToken: nat)
    requires cfg.retry.Absent? && cfg.timeout.Absent?
    ensures ResubmissionsIntended(Outgoing(RetryRequestConfig(cfg), newToken), 0, newToken) == 3
  {
    ResubmissionsIntendedExact(Outgoing(RetryRequestConfig(cfg), newToken), 0, newToken);
  }

  /** `Request(config)`: the config handed to axios, `{ cancelToken: own,
      ...config }` with the caller's `timeout` removed, and the delay after
      which the manual timer cancels the client's own token `own`. */
  function Request(cfg: ReqConfig, own: nat): (r: (ReqConfig, int))
    ensures cfg.cancelToken.Absent? ==> r.0.cancelToken == Given(own)
    ensures !cfg.cancelToken.Absent? ==> r.0.cancelToken == cfg.cancelToken
    ensures r.0.timeout == Undef
    ensures r.1 == (if cfg.timeout.Given? then cfg.timeout.value else TimeOut)
  {
    (cfg.(cancelToken := cfg.cancelToken.Spread(own), timeout := Undef), cfg.timeout.OrElse(TimeOut))
  }

  /** The error axios reports for a request cancelled by the manual timer:
      `source.cancel(reason)` builds its cancellation without a config. */
  const ManualTimeoutError: HttpError := HttpError(None, Some("ERR_CANCELED"), ManualTimeoutReason)

  // ---- Finding: superseded requests are never cancelled ----

  /** Every config that `Request` sends already carries a token, so the
      interceptor stores a do-nothing source for it: a second request to the
      same method and url cancels nothing, and the first one keeps running. */
  lemma SupersededRequestNotCancelled(c: Client, cfg: ReqConfig, own1: nat, own2: nat, newToken1: nat, newToken2: nat)
    requires !cfg.cancelToken.Undef?
    requires RequestKey(cfg.verb, cfg.url) !in c.sources
    ensures var first := InterceptRequest(c, Request(cfg, own1).0, newToken1);
      var second := InterceptRequest(first.client, Request(cfg, own2).0, newToken2);
      second.client.cancelled == c.cancelled
  {
  }

  /** The evidently intended registration: the source stored for a request
      can cancel that request's token, whoever created it. */
  function HandleCancelTokenIntended(c: Client, cfg: ReqConfig, newToken: nat): (r: (Client, ReqConfig))
    ensures var key := RequestKey(cfg.verb, cfg.url);
      && r.0.sources.Keys == c.sources.Keys + {key}
      && r.0.sources[key].live
      && r.0.cancelled == c.cancelled + (if key in c.sources && c.sources[key].live then {c.sources[key].token} else {})
      && r.1.cancelToken.Given? && r.0.sources[key].token == r.1.cancelToken.value
  {
    var key := RequestKey(cfg.verb, cfg.url);
    var cancelled := if key in c.sources && c.sources[key].live then c.cancelled + {c.sources[key].token} else c.cancelled;
    var token := if cfg.cancelToken.Given? then cfg.cancelToken.value else newToken;
    (Client(c.sources[key := CancelSource(token, true)], cancelled, c.count), cfg.(cancelToken := Given(token)))
  }

  /** With the intended registration a second request to the same method and
      url cancels the first. */
  lemma SupersededRequestCancelledIntended(c: Client, cfg: ReqConfig, own1: nat, own2: nat, newToken1: nat, newToken2: nat)
    ensures var first := HandleCancelTokenIntended(c, Request(cfg, own1).0, newToken1);
      var second := HandleCancelTokenIntended(first.0, Request(cfg, own2).0, newToken2);
      first.1.cancelToken.value in second.0.cancelled
  {
  }

  // ---- Finding: the manual connection timeout is not a timeout ----

  /** The manual timer of `Request` cancels the request, and a cancellation
      is not classified as a timeout: it is neither retried nor reported as
      one, whatever `retry` says. Since the cancellation carries no config,
      the error interceptor also leaves the request's cancel source
      registered under its key. */
  lemma ManualTimeoutNotRetried(c: Client, cfg: ReqConfig, own: nat, newToken: nat)
    requires cfg.isCancelToken != Some(false)
    ensures !IsTimeoutError(ManualTimeoutError)
    ensures var i := InterceptRequest(c, Request(cfg, own).0, newToken);
      var r := OnError(i.client, ManualTimeoutError);
      && r.1.None?
      && r.0.sources == i.client.sources
      && RequestKey(cfg.verb, cfg.url) in r.0.sources
  {
    assert !IsTimeoutError(ManualTimeoutError);
  }

  /** The evidently intended classification: the manual timer's cancellation
      counts as a timeout too. */
  predicate IsTimeoutErrorIntended(e: HttpError) {
    IsTimeoutError(e) || (e.code == Some("ERR_CANCELED") && e.message == ManualTimeoutReason)
  }

  /** An error paired with the config its request was sent with, for an
      error that carries none. */
  function WithSentConfig(e: HttpError, sent: ReqConfig): (r: HttpError)
    ensures r.config.Some? && r.code == e.code && r.message == e.message
    ensures e.config.Some? ==> r == e
    ensures e.config.None? ==> r.config == Some(sent)
  {
    e.(config := Some(e.config.GetOr(sent)))
  }

  /** The error interceptor with the intended handling of the manual timer:
      its cancellation counts as a timeout, and an error without a config is
      handled with `sent`, the config the request interceptor produced for
      the request, which the corrected client keeps beside the request's
      cancel source. */
  function OnErrorIntended(c: Client, e: HttpError, sent: ReqConfig): (r: (Client, Option<TimeoutDecision>, seq<Effect>))
    ensures IsTimeoutErrorIntended(e) <==> r.1.Some?
    ensures r.1.Some? ==> r.1.value == HandleTimeoutError(WithSentConfig(e, sent))
    ensures r.0.sources == RemoveCancelToken(c, WithSentConfig(e, sent).config.value).sources
    ensures r.0.count == c.count - 1
    ensures ProgressDone in r.2 <==> r.0.count == 0 && (r.1.None? || !r.1.value.Resubmit?)
  {
    var withConfig := WithSentConfig(e, sent);
    var c1 := RemoveCancelToken(c, withConfig.config.value);
    var c2 := c1.(count := c.count - 1);
    var done := if c2.count == 0 then [ProgressDone] else [];
    if IsTimeoutErrorIntended(e) then
      var d := HandleTimeoutError(withConfig);
      (c2, Some(d), if d.Resubmit? then [] else [ClearTimer] + done + [Notify(Some(TimeoutTitle), None)])
    else (c2, None, [ClearTimer] + done)
  }

  /** With the intended handling a `Request` that the manual timer cancels
      while it has retries left is resubmitted to its own url with one retry
      fewer, and its cancel source is forgotten. */
  lemma ManualTimeoutRetriedIntended(c: Client, cfg: ReqConfig, own: nat, newToken: nat)
    requires cfg.retry.Given? && cfg.retry.value > 0
    ensures var sent := Outgoing(Request(cfg, own).0, newToken);
      var r := OnErrorIntended(c, ManualTimeoutError, sent);
      && r.1.Some? && r.1.value.Resubmit?
      && r.1.value.config.url == cfg.url
      && r.1.value.config.verb == cfg.verb
      && r.1.value.config.retry == Given(cfg.retry.value - 1)
      && RequestKey(cfg.verb, cfg.url) !in r.0.sources
  {
  }

  // ---- Finding: exhausted timeouts leave the progress bar running ----

  /** When the last request in flight times out with no retries left, the
      counter reaches zero but the progress bar is never finished. */
  lemma ExhaustedTimeoutLeavesProgress(cfg: ReqConfig)
    requires cfg.retry == Given(0)
    ensures var e := HttpError(Some(cfg), Some("ECONNABORTED"), "timeout of 5000ms exceeded");
      var r := OnError(Client(map[], {}, 1), e);
      r.0.count == 0 && r.1 == Some(GiveUp) && ProgressDone !in r.2
  {
    var e := HttpError(Some(cfg), Some("ECONNABORTED"), "timeout of 5000ms exceeded");
    assert Strings.StartsWith(e.message, "timeout");
  }

  /** With the intended handling the bar is finished whenever the counter
      reaches zero and no resubmission follows. */
  lemma ExhaustedTimeoutFinishesProgressIntended(cfg: ReqConfig)
    requires cfg.retry == Given(0)
    ensures var e := HttpError(Some(cfg), Some("ECONNABORTED"), "timeout of 5000ms exceeded");
      var r := OnErrorIntended(Client(map[], {}, 1), e, cfg);
      r.0.count == 0 && ProgressDone in r.2
  {
  }

  // ---- Sequential properties of the bookkeeping ----

  /** A request followed by its own response leaves no cancel source behind
      for its key: the interceptor registers under the url the response
      interceptor later reads as the original url. */
  lemma RequestThenResponseForgetsSource(c: Client, cfg: ReqConfig, newToken: nat, ct: Option<string>, code: Value, msg: Option<string>)
    ensures var i := InterceptRequest(c, cfg, newToken);
      var r := OnResponse(i.client, Response(i.config, ct, code, msg));
      && RequestKey(cfg.verb, cfg.url) !in r.0.sources
      && r.0.count == c.count
      && (forall k :: k in c.sources && k != RequestKey(cfg.verb, cfg.url) ==> k in r.0.sources && r.0.sources[k] == c.sources[k])
  {
  }

  /** The in-flight counter over a sequence of requests and plain (non
      timeout) completions: it rises by the requests and falls by the
      completions. */
  datatype Event = Sent(cfg: ReqConfig, newToken: nat) | Answered(resp: Response)

  function Run(c: Client, events: seq<Event>): (r: (Client, seq<Effect>))
    ensures r.0.count == c.count + Sends(events) - (|events| - Sends(events))
    decreases |events|
  {
    if |events| == 0 then (c, [])
    else
      match events[0]
      case Sent(cfg, newToken) =>
        var i := InterceptRequest(c, cfg, newToken);
        var rest := Run(i.client, events[1..]);
        (rest.0, i.effects + rest.1)
      case Answered(resp) =>
        var o := OnResponse(c, resp);
        var rest := Run(o.0, events[1..]);
        (rest.0, o.2 + rest.1)
  }

  /** The number of requests among the events. */
  function Sends(events: seq<Event>): (n: nat)
    ensures n <= |events|
    ensures n == |events| <==> forall i :: 0 <= i < |events| ==> events[i].Sent?
    ensures n == 0 <==> forall i :: 0 <= i < |events| ==> events[i].Answered?
  {
    if |events| == 0 then 0 else (if events[0].Sent? then 1 else 0) + Sends(events[1..])
  }

  /** Counting requests splits over concatenation, so a run's counter is
      the sum over its pieces. */
  lemma {:induction false} SendsAppend(a: seq<Event>, b: seq<Event>)
    ensures Sends(a + b) == Sends(a) + Sends(b)
    decreases |a|
  {
    if |a| == 0 {
      assert a + b == b;
    } else {
      assert (a + b)[1..] == a[1..] + b;
      SendsAppend(a[1..], b);
    }
  }

  /** One request answered once, from an idle client: the bar is scheduled
      once, finished once, and the client is idle again. */
  lemma OneRoundTrip(cfg: ReqConfig, newToken: nat, resp: Response)
    ensures var r := Run(Initial, [Sent(cfg, newToken), Answered(resp)]);
      && r.0.count == 0
      && r.1[0] == ScheduleProgressStart
      && ProgressDone in r.1
  {
    var i := InterceptRequest(Initial, cfg, newToken);
    var o := OnResponse(i.client, resp);
    assert [Sent(cfg, newToken), Answered(resp)][1..] == [Answered(resp)];
    assert [Answered(resp)][1..] == [];
  }

  // ---- Download file name ----

  /** The file name `DownLoad` saves under, or `None` when an empty body is
      skipped. `parsed` is what the Content-Disposition pattern and
      `decodeURIComponent` yield, `None` when they fail. */
  function DownloadFilename(size: int, contentDisposition: Option<string>, parsed: Option<string>, originalUrl: Option<string>): (r: Option<string>)
    ensures size == 0 <==> r.None?
    ensures r.Some? && TruthyString(contentDisposition) ==> r.value == parsed.GetOr("unknown")
    ensures r.Some? && !TruthyString(contentDisposition) ==> r.value != "" && '/' !in r.value
    ensures r.Some? && !TruthyString(contentDisposition) && !TruthyString(originalUrl) ==> r.value == "unknown"
  {
    if size == 0 then None
    else if TruthyString(contentDisposition) then Some(parsed.GetOr("unknown"))
    else if TruthyString(originalUrl) then
      var parts := Strings.Split(originalUrl.value, '/');
      var last := parts[|parts| - 1];
      Some(if last != "" then last else "unknown")
    else Some("unknown")
  }

  /** Without a Content-Disposition header the name is the url's last
      segment: whatever follows the last '/' (the whole url when there is
      none), and 'unknown' when that is empty. */
  lemma {:induction false} FilenameIsLastSegment(u: string, i: nat)
    requires u != "" && i < |u| && u[i] == '/' && '/' !in u[i + 1..]
    ensures DownloadFilename(1, None, None, Some(u)) == Some(if i + 1 == |u| then "unknown" else u[i + 1..])
  {
    LastPiece(u, '/', i);
  }

  /** The last piece of a split is what follows the last separator. */
  lemma LastPiece(s: string, c: char, i: nat)
    requires i < |s| && s[i] == c && c !in s[i + 1..]
    ensures var p := Strings.Split(s, c); p[|p| - 1] == s[i + 1..]
  {
    assert s == s[..i] + [c] + s[i + 1..];
    Strings.SplitSnoc(s[..i], s[i + 1..], c);
  }
}

=== FILE: layout_store.dfy ===
/** `useLayoutStore`: whether the side bar is collapsed and which layout
    mode is used. Persistence is not modelled. */
module LayoutStore {

  /** `'horizontal' | 'vertical' | 'mix'` */
  datatype LayoutMode = Horizontal | Vertical | Mix

  datatype LayoutState = LayoutState(isCollapsed: bool, layoutMode: LayoutMode)

  /** Expanded side bar, vertical layout. */
  const Initial: LayoutState := LayoutState(false, Vertical)

  /** `toggleCollapse` */
  function ToggleCollapse(s: LayoutState): (r: LayoutState)
    ensures r.isCollapsed != s.isCollapsed
    ensures r.layoutMode == s.layoutMode
  {
    s.(isCollapsed := !s.isCollapsed)
  }

  /** `setLayoutMode(mode)` */
  function SetLayoutMode(s: LayoutState, mode: LayoutMode): (r: LayoutState)
    ensures r.layoutMode == mode
    ensures r.isCollapsed == s.isCollapsed
  {
    s.(layoutMode := mode)
  }

  /** `resetStore` */
  function ResetStore(s: LayoutState): (r: LayoutState)
    ensures !r.isCollapsed && r.layoutMode == Vertical
  {
    Initial
  }

  /** Toggling twice changes nothing. */
  lemma ToggleTwice(s: LayoutState)
    ensures ToggleCollapse(ToggleCollapse(s)) == s
  {
  }

  /** Setting the mode twice keeps the last; setting it to what it is changes
      nothing. */
  lemma SetLayoutModeLastWins(s: LayoutState, m1: LayoutMode, m2: LayoutMode)
    ensures SetLayoutMode(SetLayoutMode(s, m1), m2) == SetLayoutMode(s, m2)
    ensures SetLayoutMode(s, s.layoutMode) == s
  {
  }

  /** Resetting from any state gives the initial state, and the two
      operations do not interfere with each other's field. */
  lemma ResetFromAnyState(s: LayoutState, m: LayoutMode)
    ensures ResetStore(s) == Initial
    ensures ResetStore(ToggleCollapse(SetLayoutMode(s, m))) == ResetStore(s)
    ensures ToggleCollapse(SetLayoutMode(s, m)) == SetLayoutMode(ToggleCollapse(s), m)
  {
  }
}

=== FILE: login_store.dfy ===
/** `useLoginStore`: the login form and its persistence, `login`, `logout`,
    and `generatePermissions`, which turns the permission tree into the map
    from a node's `domKey` to its children's `domKey`s. The HTTP request,
    MD5, `JSON.parse`, messages and navigation are outside the model: their
    outcomes are parameters and their calls are listed as effects. */
module LoginStore {
  import opened Values
  import opened UserStore
  import RouterStore
  import Routes

  // ---------------------------------------------------------------------
  // generatePermissions

  /** The `domKey`s of a child list, in order. */
  function ChildKeys(ns: seq<TreeNode>): (keys: seq<string>)
    ensures |keys| == |ns|
    ensures forall i :: 0 <= i < |ns| ==> keys[i] == ns[i].domKey
    decreases |ns|
  {
    if |ns| == 0 then [] else [ns[0].domKey] + ChildKeys(ns[1..])
  }

  /** `traverse(node)` on the map built so far: a node with children records
      its children's keys under its own key when that key is non-empty, then
      visits the children in order. A later node with the same key
      overwrites the earlier entry. Nothing is ever removed, and every entry
      it adds is under a non-empty key with a non-empty list. */
  function Traverse(n: TreeNode, acc: PermissionsMap): (r: PermissionsMap)
    ensures acc.Keys <= r.Keys
    ensures forall k :: k in r && k !in acc ==> k != ""
    ensures forall k :: k in r ==> |r[k]| > 0 || (k in acc && r[k] == acc[k])
    decreases n
  {
    if |n.children| > 0 then
      var acc' := if n.domKey != "" then acc[n.domKey := ChildKeys(n.children)] else acc;
      TraverseAll(n.children, acc')
    else acc
  }

  /** `node.children.forEach(traverse)` */
  function TraverseAll(ns: seq<TreeNode>, acc: PermissionsMap): (r: PermissionsMap)
    ensures acc.Keys <= r.Keys
    ensures forall k :: k in r && k !in acc ==> k != ""
    ensures forall k :: k in r ==> |r[k]| > 0 || (k in acc && r[k] == acc[k])
    decreases ns
  {
    if |ns| == 0 then acc else TraverseAll(ns[1..], Traverse(ns[0], acc))
  }

  /** `generatePermissions(node)`: keys are never empty and no list is
      empty. */
  function GeneratePermissions(root: TreeNode): (m: PermissionsMap)
    ensures forall k :: k in m ==> k != "" && |m[k]| > 0
  {
    Traverse(root, map[])
  }

  /** The reference reading: the (key, child keys) entry of every node with
      children and a non-empty key, in pre-order. */
  function Entries(n: TreeNode): seq<(string, seq<string>)>
    decreases n
  {
    if |n.children| > 0 then
      (if n.domKey != "" then [(n.domKey, ChildKeys(n.children))] else []) + EntriesAll(n.children)
    else []
  }

  function EntriesAll(ns: seq<TreeNode>): seq<(string, seq<string>)>
    decreases ns
  {
    if |ns| == 0 then [] else Entries(ns[0]) + EntriesAll(ns[1..])
  }

  /** Writing the entries into a map one after another. */
  function Fold(acc: PermissionsMap, es: seq<(string, seq<string>)>): (r: PermissionsMap)
    decreases |es|
  {
    if |es| == 0 then acc else Fold(acc, es[..|es| - 1])[es[|es| - 1].0 := es[|es| - 1].1]
  }

  lemma {:induction false} FoldAppend(acc: PermissionsMap, xs: seq<(string, seq<string>)>, ys: seq<(string, seq<string>)>)
    ensures Fold(acc, xs + ys) == Fold(Fold(acc, xs), ys)
    decreases |ys|
  {
    if |ys| == 0 {
      assert xs + ys == xs;
    } else {
      var ys' := ys[..|ys| - 1];
      assert (xs + ys)[..|xs + ys| - 1] == xs + ys';
      assert (xs + ys)[|xs + ys| - 1] == ys[|ys| - 1];
      FoldAppend(acc, xs, ys');
    }
  }

  lemma FoldOne(acc: PermissionsMap, e: (string, seq<string>))
    ensures Fold(acc, [e]) == acc[e.0 := e.1]
  {
    assert [e][..0] == [];
  }

  /** The traversal writes exactly the pre-order entries, in order. */
  lemma {:induction false} TraverseIsFold(n: TreeNode, acc: PermissionsMap)
    ensures Traverse(n, acc) == Fold(acc, Entries(n))
    decreases n
  {
    if |n.children| > 0 {
      if n.domKey != "" {
        var e := (n.domKey, ChildKeys(n.children));
        FoldOne(acc, e);
        FoldAppend(acc, [e], EntriesAll(n.children));
        TraverseAllIsFold(n.children, acc[n.domKey := ChildKeys(n.children)]);
      } else {
        assert [] + EntriesAll(n.children) == EntriesAll(n.children);
        TraverseAllIsFold(n.children, acc);
      }
    }
  }

  lemma {:induction false} TraverseAllIsFold(ns: seq<TreeNode>, acc: PermissionsMap)
    ensures TraverseAll(ns, acc) == Fold(acc, EntriesAll(ns))
    decreases ns
  {
    if |ns| > 0 {
      TraverseIsFold(ns[0], acc);
      TraverseAllIsFold(ns[1..], Traverse(ns[0], acc));
      FoldAppend(acc, Entries(ns[0]), EntriesAll(ns[1..]));
    }
  }

  /** In a fold, a key is present exactly when it was there already or some
      entry names it, and it holds the value of the last entry naming it. */
  lemma {:induction false} FoldLookup(acc: PermissionsMap, es: seq<(string, seq<string>)>, k: string)
    ensures k in Fold(acc, es) <==> k in acc || exists i :: 0 <= i < |es| && es[i].0 == k
    ensures forall i :: 0 <= i < |es| && es[i].0 == k && (forall j :: i < j < |es| ==> es[j].0 != k) ==>
      Fold(acc, es)[k] == es[i].1
    ensures (forall i :: 0 <= i < |es| ==> es[i].0 != k) && k in acc ==> Fold(acc, es)[k] == acc[k]
    decreases |es|
  {
    if |es| > 0 {
      var init := es[..|es| - 1];
      FoldLookup(acc, init, k);
      assert forall i :: 0 <= i < |init| ==> init[i] == es[i];
      if es[|es| - 1].0 != k {
        if exists i :: 0 <= i < |es| && es[i].0 == k {
          var i :| 0 <= i < |es| && es[i].0 == k;
          assert init[i].0 == k;
        }
      }
    }
  }

  /** `generatePermissions(root)` is the pre-order entries written in order:
      its keys are exactly the non-empty keys of nodes with children, and
      each holds the child keys of the last such node in pre-order. */
  lemma GeneratePermissionsSpec(root: TreeNode, k: string)
    ensures k in GeneratePermissions(root) <==> exists i :: 0 <= i < |Entries(root)| && Entries(root)[i].0 == k
    ensures var es := Entries(root);
      forall i :: 0 <= i < |es| && es[i].0 == k && (forall j :: i < j < |es| ==> es[j].0 != k) ==>
        GeneratePermissions(root)[k] == es[i].1
  {
    TraverseIsFold(root, map[]);
    FoldLookup(map[], Entries(root), k);
  }

  /** The entries belong to the tree: the root's own entry comes first when
      it has children and a key, and a leaf contributes nothing. */
  lemma EntriesOfRoot(root: TreeNode)
    ensures |root.children| == 0 ==> Entries(root) == [] && GeneratePermissions(root) == map[]
    ensures |root.children| > 0 && root.domKey != "" ==>
      |Entries(root)| > 0 && Entries(root)[0] == (root.domKey, ChildKeys(root.children))
  {
  }

  /** A tree where the root and one child share a key: the child's entry,
      written later, wins. */
  lemma LaterNodeOverwrites()
    ensures var leaf := TreeNode(3, "c", []);
      var child := TreeNode(2, "a", [leaf]);
      var root := TreeNode(1, "a", [child, TreeNode(4, "b", [])]);
      GeneratePermissions(root) == map["a" := ["c"]]
  {
    var leaf := TreeNode(3, "c", []);
    var child := TreeNode(2, "a", [leaf]);
    var root := TreeNode(1, "a", [child, TreeNode(4, "b", [])]);
    var other := TreeNode(4, "b", []);
    var m0 := map["a" := ChildKeys(root.children)];
    var m1 := map["a" := ["c"]];
    assert ChildKeys([leaf]) == ["c"];
    assert m0["a" := ["c"]] == m1;
    assert TraverseAll([leaf], m1) == m1 by {
      assert [leaf][1..] == [];
    }
    assert Traverse(child, m0) == m1;
    assert TraverseAll([other], m1) == m1 by {
      assert [other][1..] == [];
    }
    assert root.children[1..] == [other];
    assert TraverseAll(root.children, m0) == m1;
  }

  // ---------------------------------------------------------------------
  // login

  /** The login form. `remember` is optional in the request type. */
  datatype LoginForm = LoginForm(userName: string, password: string, verifyCode: string, remember: Option<bool>)

  /** The form's initial contents. */
  const DefaultForm: LoginForm := LoginForm("test", "12345678", "", Some(false))

  /** The fields of the server's answer that `login` inspects; `rights` is
      the permission tree as a JSON string. */
  datatype LoginData = LoginData(token: string, userInfo: Option<UserInfo>, rights: string)

  /** What `JSON.parse(data.rights)` gives: a falsy value (`null`, `false`,
      `0`, `""`), a permission tree, or some other truthy value. */
  datatype Json = Falsy | TreeValue(root: TreeNode) | OtherValue
  datatype ParseOutcome = ParseError | Parsed(value: Json)

  /** The calls `login` and `logout` make outside the stores. */
  datatype Effect = SaveToken(token: string) | SuccessMessage | FailureMessage | Replace(path: string)

  datatype Outcome = Outcome(user: UserState, effects: seq<Effect>)

  /** `route.query.redirect ? String(route.query.redirect) : '/'` */
  function RedirectPath(redirect: Option<string>): (path: string)
    ensures redirect.Some? && redirect.value != "" ==> path == redirect.value
    ensures redirect.None? || redirect.value == "" ==> path == "/"
  {
    if redirect.Some? && redirect.value != "" then redirect.value else "/"
  }

  /** The check before anything is stored: an answer, a non-empty token,
      user info and a non-empty rights string. */
  predicate ValidData(data: Option<LoginData>) {
    data.Some? && data.value.token != "" && data.value.userInfo.Some? && data.value.rights != ""
  }

  /** `login()` once the request has answered with `data` (`None` when it
      failed or answered nothing) and `JSON.parse` of the rights has given
      `parsed`. The token and user info are stored before the rights are
      parsed, so a later failure leaves them in place. A falsy tree is
      stored as `{}`, and `generatePermissions` then throws on the missing
      `nodeData`, as it does for any other non-tree value. */
  function Login(user: UserState, data: Option<LoginData>, parsed: ParseOutcome, redirect: Option<string>): (o: Outcome)
    ensures !ValidData(data) ==> o == Outcome(user, [FailureMessage])
    ensures ValidData(data) ==>
      o.user.token == Some(data.value.token) && o.user.userInfo == data.value.userInfo
      && |o.effects| >= 2 && o.effects[0] == SaveToken(data.value.token)
    ensures ValidData(data) && parsed == ParseError ==> o.user == user.(token := o.user.token, userInfo := o.user.userInfo)
    ensures ValidData(data) && parsed == Parsed(Falsy) ==> o.user.rights == Some(NoTree) && o.user.permissions == user.permissions
    ensures ValidData(data) && parsed == Parsed(OtherValue) ==> o.user.rights == Some(NotATree) && o.user.permissions == user.permissions
    ensures ValidData(data) && parsed.Parsed? && parsed.value.TreeValue? ==>
      o.user.rights == Some(Tree(parsed.value.root))
      && o.user.permissions == Some(GeneratePermissions(parsed.value.root))
      && o.effects == [SaveToken(data.value.token), SuccessMessage, Replace(RedirectPath(redirect))]
    ensures !(ValidData(data) && parsed.Parsed? && parsed.value.TreeValue?) ==> o.effects[|o.effects| - 1] == FailureMessage
  {
    if !ValidData(data) then Outcome(user, [FailureMessage])
    else
      var d := data.value;
      var stored := user.(token := Some(d.token), userInfo := d.userInfo);
      var saved := [SaveToken(d.token)];
      match parsed
      case ParseError => Outcome(stored, saved + [FailureMessage])
      case Parsed(Falsy) => Outcome(stored.(rights := Some(NoTree)), saved + [FailureMessage])
      case Parsed(OtherValue) => Outcome(stored.(rights := Some(NotATree)), saved + [FailureMessage])
      case Parsed(TreeValue(root)) =>
        Outcome(stored.(rights := Some(Tree(root)), permissions := Some(GeneratePermissions(root))),
                saved + [SuccessMessage, Replace(RedirectPath(redirect))])
  }

  /** A login succeeds (and navigates) exactly when the answer is valid and
      the rights parse to a tree; it then leaves the user logged in, with
      the roles of the tree's entries, and the guard registers their menu
      on the next navigation. */
  lemma LoginSucceedsIff(user: UserState, data: Option<LoginData>, parsed: ParseOutcome, redirect: Option<string>,
                         rst: RouterStore.RouterState, routes: seq<Routes.Route>, to: RouterStore.Location)
    ensures var o := Login(user, data, parsed, redirect);
      (SuccessMessage in o.effects <==> ValidData(data) && parsed.Parsed? && parsed.value.TreeValue?)
      && (SuccessMessage in o.effects ==> IsLogin(o.user) && OwnRole(o.user) == GeneratePermissions(parsed.value.root).Keys)
    ensures var o := Login(user, data, parsed, redirect);
      SuccessMessage in o.effects && to.path != "/login" && !rst.isAddRoute ==>
        RouterStore.HandleRouteGuard(rst, o.user, routes, to).state.added == rst.added + [RouterStore.MenuTree(routes, o.user)]
  {
  }

  /** A failed login over a logged-out user with no permissions leaves the
      user logged out, whatever was stored on the way. */
  lemma FailedLoginStaysLoggedOut(user: UserState, data: Option<LoginData>, parsed: ParseOutcome, redirect: Option<string>)
    requires user.permissions.None?
    requires !(ValidData(data) && parsed.Parsed? && parsed.value.TreeValue?)
    ensures !IsLogin(Login(user, data, parsed, redirect).user)
    ensures forall e :: e in Login(user, data, parsed, redirect).effects ==> !e.Replace?
  {
  }

  datatype Stores = Stores(user: UserState, router: RouterStore.RouterState)

  /** `logout()`: both stores reset, then the login page. */
  function Logout(s: Stores): (r: (Stores, Effect))
    ensures r.0.user == UserStore.Initial
    ensures !r.0.router.isAddRoute && r.0.router.added == s.router.added
    ensures r.1 == Replace("/login")
  {
    (Stores(UserStore.Reset(s.user), RouterStore.Reset(s.router)), Replace("/login"))
  }

  /** After logging out, the guard sends every path off the white list to
      the login page, and after the next successful login the first
      navigation registers the menu again. */
  lemma LogoutThenGuard(s: Stores, routes: seq<Routes.Route>, to: RouterStore.Location,
                        data: Option<LoginData>, root: TreeNode, redirect: Option<string>)
    ensures var out := Logout(s).0;
      to.path !in RouterStore.WhiteList ==>
        RouterStore.HandleRouteGuard(out.router, out.user, routes, to).verdict == RouterStore.ToLogin(to.redirectedFrom)
    ensures var out := Logout(s).0;
      var o := Login(out.user, data, Parsed(TreeValue(root)), redirect);
      ValidData(data) && to.path != "/login" ==>
        RouterStore.HandleRouteGuard(out.router, o.user, routes, to).state.added
          == s.router.added + [RouterStore.MenuTree(routes, o.user)]
  {
    UserStore.ResetLogsOut(s.user);
  }

  // ---------------------------------------------------------------------
  // persistence

  /** What the persisted state holds after `pick`: the user name, the
      password and the remember flag of the form. */
  datatype PickedForm = PickedForm(userName: string, password: string, remember: Option<bool>)

  /** `serialize`: the picked form, or nothing when `remember` is not
      truthy (the form is deleted from the state). */
  function Serialize(form: LoginForm): (saved: Option<PickedForm>)
    ensures saved.Some? <==> form.remember == Some(true)
    ensures saved.Some? ==> saved.value.userName == form.userName && saved.value.password == form.password
  {
    if form.remember == Some(true) then Some(PickedForm(form.userName, form.password, form.remember)) else None
  }

  /** Restoring the saved state onto a freshly created form. */
  function Restore(form: LoginForm, saved: Option<PickedForm>): (r: LoginForm)
    ensures saved.None? ==> r == form
    ensures saved.Some? ==> r.verifyCode == form.verifyCode
  {
    match saved
    case None => form
    case Some(p) => form.(userName := p.userName, password := p.password, remember := p.remember)
  }

  /** A remembered form comes back on the next start with everything but
      the verification code; a form that is not remembered comes back as
      the defaults, and the default form itself is never stored. */
  lemma SerializeRoundTrip(form: LoginForm)
    ensures form.remember == Some(true) ==> Restore(DefaultForm, Serialize(form)) == form.(verifyCode := "")
    ensures form.remember != Some(true) ==> Restore(DefaultForm, Serialize(form)) == DefaultForm
    ensures Serialize(DefaultForm) == None
  {
  }
}

=== FILE: route_build.dfy ===
/** The file-based route builders: `buildFlatRoutes` turns the `page.ts`
    modules under `views` into one route per page, and `buildNestedRoutes`
    hangs each route under the route of its parent path, keeping every
    child list ordered with `insertRoute`. */
module RouteBuild {
  import opened Values
  import opened Strings
  import opened Routes
  import Sorting
  import Seqs

  // ---------------------------------------------------------------------
  // Flat routes

  /** `RouteConfig`, the default export of a `page.ts`. */
  datatype RouteConfig = RouteConfig(redirect: Option<string>, meta: Option<Meta>)

  /** `{}`, used when a module has no default export. */
  const NoConfig: RouteConfig := RouteConfig(None, None)

  /** One entry of `pages`: the module path and its default export. */
  datatype Page = Page(key: string, config: Option<RouteConfig>)

  /** `path.split('/').length`: one more than the number of slashes. */
  function Level(key: string): (n: nat)
    ensures n == Count(key, '/') + 1
  {
    SplitLength(key, '/');
    |Split(key, '/')|
  }

  /** The sort key of `buildFlatRoutes`: more segments first. */
  function DeeperFirst(p: Page): int {
    -(Level(p.key) as int)
  }

  /** `page.substring(8, page.length - 8) || '/index'`: the module path
      without its first and last eight characters. */
  function PagePath(key: string): (path: string)
    ensures path != ""
  {
    var p := Substring(key, 8, |key| - 8);
    if p == "" then "/index" else p
  }

  /** For a module `../views<dir>/page.ts` the path is `<dir>`, and
      '/index' for the module directly under `views`. */
  lemma PagePathOfModule(dir: string)
    ensures PagePath("../views" + dir + "/page.ts") == (if dir == "" then "/index" else dir)
  {
    var key := "../views" + dir + "/page.ts";
    assert |key| == 16 + |dir|;
    assert key[8..8 + |dir|] == dir;
  }

  /** The menu page of the application. */
  lemma MenuPagePath()
    ensures PagePath("../views/menu/page.ts") == "/menu"
  {
    PagePathOfModule("/menu");
    assert "../views" + "/menu" + "/page.ts" == "../views/menu/page.ts";
  }

  /** The page directly under `views` is the index page. */
  lemma IndexPagePath()
    ensures PagePath("../views/page.ts") == "/index"
  {
    PagePathOfModule("");
    assert "../views" + "" + "/page.ts" == "../views/page.ts";
  }

  /** `path.split('/').filter(Boolean).join('_') || 'index'` */
  function RouteName(path: string): (name: string)
    ensures name != ""
  {
    var n := Join(NonEmpty(Split(path, '/')), "_");
    if n == "" then "index" else n
  }

  /** Every piece of a split is made of characters of the string. */
  lemma {:induction false} SplitPiecesFrom(s: string, c: char)
    ensures forall k, ch :: 0 <= k < |Split(s, c)| && ch in Split(s, c)[k] ==> ch in s
    decreases |s|
  {
    var i := IndexOf(s, c);
    if i == -1 {
      assert Split(s, c) == [s];
    } else {
      SplitStep(s, c, i);
      SplitPiecesFrom(s[i + 1..], c);
      var parts := Split(s, c);
      forall k, ch | 0 <= k < |parts| && ch in parts[k] ensures ch in s {
        if k == 0 {
          assert parts[0] == s[..i];
        } else {
          assert parts[k] == Split(s[i + 1..], c)[k - 1];
          assert ch in s[i + 1..];
        }
      }
    }
  }

  lemma {:induction false} JoinNonEmpty(parts: seq<string>, sep: string)
    requires |parts| > 0 && parts[0] != ""
    ensures Join(parts, sep) != ""
  {
    if |parts| > 1 {
      assert Join(parts, sep) == parts[0] + sep + Join(parts[1..], sep);
    }
  }

  /** For a path without '_' and with at least one segment, the name's
      '_'-separated pieces are exactly the path's non-empty '/'-segments, in
      order: the name determines the path up to empty segments. */
  lemma RouteNameSegments(path: string)
    requires '_' !in path
    requires NonEmpty(Split(path, '/')) != []
    ensures Split(RouteName(path), '_') == NonEmpty(Split(path, '/'))
  {
    var parts := NonEmpty(Split(path, '/'));
    SplitPiecesFrom(path, '/');
    forall k | 0 <= k < |parts| ensures '_' !in parts[k] {
      var j :| 0 <= j < |Split(path, '/')| && Split(path, '/')[j] == parts[k];
    }
    JoinNonEmpty(parts, "_");
    SplitJoin(parts, '_');
  }

  /** The names of the two pages of the application. */
  lemma RouteNameExample()
    ensures RouteName("/menu") == "menu"
    ensures RouteName("/index") == "index"
  {
    NameOfOneSegment("menu");
    assert "/" + "menu" == "/menu";
    NameOfOneSegment("index");
    assert "/" + "index" == "/index";
  }

  /** A path of one non-empty segment is named by that segment. */
  lemma NameOfOneSegment(seg: string)
    requires seg != "" && '/' !in seg
    ensures RouteName("/" + seg) == seg
  {
    var path := "/" + seg;
    SplitStep(path, '/', 0);
    assert path[1..] == seg;
    assert Split(seg, '/') == [seg];
    var parts := Split(path, '/');
    assert parts == ["", seg];
    assert NonEmpty(parts) == [seg] by {
      assert parts[1..] == [seg];
      assert NonEmpty(parts[1..]) == [seg] + NonEmpty([]);
    }
  }

  /** `page.replace('page.ts', 'index.vue')`: the key of the page's
      component. */
  function ComponentKey(key: string): string {
    ReplaceFirst(key, "page.ts", "index.vue")
  }

  /** The component of `../views<dir>/page.ts` is `../views<dir>/index.vue`
      when no 'p' comes before the file name. */
  lemma ComponentKeyOfModule(dir: string)
    requires 'p' !in dir
    ensures ComponentKey("../views" + dir + "/page.ts") == "../views" + dir + "/index.vue"
  {
    var a := "../views" + dir + "/";
    assert 'p' !in a;
    ReplaceFirstAfter(a, "page.ts", "", "index.vue");
    assert a + "page.ts" + "" == "../views" + dir + "/page.ts";
    assert a + "index.vue" + "" == "../views" + dir + "/index.vue";
  }

  /** The route of one page: its path and name as derived above, the
      component when `pageComps` has one under the component key, the
      redirect prefixed with the path when it is a non-empty string, a copy
      of the meta (or `{}`), and no children. */
  function FlatRoute(p: Page, comps: set<string>): (r: Route)
    ensures r.path == PagePath(p.key) && r.name == RouteName(r.path)
    ensures r.hasComponent <==> ComponentKey(p.key) in comps
    ensures r.children == []
    ensures var opts := p.config.GetOr(NoConfig);
      r.meta == opts.meta.GetOr(NoMeta)
      && (opts.redirect.Some? && opts.redirect.value != "" ==> r.redirect == Some(r.path + "/" + opts.redirect.value))
      && (opts.redirect.None? || opts.redirect.value == "" ==> r.redirect.None?)
  {
    var opts := p.config.GetOr(NoConfig);
    var path := PagePath(p.key);
    var redirect := if opts.redirect.Some? && opts.redirect.value != "" then Some(path + "/" + opts.redirect.value) else None;
    Route(path, RouteName(path), ComponentKey(p.key) in comps, redirect, opts.meta.GetOr(NoMeta), [])
  }

  /** The pages in the order `buildFlatRoutes` maps them: a stable sort by
      descending number of '/'-separated segments. */
  function OrderedPages(pages: seq<Page>): (ps: seq<Page>)
    ensures |ps| == |pages|
    ensures multiset(ps) == multiset(pages)
  {
    Sorting.SortBy(pages, DeeperFirst)
  }

  /** `buildFlatRoutes(pages, pageComps)` */
  function BuildFlatRoutes(pages: seq<Page>, comps: set<string>): (rs: seq<Route>)
    ensures |rs| == |pages|
    ensures forall i :: 0 <= i < |rs| ==> rs[i] == FlatRoute(OrderedPages(pages)[i], comps)
  {
    Sorting.MapSeq((p: Page) => FlatRoute(p, comps), OrderedPages(pages))
  }

  /** Deeper pages come first; pages of one depth keep their order; no page
      is lost or repeated. */
  lemma OrderedPagesDeeperFirst(pages: seq<Page>, k: int)
    ensures forall i, j :: 0 <= i < j < |pages| ==> Level(OrderedPages(pages)[i].key) >= Level(OrderedPages(pages)[j].key)
    ensures Sorting.WithKey(OrderedPages(pages), DeeperFirst, k) == Sorting.WithKey(pages, DeeperFirst, k)
  {
    Sorting.SortBySorted(pages, DeeperFirst);
    Sorting.SortByStable(pages, DeeperFirst, k);
  }

  // ---------------------------------------------------------------------
  // insertRoute

  /** `currentOrder > order || (currentOrder === order && currentRoute.path
      > route.path)`, with `a` the route already in the list. */
  predicate RouteGreater(a: Route, b: Route) {
    OrderOf(a) > OrderOf(b) || (OrderOf(a) == OrderOf(b) && Less(b.path, a.path))
  }

  lemma RouteGreaterAsymmetric()
    ensures forall a, b :: RouteGreater(a, b) ==> !RouteGreater(b, a)
  {
    forall a, b | RouteGreater(a, b) ensures !RouteGreater(b, a) {
      LessTrichotomy(a.path, b.path);
    }
  }

  /** `insertRoute(route, routes)`: `route` goes before the first route
      that is greater by (order, path), or at the end. */
  function InsertRoute(route: Route, routes: seq<Route>): (r: seq<Route>)
    ensures |r| == |routes| + 1
    ensures var j := Sorting.InsertIndex(route, routes, RouteGreater);
      r == routes[..j] + [route] + routes[j..]
      && (forall i :: 0 <= i < j ==> !RouteGreater(routes[i], route))
      && (j < |routes| ==> RouteGreater(routes[j], route))
  {
    Sorting.InsertBy(route, routes, RouteGreater)
  }

  /** Taking the new route out again gives the old list: the other routes
      keep their relative order. */
  lemma InsertRouteKeepsOthers(route: Route, routes: seq<Route>)
    ensures var j := Sorting.InsertIndex(route, routes, RouteGreater);
      var r := InsertRoute(route, routes);
      r[j] == route && r[..j] + r[j + 1..] == routes
  {
    var j := Sorting.InsertIndex(route, routes, RouteGreater);
    var r := InsertRoute(route, routes);
    Seqs.InsertedAt(routes[..j], route, routes[j..]);
    Seqs.SplitAt(routes, j);
  }

  /** A list ordered by (order, path) stays ordered. */
  lemma InsertRouteKeepsSorted(route: Route, routes: seq<Route>)
    requires Sorting.AdjacentSorted(routes, RouteGreater)
    ensures Sorting.AdjacentSorted(InsertRoute(route, routes), RouteGreater)
  {
    RouteGreaterAsymmetric();
    Sorting.InsertKeepsSorted(route, routes, RouteGreater);
  }

  // ---------------------------------------------------------------------
  // buildNestedRoutes

  /** An element of a child list: the childless copy `{ ...route, children:
      [] }` of the route at a path, or the route object kept in the map
      under that path, whose own child list may still grow after it has
      been placed. */
  datatype Child = Copy(path: string) | Obj(path: string)

  /** The state of the `forEach`: each object's child list, the top-level
      list `buildRoutes`, and the paths still in `RouterMap`. */
  datatype Nest = Nest(kids: map<string, seq<Child>>, top: seq<Child>, live: set<string>)

  /** The map's objects: for each path, the last route set under it,
      without children. */
  function Objects(flat: seq<Route>): (objs: map<string, Route>)
    ensures forall p :: p in objs <==> exists i :: 0 <= i < |flat| && flat[i].path == p
    ensures forall p :: p in objs ==> objs[p].path == p && objs[p].children == []
    ensures |flat| > 0 ==> objs[flat[|flat| - 1].path] == Node(flat[|flat| - 1])
    decreases |flat|
  {
    if |flat| == 0 then map[]
    else
      var init := Objects(flat[..|flat| - 1]);
      assert forall i :: 0 <= i < |flat| - 1 ==> flat[..|flat| - 1][i] == flat[i];
      init[flat[|flat| - 1].path := Node(flat[|flat| - 1])]
  }

  /** The map's keys in insertion order: each path where it first occurs. */
  function Paths(flat: seq<Route>): (ps: seq<string>)
    ensures forall p :: p in ps <==> exists i :: 0 <= i < |flat| && flat[i].path == p
    ensures forall i, j :: 0 <= i < j < |ps| ==> ps[i] != ps[j]
    decreases |flat|
  {
    if |flat| == 0 then []
    else
      var init := Paths(flat[..|flat| - 1]);
      assert forall i :: 0 <= i < |flat| - 1 ==> flat[..|flat| - 1][i] == flat[i];
      if flat[|flat| - 1].path in init then init else init + [flat[|flat| - 1].path]
  }

  /** The object under `p`; the fallback is never used for a path that
      came from the map. */
  function ObjectAt(objs: map<string, Route>, p: string): Route {
    if p in objs then objs[p] else Route(p, "", false, None, NoMeta, [])
  }

  function KidsOf(kids: map<string, seq<Child>>, p: string): seq<Child> {
    if p in kids then kids[p] else []
  }

  /** `insertRoute`'s comparison on list elements: a copy and its object
      share path and meta, so both compare as the object. */
  function ChildGreater(objs: map<string, Route>): (Child, Child) -> bool {
    (a: Child, b: Child) => RouteGreater(ObjectAt(objs, a.path), ObjectAt(objs, b.path))
  }

  /** `route.path.split('/').slice(0, -1).join('/') || '/'` */
  function ParentPath(path: string): (parent: string)
    ensures parent != ""
  {
    var parts := Split(path, '/');
    var j := Join(parts[..|parts| - 1], "/");
    if j == "" then "/" else j
  }

  /** The parent of `a/b` (with `b` free of '/') is `a`, or '/' when `a` is
      empty. */
  lemma ParentPathOf(a: string, b: string)
    requires '/' !in b
    ensures ParentPath(a + "/" + b) == (if a == "" then "/" else a)
  {
    SplitSnoc(a, b, '/');
    var parts := Split(a + "/" + b, '/');
    assert parts[..|parts| - 1] == Split(a, '/');
    JoinSplit(a, '/');
  }

  /** The examples: '/menu' and '/index' both hang under '/', and
      '/menu/sub' under '/menu'. */
  lemma ParentPathExamples()
    ensures ParentPath("/menu") == "/"
    ensures ParentPath("/menu/sub") == "/menu"
  {
    MenuUnderRoot();
    SubUnderMenu();
  }

  /** '/menu/sub' hangs under '/menu'. */
  lemma SubUnderMenu()
    ensures ParentPath("/menu/sub") == "/menu"
  {
    ParentPathOf("/menu", "sub");
    assert "/menu" + "/" + "sub" == "/menu/sub";
  }

  /** `route.children.unshift({ ...route, children: [] })` when the route
      has a component. */
  function PrependCopy(objs: map<string, Route>, kids: map<string, seq<Child>>, p: string): (k: map<string, seq<Child>>)
    ensures ObjectAt(objs, p).hasComponent ==> KidsOf(k, p) == [Copy(p)] + KidsOf(kids, p)
    ensures !ObjectAt(objs, p).hasComponent ==> k == kids
    ensures forall q :: q != p ==> KidsOf(k, q) == KidsOf(kids, q)
  {
    if ObjectAt(objs, p).hasComponent then kids[p := [Copy(p)] + KidsOf(kids, p)] else kids
  }

  /** One iteration of `RouterMap.forEach` for the route at `p`: the copy is
      prepended, then the route is inserted into its parent's list and
      leaves the map when the parent path is still in the map, and is
      inserted into the top-level list otherwise. */
  function Place(objs: map<string, Route>, st: Nest, p: string): (r: Nest)
    ensures var kids := PrependCopy(objs, st.kids, p);
      var parent := ParentPath(p);
      if parent in st.live then
        KidsOf(r.kids, parent) == Sorting.InsertBy(Obj(p), KidsOf(kids, parent), ChildGreater(objs))
        && (forall q :: q != parent ==> KidsOf(r.kids, q) == KidsOf(kids, q))
        && r.top == st.top && r.live == st.live - {p}
      else
        r.kids == kids && r.top == Sorting.InsertBy(Obj(p), st.top, ChildGreater(objs)) && r.live == st.live
  {
    var kids := PrependCopy(objs, st.kids, p);
    var parent := ParentPath(p);
    if parent in st.live then
      Nest(kids[parent := Sorting.InsertBy(Obj(p), KidsOf(kids, parent), ChildGreater(objs))], st.top, st.live - {p})
    else
      Nest(kids, Sorting.InsertBy(Obj(p), st.top, ChildGreater(objs)), st.live)
  }

  /** The whole `forEach`, over the paths in map order. */
  function NestAll(objs: map<string, Route>, ps: seq<string>, st: Nest): Nest
    decreases |ps|
  {
    if |ps| == 0 then st else NestAll(objs, ps[1..], Place(objs, st, ps[0]))
  }

  /** The route tree a child list element stands for. The source can put a
      route into its own child list (the path '/' is its own parent), so the
      depth is bounded by `fuel`. */
  function Materialize(objs: map<string, Route>, kids: map<string, seq<Child>>, c: Child, fuel: nat): (r: Route)
    ensures Node(r) == Node(ObjectAt(objs, c.path))
    decreases fuel, 0
  {
    match c
    case Copy(p) => ObjectAt(objs, p)
    case Obj(p) =>
      if fuel == 0 then ObjectAt(objs, p)
      else ObjectAt(objs, p).(children := MaterializeAll(objs, kids, KidsOf(kids, p), fuel - 1))
  }

  function MaterializeAll(objs: map<string, Route>, kids: map<string, seq<Child>>, cs: seq<Child>, fuel: nat): (rs: seq<Route>)
    ensures |rs| == |cs|
    ensures forall i :: 0 <= i < |cs| ==> rs[i] == Materialize(objs, kids, cs[i], fuel)
    decreases fuel, 1, |cs|
  {
    if |cs| == 0 then [] else [Materialize(objs, kids, cs[0], fuel)] + MaterializeAll(objs, kids, cs[1..], fuel)
  }

  /** The state after the `forEach`. */
  function Nested(flat: seq<Route>): Nest {
    var objs := Objects(flat);
    NestAll(objs, Paths(flat), Nest(map[], [], objs.Keys))
  }

  /** `buildNestedRoutes(flatRoutes)` */
  function BuildNestedRoutes(flat: seq<Route>): (rs: seq<Route>)
    ensures |rs| == |Nested(flat).top|
  {
    MaterializeAll(Objects(flat), Nested(flat).kids, Nested(flat).top, |Paths(flat)| + 1)
  }

  /** The route at `p` sits in the top-level list or in some child list. */
  ghost predicate Placed(st: Nest, p: string) {
    Obj(p) in st.top || exists q :: Obj(p) in KidsOf(st.kids, q)
  }

  lemma InsertByKeeps<T>(x: T, xs: seq<T>, greater: (T, T) -> bool, y: T)
    requires y in xs || y == x
    ensures y in Sorting.InsertBy(x, xs, greater)
  {
    Sorting.InsertByPermutes(x, xs, greater);
    assert y in multiset(Sorting.InsertBy(x, xs, greater));
  }

  /** A placement puts the route somewhere and moves nothing placed before. */
  lemma PlaceKeepsPlaced(objs: map<string, Route>, st: Nest, p: string, x: string)
    requires x == p || Placed(st, x)
    ensures Placed(Place(objs, st, p), x)
  {
    var r := Place(objs, st, p);
    var kids := PrependCopy(objs, st.kids, p);
    var parent := ParentPath(p);
    var g := ChildGreater(objs);
    if parent in st.live {
      if x == p {
        InsertByKeeps(Obj(p), KidsOf(kids, parent), g, Obj(p));
        assert Obj(x) in KidsOf(r.kids, parent);
      } else if Obj(x) in st.top {
      } else {
        var q :| Obj(x) in KidsOf(st.kids, q);
        assert Obj(x) in KidsOf(kids, q);
        if q == parent {
          InsertByKeeps(Obj(p), KidsOf(kids, parent), g, Obj(x));
        }
        assert Obj(x) in KidsOf(r.kids, q);
      }
    } else {
      if x == p || Obj(x) in st.top {
        InsertByKeeps(Obj(p), st.top, g, Obj(x));
      } else {
        var q :| Obj(x) in KidsOf(st.kids, q);
        assert Obj(x) in KidsOf(kids, q);
        assert Obj(x) in KidsOf(r.kids, q);
      }
    }
  }

  /** Every route handed in is placed: nothing is lost in the nesting. */
  lemma {:induction false} NestAllPlacesAll(objs: map<string, Route>, ps: seq<string>, st: Nest)
    ensures forall x :: x in ps || Placed(st, x) ==> Placed(NestAll(objs, ps, st), x)
    decreases |ps|
  {
    if |ps| > 0 {
      var st' := Place(objs, st, ps[0]);
      forall x | x in ps || Placed(st, x) ensures x in ps[1..] || Placed(st', x) {
        if x == ps[0] || Placed(st, x) {
          PlaceKeepsPlaced(objs, st, ps[0], x);
        } else {
          assert x in ps[1..];
        }
      }
      NestAllPlacesAll(objs, ps[1..], st');
    }
  }

  /** The top-level list stays ordered by (order, path): only `insertRoute`
      ever adds to it. */
  lemma {:induction false} NestAllTopSorted(objs: map<string, Route>, ps: seq<string>, st: Nest)
    requires Sorting.AdjacentSorted(st.top, ChildGreater(objs))
    ensures Sorting.AdjacentSorted(NestAll(objs, ps, st).top, ChildGreater(objs))
    decreases |ps|
  {
    if |ps| > 0 {
      var g := ChildGreater(objs);
      assert forall a, b :: g(a, b) ==> !g(b, a) by {
        RouteGreaterAsymmetric();
      }
      Sorting.InsertKeepsSorted(Obj(ps[0]), st.top, g);
      NestAllTopSorted(objs, ps[1..], Place(objs, st, ps[0]));
    }
  }

  /** Every flat route ends up in the nested structure, and the top-level
      routes of the result are ordered by (order, path). */
  lemma BuildNestedSpec(flat: seq<Route>)
    ensures forall i :: 0 <= i < |flat| ==> Placed(Nested(flat), flat[i].path)
    ensures Sorting.AdjacentSorted(BuildNestedRoutes(flat), RouteGreater)
  {
    var objs := Objects(flat);
    var ps := Paths(flat);
    var st0 := Nest(map[], [], objs.Keys);
    NestAllPlacesAll(objs, ps, st0);
    forall i | 0 <= i < |flat| ensures Placed(Nested(flat), flat[i].path) {
      assert flat[i].path in ps;
    }
    NestAllTopSorted(objs, ps, st0);
    var top := Nested(flat).top;
    var rs := BuildNestedRoutes(flat);
    forall i | 0 <= i < |rs| - 1 ensures !RouteGreater(rs[i], rs[i + 1]) {
      assert !ChildGreater(objs)(top[i], top[i + 1]);
      assert Node(rs[i]) == Node(ObjectAt(objs, top[i].path));
      assert Node(rs[i + 1]) == Node(ObjectAt(objs, top[i + 1].path));
    }
  }

  /** The object map and path order of two routes with distinct paths. */
  lemma TwoObjects(a: Route, b: Route)
    requires a.path != b.path
    ensures Objects([a, b]) == map[a.path := Node(a), b.path := Node(b)]
    ensures Paths([a, b]) == [a.path, b.path]
  {
    var flat := [a, b];
    assert flat[..1] == [a];
    assert [a][..0] == [];
    assert Objects([a]) == map[a.path := Node(a)];
    assert Paths([a]) == [a.path];
  }

  /** Placing the first route of two whose parent paths are not in the map:
      it becomes the top-level list and gets its copy. */
  lemma PlaceFirstOfTwo(objs: map<string, Route>, a: string, b: string)
    requires objs.Keys == {a, b} && objs[a].hasComponent
    requires ParentPath(a) !in {a, b}
    ensures Place(objs, Nest(map[], [], {a, b}), a) == Nest(map[a := [Copy(a)]], [Obj(a)], {a, b})
  {
    assert KidsOf(map[], a) == [] && [Copy(a)] + [] == [Copy(a)];
    assert PrependCopy(objs, map[], a) == map[a := [Copy(a)]];
  }

  /** Placing the second, smaller one: it goes in front at the top level. */
  lemma PlaceSecondOfTwo(objs: map<string, Route>, a: string, b: string)
    requires a != b && objs.Keys == {a, b} && objs[b].hasComponent
    requires ParentPath(b) !in {a, b}
    requires RouteGreater(objs[a], objs[b])
    ensures Place(objs, Nest(map[a := [Copy(a)]], [Obj(a)], {a, b}), b)
      == Nest(map[a := [Copy(a)], b := [Copy(b)]], [Obj(b), Obj(a)], {a, b})
  {
    var g := ChildGreater(objs);
    assert g(Obj(a), Obj(b));
    assert Sorting.InsertIndex(Obj(b), [Obj(a)], g) == 0;
    assert KidsOf(map[a := [Copy(a)]], b) == [] && [Copy(b)] + [] == [Copy(b)];
    assert PrependCopy(objs, map[a := [Copy(a)]], b) == map[a := [Copy(a)], b := [Copy(b)]];
  }

  /** The final `forEach` state for two routes with components whose parent
      paths are neither of theirs, the greater one first. */
  lemma TwoTopLevelNest(a: Route, b: Route)
    requires a.path != b.path && a.hasComponent && b.hasComponent
    requires ParentPath(a.path) !in {a.path, b.path} && ParentPath(b.path) !in {a.path, b.path}
    requires RouteGreater(Node(a), Node(b))
    ensures Nested([a, b]) == Nest(map[a.path := [Copy(a.path)], b.path := [Copy(b.path)]], [Obj(b.path), Obj(a.path)], {a.path, b.path})
  {
    TwoObjects(a, b);
    var objs := map[a.path := Node(a), b.path := Node(b)];
    assert objs.Keys == {a.path, b.path};
    PlaceFirstOfTwo(objs, a.path, b.path);
    PlaceSecondOfTwo(objs, a.path, b.path);
    var ps := [a.path, b.path];
    var st0 := Nest(map[], [], {a.path, b.path});
    var st1 := Nest(map[a.path := [Copy(a.path)]], [Obj(a.path)], {a.path, b.path});
    var st2 := Nest(map[a.path := [Copy(a.path)], b.path := [Copy(b.path)]], [Obj(b.path), Obj(a.path)], {a.path, b.path});
    assert ps[1..] == [b.path] && ps[1..][1..] == [];
    calc {
      Nested([a, b]);
      NestAll(objs, ps, st0);
      NestAll(objs, [b.path], st1);
      NestAll(objs, [], st2);
    }
  }

  /** A top-level route whose only child element is its own copy becomes
      the childless route with itself as the only child. */
  lemma SelfCopyMaterializes(objs: map<string, Route>, kids: map<string, seq<Child>>, p: string, fuel: nat)
    requires p in objs && p in kids && kids[p] == [Copy(p)] && fuel > 0
    ensures Materialize(objs, kids, Obj(p), fuel) == objs[p].(children := [objs[p]])
  {
    var cs := MaterializeAll(objs, kids, [Copy(p)], fuel - 1);
    assert cs[0] == objs[p];
  }

  /** Two childless routes with components whose parent paths are neither of
      theirs, handed in with the greater one first: both end at the top level
      in (order, path) order, each with its own childless copy as its only
      child. */
  lemma TwoTopLevelRoutes(a: Route, b: Route)
    requires a.path != b.path && a.children == [] && b.children == []
    requires a.hasComponent && b.hasComponent
    requires ParentPath(a.path) !in {a.path, b.path} && ParentPath(b.path) !in {a.path, b.path}
    requires RouteGreater(a, b)
    ensures BuildNestedRoutes([a, b]) == [b.(children := [b]), a.(children := [a])]
  {
    assert Node(a) == a && Node(b) == b;
    TwoObjects(a, b);
    TwoTopLevelNest(a, b);
    var objs := map[a.path := a, b.path := b];
    var kids := map[a.path := [Copy(a.path)], b.path := [Copy(b.path)]];
    SelfCopyMaterializes(objs, kids, a.path, 3);
    SelfCopyMaterializes(objs, kids, b.path, 3);
    var rs := BuildNestedRoutes([a, b]);
    assert rs[0] == b.(children := [b]);
    assert rs[1] == a.(children := [a]);
  }

  /** The routes of the application's two pages, in the order
      `buildFlatRoutes` gives them ('/menu' has more segments). */
  const MenuPage: Route := Route("/menu", "menu", true, None, Meta(Some("多级菜单"), Some(1), None, None), [])
  const IndexPage: Route := Route("/index", "index", true, None, Meta(Some("Index"), Some(-99), None, None), [])

  /** Both pages hang at the top level, '/index' (order -99) before '/menu'
      (order 1), and each gets its own childless copy as its only child. */
  lemma SampleNesting()
    ensures BuildNestedRoutes([MenuPage, IndexPage]) == [IndexPage.(children := [IndexPage]), MenuPage.(children := [MenuPage])]
  {
    SamplePagesFacts();
    TwoTopLevelRoutes(MenuPage, IndexPage);
  }

  /** Both sample pages hang under '/', and '/menu' is the greater. */
  lemma SamplePagesFacts()
    ensures ParentPath(MenuPage.path) == "/" && ParentPath(IndexPage.path) == "/"
    ensures RouteGreater(MenuPage, IndexPage)
  {
    MenuUnderRoot();
    IndexUnderRoot();
  }

  /** '/menu' hangs under '/'. */
  lemma MenuUnderRoot()
    ensures ParentPath("/menu") == "/"
  {
    ParentPathOf("", "menu");
    assert "" + "/" + "menu" == "/menu";
  }

  /** '/index' hangs under '/'. */
  lemma IndexUnderRoot()
    ensures ParentPath("/index") == "/"
  {
    ParentPathOf("", "index");
    assert "" + "/" + "index" == "/index";
  }
}

=== FILE: router_store.dfy ===
/** `useRouterStore`: the menu routes a user may see (`FilterRoutes` and the
    'all' shortcut), their ordering (`sortRoutesByOrder`), the one-time
    dynamic route registration and the navigation guard. The router itself
    is reduced to a log of the route lists handed to `router.addRoute`. */
module RouterStore {
  import opened Values
  import opened Routes
  import Sorting
  import UserStore

  // ---------------------------------------------------------------------
  // Filtering by menu visibility and role

  /** `meta.hideInMenu === true` */
  predicate Hidden(r: Route) {
    r.meta.hideInMenu == Some(true)
  }

  /** `meta.auth || []` is empty, or one of `roles` is in it. */
  predicate Permitted(r: Route, roles: set<string>) {
    var required := r.meta.auth.GetOr([]);
    |required| == 0 || exists i :: 0 <= i < |required| && required[i] in roles
  }

  /** `FilterRoutes(routes, roles)`: the reduce over `routes`, in order. */
  function FilterRoutes(rs: seq<Route>, roles: set<string>): (out: seq<Route>)
    ensures |out| <= |rs|
    decreases rs
  {
    if |rs| == 0 then []
    else
      var kept := FilterOne(rs[0], roles);
      (if kept.Some? then [kept.value] else []) + FilterRoutes(rs[1..], roles)
  }

  /** One step of the reduce: a hidden or forbidden route is dropped; a
      route with children keeps only its filtered children and is dropped
      when none remain; any other route is kept as it is. */
  function FilterOne(r: Route, roles: set<string>): (kept: Option<Route>)
    ensures kept.Some? <==> !Hidden(r) && Permitted(r, roles) && (|r.children| == 0 || |FilterRoutes(r.children, roles)| > 0)
    ensures kept.Some? ==> Node(kept.value) == Node(r)
    ensures kept.Some? && |r.children| == 0 ==> kept.value == r
    ensures kept.Some? && |r.children| > 0 ==>
      kept.value.children == FilterRoutes(r.children, roles) && |kept.value.children| > 0
    decreases r
  {
    if Hidden(r) then None
    else if !Permitted(r, roles) then None
    else if |r.children| > 0 then
      var c := FilterRoutes(r.children, roles);
      if |c| == 0 then None else Some(r.(children := c))
    else Some(r)
  }

  /** Which routes the filter should keep, stated on its own: a visible,
      allowed route that is a leaf, or that has a child which should be
      kept. */
  predicate Survives(r: Route, roles: set<string>)
    decreases r
  {
    && !Hidden(r) && Permitted(r, roles)
    && (|r.children| == 0 || exists j :: 0 <= j < |r.children| && Survives(r.children[j], roles))
  }

  /** `out` keeps exactly the routes of `rs` that survive, at every level,
      in order, each with its own fields. */
  predicate KeptExactly(out: seq<Route>, rs: seq<Route>, roles: set<string>)
    decreases rs
  {
    if |rs| == 0 then out == []
    else if Survives(rs[0], roles) then
      && |out| > 0
      && Node(out[0]) == Node(rs[0])
      && KeptExactly(out[0].children, rs[0].children, roles)
      && KeptExactly(out[1..], rs[1..], roles)
    else KeptExactly(out, rs[1..], roles)
  }

  /** One filter step keeps a route exactly when it survives. */
  lemma {:induction false} FilterOneSurvives(r: Route, roles: set<string>)
    ensures FilterOne(r, roles).Some? <==> Survives(r, roles)
    decreases r
  {
    if |r.children| > 0 {
      FilterRoutesNonEmpty(r.children, roles);
    }
  }

  /** A filtered list is non-empty exactly when some route of it survives. */
  lemma {:induction false} FilterRoutesNonEmpty(rs: seq<Route>, roles: set<string>)
    ensures |FilterRoutes(rs, roles)| > 0 <==> exists j :: 0 <= j < |rs| && Survives(rs[j], roles)
    decreases rs
  {
    if |rs| > 0 {
      FilterOneSurvives(rs[0], roles);
      FilterRoutesNonEmpty(rs[1..], roles);
      if exists j :: 0 <= j < |rs| && Survives(rs[j], roles) {
        var j :| 0 <= j < |rs| && Survives(rs[j], roles);
        if j > 0 {
          assert rs[1..][j - 1] == rs[j];
        }
      }
      if exists j :: 0 <= j < |rs[1..]| && Survives(rs[1..][j], roles) {
        var j :| 0 <= j < |rs[1..]| && Survives(rs[1..][j], roles);
        assert rs[j + 1] == rs[1..][j];
      }
    }
  }

  /** The filter keeps exactly the surviving routes, at every level. */
  lemma {:induction false} FilterRoutesExact(rs: seq<Route>, roles: set<string>)
    ensures KeptExactly(FilterRoutes(rs, roles), rs, roles)
    decreases rs
  {
    if |rs| > 0 {
      var kept := FilterOne(rs[0], roles);
      var rest := FilterRoutes(rs[1..], roles);
      FilterOneSurvives(rs[0], roles);
      FilterRoutesExact(rs[1..], roles);
      if kept.Some? {
        var out := FilterRoutes(rs, roles);
        assert out == [kept.value] + rest;
        assert out[0] == kept.value && out[1..] == rest;
        if |rs[0].children| > 0 {
          FilterRoutesExact(rs[0].children, roles);
        }
      } else {
        assert FilterRoutes(rs, roles) == rest;
      }
    }
  }

  /** A visible, allowed route with a surviving child survives, so a leaf
      that survives keeps every visible, allowed ancestor in the menu. */
  lemma SurvivesByChild(r: Route, roles: set<string>, j: nat)
    requires !Hidden(r) && Permitted(r, roles)
    requires j < |r.children| && Survives(r.children[j], roles)
    ensures Survives(r, roles)
  {
  }

  /** Every route, at every level, is visible in the menu and allowed for
      `roles`. */
  predicate AllShown(rs: seq<Route>, roles: set<string>)
    decreases rs
  {
    forall i :: 0 <= i < |rs| ==>
      !Hidden(rs[i]) && Permitted(rs[i], roles) && AllShown(rs[i].children, roles)
  }

  /** `out` is `rs` with routes deleted at any level, order kept; a route
      kept with children in `rs` keeps at least one of them. */
  predicate PrunedFrom(out: seq<Route>, rs: seq<Route>)
    decreases rs, out
  {
    if |out| == 0 then true
    else if |rs| == 0 then false
    else
      (Node(out[0]) == Node(rs[0])
       && (|rs[0].children| == 0 <==> |out[0].children| == 0)
       && PrunedFrom(out[0].children, rs[0].children)
       && PrunedFrom(out[1..], rs[1..]))
      || PrunedFrom(out, rs[1..])
  }

  /** Nothing hidden or forbidden survives, at any depth. */
  lemma {:induction false} FilterRoutesSound(rs: seq<Route>, roles: set<string>)
    ensures AllShown(FilterRoutes(rs, roles), roles)
    decreases rs
  {
    if |rs| > 0 {
      var kept := FilterOne(rs[0], roles);
      var rest := FilterRoutes(rs[1..], roles);
      FilterRoutesSound(rs[1..], roles);
      if kept.Some? {
        if |rs[0].children| > 0 {
          FilterRoutesSound(rs[0].children, roles);
        }
        assert FilterRoutes(rs, roles) == [kept.value] + rest;
      }
    }
  }

  /** The output is an order-preserving pruning of the input at every level. */
  lemma {:induction false} FilterRoutesPrunes(rs: seq<Route>, roles: set<string>)
    ensures PrunedFrom(FilterRoutes(rs, roles), rs)
    decreases rs
  {
    if |rs| > 0 {
      var kept := FilterOne(rs[0], roles);
      var rest := FilterRoutes(rs[1..], roles);
      var out := FilterRoutes(rs, roles);
      FilterRoutesPrunes(rs[1..], roles);
      if kept.Some? {
        assert out == [kept.value] + rest;
        assert out[1..] == rest;
        if |rs[0].children| > 0 {
          FilterRoutesPrunes(rs[0].children, roles);
        }
      } else {
        assert out == rest;
      }
    }
  }

  /** Filtering what was already filtered changes nothing. */
  lemma {:induction false} FilterRoutesIdempotent(rs: seq<Route>, roles: set<string>)
    ensures FilterRoutes(FilterRoutes(rs, roles), roles) == FilterRoutes(rs, roles)
    decreases rs
  {
    if |rs| > 0 {
      var kept := FilterOne(rs[0], roles);
      var rest := FilterRoutes(rs[1..], roles);
      FilterRoutesIdempotent(rs[1..], roles);
      if kept.Some? {
        var k := kept.value;
        if |rs[0].children| > 0 {
          FilterRoutesIdempotent(rs[0].children, roles);
          assert k.(children := FilterRoutes(k.children, roles)) == k;
        }
        assert FilterOne(k, roles) == Some(k);
        var out := [k] + rest;
        assert FilterRoutes(rs, roles) == out;
        assert out[0] == k && out[1..] == rest;
        assert FilterRoutes(out, roles) == [k] + FilterRoutes(rest, roles);
      } else {
        assert FilterRoutes(rs, roles) == rest;
      }
    }
  }

  /** A visible, allowed route without children is always kept, as it is. */
  lemma {:induction false} FilterKeepsShownLeaves(rs: seq<Route>, roles: set<string>, i: nat)
    requires i < |rs|
    requires !Hidden(rs[i]) && Permitted(rs[i], roles) && |rs[i].children| == 0
    ensures rs[i] in FilterRoutes(rs, roles)
    decreases |rs|
  {
    if i > 0 {
      FilterKeepsShownLeaves(rs[1..], roles, i - 1);
    }
  }

  /** `filterRoutes`: every route for a user holding the role 'all', the
      filtered routes otherwise. */
  function MenuRoutes(routes: seq<Route>, roles: set<string>): (out: seq<Route>)
    ensures "all" in roles ==> out == routes
    ensures "all" !in roles ==> AllShown(out, roles) && PrunedFrom(out, routes) && KeptExactly(out, routes, roles)
  {
    if "all" in roles then routes
    else
      FilterRoutesSound(routes, roles);
      FilterRoutesPrunes(routes, roles);
      FilterRoutesExact(routes, roles);
      FilterRoutes(routes, roles)
  }

  // ---------------------------------------------------------------------
  // Ordering

  /** `sortRoutesByOrder(routes)`: a stable sort by `meta.order ?? 0`, with
      every route's children sorted the same way. The source sorts first and
      then sorts the children; sorting children first is the same thing
      (`SortThenMap`) and lets termination follow the tree. */
  function SortRoutes(rs: seq<Route>): (out: seq<Route>)
    ensures |out| == |rs|
    decreases rs, 1
  {
    Sorting.SortBy(SortEachChildren(rs), OrderOf)
  }

  /** Every route of `rs` with its children sorted. */
  function SortEachChildren(rs: seq<Route>): (out: seq<Route>)
    ensures |out| == |rs|
    decreases rs, 0
  {
    if |rs| == 0 then []
    else [rs[0].(children := SortRoutes(rs[0].children))] + SortEachChildren(rs[1..])
  }

  /** Each route keeps its place and gets its children sorted. Stated apart
      from `SortEachChildren` so that the solver meets it only where a proof
      asks for it. */
  lemma {:induction false} SortEachChildrenAt(rs: seq<Route>)
    ensures forall i :: 0 <= i < |rs| ==>
      SortEachChildren(rs)[i] == rs[i].(children := SortRoutes(rs[i].children))
  {
    if |rs| > 0 {
      SortEachChildrenAt(rs[1..]);
    }
  }

  /** The source's order of work: sort this level by order, then give each
      route sorted children. */
  lemma SortThenMap(rs: seq<Route>)
    ensures SortRoutes(rs) == Sorting.MapSeq((r: Route) => r.(children := SortRoutes(r.children)), Sorting.SortBy(rs, OrderOf))
  {
    var f := (r: Route) => r.(children := SortRoutes(r.children));
    SortEachChildrenAt(rs);
    assert SortEachChildren(rs) == Sorting.MapSeq(f, rs);
    Sorting.SortByMap(rs, OrderOf, f);
  }

  /** Sorted by order at this level and at every level below. */
  predicate SortedDeep(rs: seq<Route>)
    decreases rs
  {
    Sorting.SortedBy(rs, OrderOf) && forall i :: 0 <= i < |rs| ==> SortedDeep(rs[i].children)
  }

  /** Every level of the result is in ascending order. */
  lemma {:induction false} SortRoutesSorted(rs: seq<Route>)
    ensures SortedDeep(SortRoutes(rs))
    decreases rs, 1
  {
    var each := SortEachChildren(rs);
    var out := SortRoutes(rs);
    Sorting.SortBySorted(each, OrderOf);
    SortEachChildrenSorted(rs);
    forall i | 0 <= i < |out| ensures SortedDeep(out[i].children) {
      assert out[i] in multiset(each);
      assert out[i] in each;
    }
  }

  lemma {:induction false} SortEachChildrenSorted(rs: seq<Route>)
    ensures forall x :: x in SortEachChildren(rs) ==> SortedDeep(x.children)
    decreases rs, 0
  {
    var each := SortEachChildren(rs);
    SortEachChildrenAt(rs);
    forall i | 0 <= i < |rs| ensures SortedDeep(each[i].children) {
      SortRoutesSorted(rs[i].children);
    }
  }

  lemma NodesIsMap(rs: seq<Route>)
    ensures Nodes(rs) == Sorting.MapSeq(Node, rs)
  {
  }

  /** One level of the result, children aside, is the stable sort of the
      input's level. */
  lemma NodesOfSorted(rs: seq<Route>)
    ensures Nodes(SortRoutes(rs)) == Sorting.SortBy(Nodes(rs), OrderOf)
  {
    var each := SortEachChildren(rs);
    NodesOfEach(rs);
    NodesIsMap(each);
    NodesIsMap(rs);
    NodesIsMap(SortRoutes(rs));
    assert SortRoutes(rs) == Sorting.SortBy(each, OrderOf);
    Sorting.SortByMap(each, OrderOf, Node);
  }

  /** Sorting the children leaves the nodes of a level alone. */
  lemma NodesOfEach(rs: seq<Route>)
    ensures Nodes(SortEachChildren(rs)) == Nodes(rs)
  {
    var each := SortEachChildren(rs);
    SortEachChildrenAt(rs);
    assert forall i :: 0 <= i < |rs| ==> Nodes(each)[i] == Nodes(rs)[i];
  }

  /** Each level of the result holds the same routes as the input, up to
      their children, and routes of equal order keep their input order. */
  lemma SortRoutesPermutes(rs: seq<Route>, k: int)
    ensures multiset(Nodes(SortRoutes(rs))) == multiset(Nodes(rs))
    ensures Sorting.WithKey(Nodes(SortRoutes(rs)), OrderOf, k) == Sorting.WithKey(Nodes(rs), OrderOf, k)
  {
    NodesOfSorted(rs);
    Sorting.SortByStable(Nodes(rs), OrderOf, k);
  }

  // ---------------------------------------------------------------------
  // Dynamic registration and the navigation guard

  /** Paths reachable without logging in. */
  const WhiteList: seq<string> := ["/login", "/question"]

  /** The target of a navigation: its path, its full path, and the full path
      of the location it was redirected from (`to.redirectedFrom?.fullPath`). */
  datatype Location = Location(path: string, fullPath: string, redirectedFrom: Option<string>)

  /** What the guard returns: `true`; `false`; `{ path: '/login', query:
      { redirect }, replace: true }`; `{ path, replace: true }`; and
      `{ ...to, replace: true }`. */
  datatype Verdict = Allow | Block | ToLogin(redirect: Option<string>) | ToPath(path: string) | Renavigate(to: Location)

  /** `isAddRoute`, and the children of every layout route registered with
      `router.addRoute`, oldest first. */
  datatype RouterState = RouterState(isAddRoute: bool, added: seq<seq<Route>>)

  const Initial: RouterState := RouterState(false, [])

  /** `sortRoutes`: the user's menu routes, ordered. */
  function MenuTree(routes: seq<Route>, user: UserStore.UserState): seq<Route> {
    SortRoutes(MenuRoutes(routes, UserStore.OwnRole(user)))
  }

  /** `addRoute`: registers the ordered menu routes under the layout route
      '/' and sets the flag. */
  function AddRoute(st: RouterState, routes: seq<Route>, user: UserStore.UserState): (r: RouterState)
    ensures r.isAddRoute
    ensures r.added == st.added + [MenuTree(routes, user)]
  {
    RouterState(true, st.added + [MenuTree(routes, user)])
  }

  datatype GuardStep = GuardStep(verdict: Verdict, state: RouterState)

  /** `handleRouteGuard(to, from)`, the store's guard; the router installs a
      guard of its own, so nothing calls this one. */
  function HandleRouteGuard(st: RouterState, user: UserStore.UserState, routes: seq<Route>, to: Location): (g: GuardStep)
    ensures !UserStore.IsLogin(user) ==> g.state == st
    ensures !UserStore.IsLogin(user) && to.path in WhiteList ==> g.verdict == Allow
    ensures !UserStore.IsLogin(user) && to.path !in WhiteList ==> g.verdict == ToLogin(to.redirectedFrom)
    ensures UserStore.IsLogin(user) && to.path == "/login" ==> g == GuardStep(Block, st)
    ensures UserStore.IsLogin(user) && to.path != "/login" && st.isAddRoute ==> g == GuardStep(Allow, st)
    ensures UserStore.IsLogin(user) && to.path != "/login" && !st.isAddRoute ==>
      g.state == AddRoute(st, routes, user)
      && g.verdict == (if to.path == "/404" && to.redirectedFrom.Some? then ToPath(to.redirectedFrom.value) else Renavigate(to))
  {
    if !UserStore.IsLogin(user) then
      if to.path in WhiteList then GuardStep(Allow, st)
      else GuardStep(ToLogin(to.redirectedFrom), st)
    else if to.path == "/login" then GuardStep(Block, st)
    else if !st.isAddRoute then
      var st' := AddRoute(st, routes, user);
      if to.path == "/404" && to.redirectedFrom.Some? then GuardStep(ToPath(to.redirectedFrom.value), st')
      else GuardStep(Renavigate(to), st')
    else GuardStep(Allow, st)
  }

  /** `$reset` */
  function Reset(st: RouterState): (r: RouterState)
    ensures !r.isAddRoute && r.added == st.added
  {
    st.(isAddRoute := false)
  }

  /** A logged-out user is let through only to a white-listed path, and the
      guard never registers routes for them. */
  lemma LoggedOutOnlyWhiteList(st: RouterState, user: UserStore.UserState, routes: seq<Route>, to: Location)
    requires !UserStore.IsLogin(user)
    ensures HandleRouteGuard(st, user, routes, to).verdict == Allow <==> to.path in WhiteList
    ensures HandleRouteGuard(st, user, routes, to).state.added == st.added
  {
  }

  /** The menu routes are registered once per session: a second guard call
      while logged in never registers them again, and it lets the user
      through unless the target is the login page. */
  lemma RoutesRegisteredOnce(st: RouterState, user: UserStore.UserState, routes: seq<Route>, to1: Location, to2: Location)
    requires UserStore.IsLogin(user)
    ensures var g1 := HandleRouteGuard(st, user, routes, to1);
      var g2 := HandleRouteGuard(g1.state, user, routes, to2);
      |g1.state.added| <= |st.added| + 1
      && (g1.state.isAddRoute ==> g2.state == g1.state)
      && (g1.state.isAddRoute && to2.path != "/login" ==> g2.verdict == Allow)
  {
  }

  /** After `$reset` the next logged-in navigation that is not to the login
      page registers the menu routes again. */
  lemma ResetRegistersAgain(st: RouterState, user: UserStore.UserState, routes: seq<Route>, to: Location)
    requires UserStore.IsLogin(user) && to.path != "/login"
    ensures HandleRouteGuard(Reset(st), user, routes, to).state.added == st.added + [MenuTree(routes, user)]
  {
  }
}

=== FILE: routes.dfy ===
/** The route records the router code builds, filters and sorts. */
module Routes {
  import opened Values

  /** `RouteMeta`: the menu title, the menu order, whether the route is
      hidden from the menu and the roles it requires. The icon only matters
      to rendering. */
  datatype Meta = Meta(
    title: Option<string>,
    order: Option<int>,
    hideInMenu: Option<bool>,
    auth: Option<seq<string>>)

  /** `{}`, the meta of a route that declares none. */
  const NoMeta: Meta := Meta(None, None, None, None)

  /** A route record. `hasComponent` says whether a component is attached
      (only its presence is ever tested); an absent `children` is the empty
      list, which every function here treats alike. */
  datatype Route = Route(
    path: string,
    name: string,
    hasComponent: bool,
    redirect: Option<string>,
    meta: Meta,
    children: seq<Route>)

  /** `meta?.order ?? 0`; with integer orders this is also `meta?.order || 0`. */
  function OrderOf(r: Route): int {
    r.meta.order.GetOr(0)
  }

  /** The route without its children: what `{ ...route, children: [] }`
      copies, and what two routes are compared on when only the node
      matters. */
  function Node(r: Route): (n: Route)
    ensures n.children == [] && OrderOf(n) == OrderOf(r)
  {
    r.(children := [])
  }

  /** The nodes of a route list, in order. */
  function Nodes(rs: seq<Route>): (ns: seq<Route>)
    ensures |ns| == |rs|
    ensures forall i :: 0 <= i < |rs| ==> ns[i] == Node(rs[i])
    decreases |rs|
  {
    if |rs| == 0 then [] else [Node(rs[0])] + Nodes(rs[1..])
  }
}

=== FILE: seqs.dfy ===
/** Sequence identities the other proofs cite, each proved once here so
    that no larger proof has to rediscover it. */
module Seqs {

  lemma AppendAssoc<T>(x: seq<T>, y: seq<T>, z: seq<T>)
    ensures x + (y + z) == (x + y) + z
  {
  }

  lemma AppendNil<T>(x: seq<T>)
    ensures x + [] == x && [] + x == x
  {
  }

  /** A sequence is its prefix up to `j` followed by the rest. */
  lemma SplitAt<T>(s: seq<T>, j: nat)
    requires j <= |s|
    ensures s == s[..j] + s[j..]
  {
  }

  /** The element placed between `a` and `b` sits at index `|a|`, with `a`
      before it and `b` after it. */
  lemma InsertedAt<T>(a: seq<T>, x: T, b: seq<T>)
    ensures (a + [x] + b)[|a|] == x
    ensures (a + [x] + b)[..|a|] == a
    ensures (a + [x] + b)[|a| + 1..] == b
  {
  }
}

=== FILE: sorting.dfy ===
/** Ordered insertion and the stable sort built from it, over any element
    type with an integer sort key. `Array.prototype.toSorted` and `sort` are
    stable, so this is the behaviour the route code relies on. */
module Sorting {
  import Seqs

  /** The index before which `insertRoute`-style insertion puts `x`: the first
      element `greater` than `x`, or the end. */
  function InsertIndex<T>(x: T, xs: seq<T>, greater: (T, T) -> bool): (j: nat)
    ensures j <= |xs|
    ensures forall i :: 0 <= i < j ==> !greater(xs[i], x)
    ensures j < |xs| ==> greater(xs[j], x)
    decreases |xs|
  {
    if |xs| == 0 then 0
    else if greater(xs[0], x) then 0
    else 1 + InsertIndex(x, xs[1..], greater)
  }

  /** Insert `x` before the first element `greater` than it, else append. */
  function InsertBy<T>(x: T, xs: seq<T>, greater: (T, T) -> bool): (r: seq<T>)
    ensures |r| == |xs| + 1
    ensures var j := InsertIndex(x, xs, greater); r == xs[..j] + [x] + xs[j..]
  {
    var j := InsertIndex(x, xs, greater);
    xs[..j] + [x] + xs[j..]
  }

  /** Insertion adds exactly `x` to the elements. */
  lemma InsertByPermutes<T>(x: T, xs: seq<T>, greater: (T, T) -> bool)
    ensures multiset(InsertBy(x, xs, greater)) == multiset(xs) + multiset{x}
  {
    var j := InsertIndex(x, xs, greater);
    assert xs == xs[..j] + xs[j..];
  }

  /** No element is `greater` than the one after it. */
  predicate AdjacentSorted<T>(xs: seq<T>, greater: (T, T) -> bool) {
    forall i :: 0 <= i < |xs| - 1 ==> !greater(xs[i], xs[i + 1])
  }

  /** Inserting into a list sorted under an asymmetric `greater` keeps it
      sorted, and leaves the other elements in their relative order. */
  lemma InsertKeepsSorted<T>(x: T, xs: seq<T>, greater: (T, T) -> bool)
    requires forall a, b :: greater(a, b) ==> !greater(b, a)
    requires AdjacentSorted(xs, greater)
    ensures AdjacentSorted(InsertBy(x, xs, greater), greater)
  {
    var j := InsertIndex(x, xs, greater);
    var r := InsertBy(x, xs, greater);
    forall i | 0 <= i < |r| - 1 ensures !greater(r[i], r[i + 1]) {
      if i + 1 < j {
        assert r[i] == xs[i] && r[i + 1] == xs[i + 1];
      } else if i + 1 == j {
        assert r[i] == xs[i] && r[i + 1] == x;
      } else if i == j {
        assert r[i] == x && r[i + 1] == xs[j];
      } else {
        assert r[i] == xs[i - 1] && r[i + 1] == xs[i];
      }
    }
  }

  /** Sorted by `key`, ascending. */
  predicate SortedBy<T>(xs: seq<T>, key: T -> int) {
    forall i, j :: 0 <= i < j < |xs| ==> key(xs[i]) <= key(xs[j])
  }

  /** The elements whose key is `k`, in order. */
  function WithKey<T>(xs: seq<T>, key: T -> int, k: int): (r: seq<T>)
    ensures |r| <= |xs|
    decreases |xs|
  {
    if |xs| == 0 then []
    else WithKey(xs[..|xs| - 1], key, k) + (if key(xs[|xs| - 1]) == k then [xs[|xs| - 1]] else [])
  }

  lemma {:induction false} WithKeyAppend<T>(a: seq<T>, b: seq<T>, key: T -> int, k: int)
    ensures WithKey(a + b, key, k) == WithKey(a, key, k) + WithKey(b, key, k)
    decreases |b|
  {
    if |b| == 0 {
      assert a + b == a;
    } else {
      var b' := b[..|b| - 1];
      assert (a + b)[..|a + b| - 1] == a + b';
      WithKeyAppend(a, b', key, k);
    }
  }

  lemma {:induction false} WithKeyNone<T>(xs: seq<T>, key: T -> int, k: int)
    requires forall i :: 0 <= i < |xs| ==> key(xs[i]) != k
    ensures WithKey(xs, key, k) == []
    decreases |xs|
  {
    if |xs| > 0 {
      WithKeyNone(xs[..|xs| - 1], key, k);
    }
  }

  function KeyGreater<T>(key: T -> int): (T, T) -> bool {
    (a: T, b: T) => key(a) > key(b)
  }

  /** Stable sort by `key`: each element is inserted after every element
      already placed whose key is not larger. */
  function SortBy<T>(xs: seq<T>, key: T -> int): (r: seq<T>)
    ensures |r| == |xs|
    ensures multiset(r) == multiset(xs)
    decreases |xs|
  {
    if |xs| == 0 then []
    else
      var init := xs[..|xs| - 1];
      assert xs == init + [xs[|xs| - 1]];
      InsertByPermutes(xs[|xs| - 1], SortBy(init, key), KeyGreater(key));
      InsertBy(xs[|xs| - 1], SortBy(init, key), KeyGreater(key))
  }

  /** The sort is ascending by key. */
  lemma {:induction false} SortBySorted<T>(xs: seq<T>, key: T -> int)
    ensures SortedBy(SortBy(xs, key), key)
    decreases |xs|
  {
    if |xs| > 0 {
      var init := xs[..|xs| - 1];
      var x := xs[|xs| - 1];
      var s := SortBy(init, key);
      SortBySorted(init, key);
      var j := InsertIndex(x, s, KeyGreater(key));
      var r := SortBy(xs, key);
      assert r == s[..j] + [x] + s[j..];
      forall a, b | 0 <= a < b < |r| ensures key(r[a]) <= key(r[b]) {
        if b < j {
          assert r[a] == s[a] && r[b] == s[b];
        } else if b == j {
          assert r[a] == s[a] && r[b] == x;
          assert !KeyGreater(key)(s[a], x);
        } else if a == j {
          assert r[a] == x && r[b] == s[b - 1];
          assert KeyGreater(key)(s[j], x);
          assert j == b - 1 || key(s[j]) <= key(s[b - 1]);
        } else if a < j {
          assert r[a] == s[a] && r[b] == s[b - 1];
        } else {
          assert r[a] == s[a - 1] && r[b] == s[b - 1];
        }
      }
    }
  }

  lemma WithKeySingle<T>(x: T, key: T -> int, k: int)
    ensures WithKey([x], key, k) == (if key(x) == k then [x] else [])
  {
    assert [x][..0] == [];
  }

  /** In a key-sorted list, everything from the insertion index on has a
      larger key than the element inserted. */
  lemma TailKeysLarger<T>(x: T, s: seq<T>, key: T -> int)
    requires SortedBy(s, key)
    ensures var j := InsertIndex(x, s, KeyGreater(key));
      forall i :: j <= i < |s| ==> key(s[i]) > key(x)
  {
    var j := InsertIndex(x, s, KeyGreater(key));
    if j < |s| {
      assert KeyGreater(key)(s[j], x);
      assert key(s[j]) > key(x);
    }
  }

  /** Inserting before the first larger key puts the new element after every
      element of the same key. */
  lemma InsertAfterEqualKeys<T>(x: T, s: seq<T>, key: T -> int, k: int)
    requires var j := InsertIndex(x, s, KeyGreater(key));
      forall i :: j <= i < |s| ==> key(s[i]) > key(x)
    ensures WithKey(InsertBy(x, s, KeyGreater(key)), key, k)
      == WithKey(s, key, k) + (if key(x) == k then [x] else [])
  {
    var j := InsertIndex(x, s, KeyGreater(key));
    var a, b := s[..j], s[j..];
    Seqs.SplitAt(s, j);
    WithKeyAppend(a + [x], b, key, k);
    WithKeyAppend(a, [x], key, k);
    WithKeySingle(x, key, k);
    WithKeyAppend(a, b, key, k);
    var wa, wb := WithKey(a, key, k), WithKey(b, key, k);
    if key(x) == k {
      assert forall i :: 0 <= i < |b| ==> key(b[i]) != k;
      WithKeyNone(b, key, k);
      Seqs.AppendNil(wa + [x]);
      Seqs.AppendNil(wa);
    } else {
      Seqs.AppendNil(wa);
      Seqs.AppendNil(wa + wb);
    }
  }

  /** The sort is stable: the elements of any one key keep their order. */
  lemma {:induction false} SortByStable<T>(xs: seq<T>, key: T -> int, k: int)
    ensures WithKey(SortBy(xs, key), key, k) == WithKey(xs, key, k)
    decreases |xs|
  {
    if |xs| > 0 {
      var init := xs[..|xs| - 1];
      var x := xs[|xs| - 1];
      SortByStable(init, key, k);
      SortBySorted(init, key);
      TailKeysLarger(x, SortBy(init, key), key);
      InsertAfterEqualKeys(x, SortBy(init, key), key, k);
    }
  }

  /** `xs.map(f)` */
  function MapSeq<T, U>(f: T -> U, xs: seq<T>): (ys: seq<U>)
    ensures |ys| == |xs|
    ensures forall i :: 0 <= i < |xs| ==> ys[i] == f(xs[i])
  {
    seq(|xs|, i requires 0 <= i < |xs| => f(xs[i]))
  }

  lemma {:induction false} InsertIndexMap<T>(x: T, s: seq<T>, key: T -> int, f: T -> T)
    requires forall y :: key(f(y)) == key(y)
    ensures InsertIndex(f(x), MapSeq(f, s), KeyGreater(key)) == InsertIndex(x, s, KeyGreater(key))
    decreases |s|
  {
    if |s| > 0 {
      assert MapSeq(f, s)[1..] == MapSeq(f, s[1..]);
      assert KeyGreater(key)(MapSeq(f, s)[0], f(x)) == KeyGreater(key)(s[0], x);
      InsertIndexMap(x, s[1..], key, f);
    }
  }

  /** Sorting commutes with any map that keeps the key. */
  lemma {:induction false} SortByMap<T>(xs: seq<T>, key: T -> int, f: T -> T)
    requires forall y :: key(f(y)) == key(y)
    ensures SortBy(MapSeq(f, xs), key) == MapSeq(f, SortBy(xs, key))
    decreases |xs|
  {
    if |xs| > 0 {
      var init, x := xs[..|xs| - 1], xs[|xs| - 1];
      var m := MapSeq(f, xs);
      MapSeqInit(f, xs);
      SortByLast(m, key);
      SortByMap(init, key, f);
      var s := SortBy(init, key);
      InsertIndexMap(x, s, key, f);
      SortByLast(xs, key);
      MapSeqInsert(f, s, InsertIndex(x, s, KeyGreater(key)), x);
    }
  }

  /** The last step of the sort: the last element inserted into the sorted
      rest. */
  lemma SortByLast<T>(xs: seq<T>, key: T -> int)
    requires |xs| > 0
    ensures SortBy(xs, key) == InsertBy(xs[|xs| - 1], SortBy(xs[..|xs| - 1], key), KeyGreater(key))
  {
  }

  lemma MapSeqInit<T, U>(f: T -> U, xs: seq<T>)
    requires |xs| > 0
    ensures MapSeq(f, xs)[..|xs| - 1] == MapSeq(f, xs[..|xs| - 1])
    ensures MapSeq(f, xs)[|xs| - 1] == f(xs[|xs| - 1])
  {
  }

  lemma MapSeqInsert<T, U>(f: T -> U, s: seq<T>, j: nat, x: T)
    requires j <= |s|
    ensures MapSeq(f, s[..j] + [x] + s[j..]) == MapSeq(f, s)[..j] + [f(x)] + MapSeq(f, s)[j..]
  {
  }
}

=== FILE: strings.dfy ===
/** The JavaScript string operations the modelled code relies on:
    `indexOf`, `split`, `join`, `includes`, `substring` and `<` on strings. */
module Strings {
  import Seqs

  /** `s.indexOf(c)` for a single character: the first position of `c`, or -1. */
  function IndexOf(s: string, c: char): (i: int)
    ensures -1 <= i < |s|
    ensures i == -1 <==> c !in s
    ensures 0 <= i ==> s[i] == c && c !in s[..i]
  {
    if |s| == 0 then -1
    else if s[0] == c then 0
    else
      var j := IndexOf(s[1..], c);
      if j == -1 then -1
      else
        assert s[..j + 1] == [s[0]] + s[1..][..j];
        j + 1
  }

  /** Number of occurrences of `c` in `s`. */
  function Count(s: string, c: char): nat {
    if |s| == 0 then 0 else (if s[0] == c then 1 else 0) + Count(s[1..], c)
  }

  /** `s.split(c)` for a one-character separator: the maximal pieces between
      separators, empty pieces included. */
  function Split(s: string, c: char): (parts: seq<string>)
    ensures |parts| >= 1
    ensures forall k :: 0 <= k < |parts| ==> c !in parts[k]
    decreases |s|
  {
    var i := IndexOf(s, c);
    if i == -1 then [s] else [s[..i]] + Split(s[i + 1..], c)
  }

  /** `parts.join(sep)` */
  function Join(parts: seq<string>, sep: string): string {
    if |parts| == 0 then ""
    else if |parts| == 1 then parts[0]
    else parts[0] + sep + Join(parts[1..], sep)
  }

  /** One step of `join` on a list of at least two pieces. */
  lemma JoinCons(x: string, tail: seq<string>, sep: string)
    requires |tail| >= 1
    ensures Join([x] + tail, sep) == x + sep + Join(tail, sep)
  {
    assert ([x] + tail)[1..] == tail;
  }

  /** Joining the pieces of a split with the same separator gives the string back. */
  lemma {:induction false} JoinSplit(s: string, c: char)
    ensures Join(Split(s, c), [c]) == s
    decreases |s|
  {
    var i := IndexOf(s, c);
    if i != -1 {
      var rest := s[i + 1..];
      SplitStep(s, c, i);
      JoinSplit(rest, c);
      JoinCons(s[..i], Split(rest, c), [c]);
      assert s == s[..i] + [c] + rest;
    }
  }

  /** A split yields one more piece than there are separators. */
  lemma {:induction false} SplitLength(s: string, c: char)
    ensures |Split(s, c)| == Count(s, c) + 1
    decreases |s|
  {
    var i := IndexOf(s, c);
    if i == -1 {
      assert Split(s, c) == [s];
      CountAbsent(s, c);
    } else {
      SplitStep(s, c, i);
      SplitLength(s[i + 1..], c);
      CountAt(s, c, i);
    }
  }

  lemma {:induction false} CountAbsent(s: string, c: char)
    requires c !in s
    ensures Count(s, c) == 0
  {
    if |s| > 0 {
      assert s[0] != c;
      assert c !in s[1..];
      CountAbsent(s[1..], c);
    }
  }

  lemma {:induction false} CountAt(s: string, c: char, i: nat)
    requires i < |s| && s[i] == c && c !in s[..i]
    ensures Count(s, c) == 1 + Count(s[i + 1..], c)
  {
    if i == 0 {
      assert s[1..] == s[i + 1..];
    } else {
      assert s[0] != c;
      assert s[1..][..i - 1] == s[1..i];
      assert c !in s[1..][..i - 1];
      CountAt(s[1..], c, i - 1);
      assert s[1..][i..] == s[i + 1..];
    }
  }

  /** One step of `split`: the piece before the first separator, then the
      pieces of the rest. */
  lemma SplitStep(s: string, c: char, i: nat)
    requires i < |s| && s[i] == c && c !in s[..i]
    ensures Split(s, c) == [s[..i]] + Split(s[i + 1..], c)
  {
  }

  /** Splitting a string joined from separator-free pieces gives the pieces
      back. */
  lemma {:induction false} SplitJoin(parts: seq<string>, c: char)
    requires |parts| >= 1
    requires forall k :: 0 <= k < |parts| ==> c !in parts[k]
    ensures Split(Join(parts, [c]), c) == parts
    decreases |parts|
  {
    if |parts| == 1 {
      assert IndexOf(parts[0], c) == -1;
    } else {
      var a, tail := parts[0], parts[1..];
      assert parts == [a] + tail;
      var rest := Join(tail, [c]);
      var s := a + [c] + rest;
      JoinCons(a, tail, [c]);
      assert s[|a|] == c && s[..|a|] == a && s[|a| + 1..] == rest;
      assert c !in a;
      SplitStep(s, c, |a|);
      forall k | 0 <= k < |tail| ensures c !in tail[k] {
        assert tail[k] == parts[k + 1];
      }
      SplitJoin(tail, c);
    }
  }

  /** Splitting `a + [c] + b` with `c` not in `b` gives the pieces of `a`
      followed by `b`. */
  lemma {:induction false} SplitSnoc(a: string, b: string, c: char)
    requires c !in b
    ensures Split(a + [c] + b, c) == Split(a, c) + [b]
    decreases |a|
  {
    var i := IndexOf(a, c);
    if i == -1 {
      SplitAfter(a, c, b);
      assert IndexOf(b, c) == -1;
      assert IndexOf(a, c) == -1;
    } else {
      var a1, a2 := a[..i], a[i + 1..];
      assert a == a1 + [c] + a2;
      assert a + [c] + b == a1 + [c] + (a2 + [c] + b);
      SplitAfter(a1, c, a2 + [c] + b);
      SplitAfter(a1, c, a2);
      SplitSnoc(a2, b, c);
      Seqs.AppendAssoc([a1], Split(a2, c), [b]);
    }
  }

  /** Splitting `x + [c] + y` with `c` not in `x`: `x`, then the pieces of `y`. */
  lemma SplitAfter(x: string, c: char, y: string)
    requires c !in x
    ensures Split(x + [c] + y, c) == [x] + Split(y, c)
  {
    var s := x + [c] + y;
    assert s[|x|] == c && s[..|x|] == x && s[|x| + 1..] == y;
    SplitStep(s, c, |x|);
  }

  /** `parts.filter(Boolean)` on strings: the non-empty ones, in order. */
  function NonEmpty(parts: seq<string>): (r: seq<string>)
    ensures |r| <= |parts|
    ensures forall k :: 0 <= k < |r| ==> r[k] != "" && r[k] in parts
    ensures forall p :: p in parts && p != "" ==> p in r
    decreases |parts|
  {
    if |parts| == 0 then []
    else (if parts[0] != "" then [parts[0]] else []) + NonEmpty(parts[1..])
  }

  /** `s.replace(pat, rep)` with a string pattern: the first occurrence is
      replaced; without one, `s` is unchanged. */
  function ReplaceFirst(s: string, pat: string, rep: string): (r: string)
    decreases |s|
  {
    if StartsWith(s, pat) then rep + s[|pat|..]
    else if |s| == 0 then s
    else [s[0]] + ReplaceFirst(s[1..], pat, rep)
  }

  /** When the pattern's first character is absent from `a`, the first
      occurrence in `a + pat + b` is the one right after `a`. */
  lemma {:induction false} ReplaceFirstAfter(a: string, pat: string, b: string, rep: string)
    requires |pat| > 0 && pat[0] !in a
    ensures ReplaceFirst(a + pat + b, pat, rep) == a + rep + b
    decreases |a|
  {
    var s := a + pat + b;
    if |a| == 0 {
      assert s == pat + b && s[..|pat|] == pat;
      assert s[|pat|..] == b;
    } else {
      assert s[0] == a[0] && a[0] != pat[0];
      assert !StartsWith(s, pat);
      assert s[1..] == a[1..] + pat + b;
      ReplaceFirstAfter(a[1..], pat, b, rep);
      assert a + rep + b == [a[0]] + (a[1..] + rep + b);
    }
  }

  /** A string without the pattern's first character is left unchanged. */
  lemma {:induction false} ReplaceFirstAbsent(s: string, pat: string, rep: string)
    requires |pat| > 0 && pat[0] !in s
    ensures ReplaceFirst(s, pat, rep) == s
    decreases |s|
  {
    if |s| > 0 {
      assert s[0] != pat[0];
      ReplaceFirstAbsent(s[1..], pat, rep);
    }
  }

  /** `s.startsWith(t)` */
  predicate StartsWith(s: string, t: string) {
    |t| <= |s| && s[..|t|] == t
  }

  /** `s.includes(t)` */
  predicate Contains(s: string, t: string)
    decreases |s|
  {
    StartsWith(s, t) || (|s| > 0 && Contains(s[1..], t))
  }

  /** `t` occurs in `s` starting at position `i`. */
  predicate OccursAt(s: string, t: string, i: nat) {
    i + |t| <= |s| && s[i..i + |t|] == t
  }

  /** `includes` holds exactly when `t` occurs at some position of `s`. */
  lemma {:induction false} ContainsIff(s: string, t: string)
    ensures Contains(s, t) <==> exists i: nat :: OccursAt(s, t, i)
    decreases |s|
  {
    if |s| > 0 {
      ContainsIff(s[1..], t);
      if Contains(s[1..], t) {
        var i: nat :| OccursAt(s[1..], t, i);
        assert s[i + 1..i + 1 + |t|] == s[1..][i..i + |t|];
        assert OccursAt(s, t, i + 1);
      }
      if StartsWith(s, t) {
        assert OccursAt(s, t, 0);
      }
      if i: nat :| OccursAt(s, t, i) {
        if i > 0 {
          assert s[1..][i - 1..i - 1 + |t|] == s[i..i + |t|];
          assert OccursAt(s[1..], t, i - 1);
        } else {
          assert StartsWith(s, t);
        }
      }
    } else {
      if StartsWith(s, t) {
        assert OccursAt(s, t, 0);
      }
      if i: nat :| OccursAt(s, t, i) {
        assert |t| == 0 && StartsWith(s, t);
      }
    }
  }

  /** For a one-character needle, `includes` is membership. */
  lemma {:induction false} ContainsChar(s: string, c: char)
    ensures Contains(s, [c]) <==> c in s
  {
    ContainsIff(s, [c]);
    if c in s {
      var i :| 0 <= i < |s| && s[i] == c;
      assert s[i..i + 1] == [c];
      assert OccursAt(s, [c], i);
    }
    if Contains(s, [c]) {
      var i: nat :| OccursAt(s, [c], i);
      assert s[i] == s[i..i + 1][0];
    }
  }

  function Clamp(x: int, lo: int, hi: int): int
    requires lo <= hi
  {
    if x < lo then lo else if x > hi then hi else x
  }

  /** `s.substring(start, end)`: both indices are clamped to the string, and
      swapped when start exceeds end. */
  function Substring(s: string, start: int, end: int): (r: string)
    ensures |r| <= |s|
  {
    var a := Clamp(start, 0, |s|);
    var b := Clamp(end, 0, |s|);
    if a <= b then s[a..b] else s[b..a]
  }

  /** `a < b` on strings: lexicographic by character code, a proper prefix
      being smaller. */
  predicate Less(a: string, b: string) {
    if |a| == 0 then |b| > 0
    else if |b| == 0 then false
    else if a[0] != b[0] then a[0] < b[0]
    else Less(a[1..], b[1..])
  }

  /** String `<` is a strict total order: exactly one of `a < b`, `a == b`,
      `b < a` holds. */
  lemma {:induction false} LessTrichotomy(a: string, b: string)
    ensures Less(a, b) || a == b || Less(b, a)
    ensures !(Less(a, b) && Less(b, a))
    ensures Less(a, b) ==> a != b
  {
    if |a| > 0 && |b| > 0 && a[0] == b[0] {
      LessTrichotomy(a[1..], b[1..]);
      if a[1..] == b[1..] {
        assert a == [a[0]] + a[1..] && b == [b[0]] + b[1..];
      }
    }
  }
}

=== FILE: system_params.dfy ===
/** The system-parameter store (`useSystemParamsStore`): option lists for
    radio/select fields, fetched by class key and cached for eight hours.
    The source reads the clock once per entry for the cache test and once
    per fetched group for the expiry it writes; the model takes one reading,
    `now`, for every cache test and one, `later`, for every expiry written
    after the class request, in milliseconds. The SHA-256 digest of a mapping
    is the uninterpreted parameter `sha`. */
module SystemParams {
  import opened Values

  /** Eight hours in milliseconds. */
  const ExpirationTime: int := 1000 * 60 * 60 * 8

  /** `SystemParamsItem`: one row of a parameter class. */
  datatype Item = Item(classKey: string, itemId: int, itemKey: string, itemValue: string, itemDesc: string)

  /** `MapValueType`: which class to fetch and how to turn its items into options. */
  datatype MapValue = MapValue(
    key: string,
    value: Option<Item -> Value>,
    labelOf: Option<Item -> Value>,
    disabled: Option<Item -> bool>)

  /** `ResultType`: one option of a radio group or select. */
  datatype ResultType = ResultType(value: Value, text: Value, disabled: bool)

  /** `cacheKeys` and `cacheKeysExpTime`. */
  datatype Cache = Cache(entries: map<string, seq<ResultType>>, expires: map<string, int>)

  /** A JS `Map` holds each key once. */
  predicate DistinctKeys(mapList: seq<(string, MapValue)>) {
    forall i, j :: 0 <= i < j < |mapList| ==> mapList[i].0 != mapList[j].0
  }

  /** `_getHashKey(k, v)`: the map key, '_', and the first eight characters
      of the digest of the mapping. */
  function HashKey(k: string, v: MapValue, sha: MapValue -> string): (r: string)
    ensures |k| + 1 <= |r| <= |k| + 9 && r[..|k| + 1] == k + "_"
    ensures var d := r[|k| + 1..];
      |d| == (if |sha(v)| <= 8 then |sha(v)| else 8) && d == sha(v)[..|d|]
  {
    var digest := sha(v);
    k + "_" + (if |digest| <= 8 then digest else digest[..8])
  }

  /** `_isCacheValid(cacheKey)`: an entry exists (an array, truthy even when
      empty) and its expiry lies strictly in the future. */
  predicate IsCacheValid(c: Cache, cacheKey: string, now: int) {
    cacheKey in c.entries && cacheKey in c.expires && c.expires[cacheKey] > now
  }

  /** `_updateCache(cacheKey, options)` */
  function UpdateCache(c: Cache, cacheKey: string, options: seq<ResultType>, now: int): (r: Cache)
    ensures r.entries.Keys == c.entries.Keys + {cacheKey} && r.expires.Keys == c.expires.Keys + {cacheKey}
    ensures r.entries[cacheKey] == options && r.expires[cacheKey] == now + ExpirationTime
    ensures forall k :: k in c.entries && k != cacheKey ==> r.entries[k] == c.entries[k]
    ensures forall k :: k in c.expires && k != cacheKey ==> k in r.expires && r.expires[k] == c.expires[k]
    ensures IsCacheValid(r, cacheKey, now)
  {
    Cache(c.entries[cacheKey := options], c.expires[cacheKey := now + ExpirationTime])
  }

  /** An entry just written stays valid until eight hours have passed, and
      not a moment longer. */
  lemma UpdatedCacheLifetime(c: Cache, cacheKey: string, options: seq<ResultType>, now: int, later: int)
    ensures IsCacheValid(UpdateCache(c, cacheKey, options, now), cacheKey, later)
        <==> later < now + ExpirationTime
  {
  }

  /** The option built from one item: each custom mapping replaces its default
      (`itemId`, `itemValue`, not disabled). */
  function ToOption(p: MapValue, item: Item): (r: ResultType)
    ensures r.value == (if p.value.Some? then p.value.value(item) else Num(item.itemId))
    ensures r.text == (if p.labelOf.Some? then p.labelOf.value(item) else Str(item.itemValue))
    ensures r.disabled == (p.disabled.Some? && p.disabled.value(item))
  {
    ResultType(
      if p.value.Some? then p.value.value(item) else Num(item.itemId),
      if p.labelOf.Some? then p.labelOf.value(item) else Str(item.itemValue),
      if p.disabled.Some? then p.disabled.value(item) else false)
  }

  function ToOptions(p: MapValue, items: seq<Item>): (r: seq<ResultType>)
    ensures |r| == |items|
    ensures forall i :: 0 <= i < |items| ==> r[i] == ToOption(p, items[i])
  {
    if |items| == 0 then [] else [ToOption(p, items[0])] + ToOptions(p, items[1..])
  }

  /** A mapping without custom functions yields `{ value: itemId, label:
      itemValue, disabled: false }` for every item. */
  lemma DefaultOptionMapping(key: string, items: seq<Item>)
    ensures forall i :: 0 <= i < |items| ==>
      ToOptions(MapValue(key, None, None, None), items)[i]
        == ResultType(Num(items[i].itemId), Str(items[i].itemValue), false)
  {
  }

  /** The state after the cache pass over `mapList`: the answers found in the
      cache and the class keys still to fetch, in `mapList` order. */
  datatype Partition = Partition(result: map<string, seq<ResultType>>, noCacheKeys: seq<string>)

  function PartitionByCache(mapList: seq<(string, MapValue)>, c: Cache, now: int, sha: MapValue -> string): (r: Partition)
    ensures r.result.Keys <= set i | 0 <= i < |mapList| :: mapList[i].0
    ensures |r.noCacheKeys| <= |mapList|
    decreases |mapList|
  {
    if |mapList| == 0 then Partition(map[], [])
    else
      var prefix := PartitionByCache(mapList[..|mapList| - 1], c, now, sha);
      var (k, v) := mapList[|mapList| - 1];
      var cacheKey := HashKey(k, v, sha);
      if IsCacheValid(c, cacheKey, now) then
        Partition(prefix.result[k := c.entries[cacheKey]], prefix.noCacheKeys)
      else
        Partition(prefix.result, prefix.noCacheKeys + [v.key])
  }

  /** The mapping entries whose cache is not valid. */
  function Uncached(mapList: seq<(string, MapValue)>, c: Cache, now: int, sha: MapValue -> string): seq<(string, MapValue)> {
    if |mapList| == 0 then []
    else
      var last := mapList[|mapList| - 1];
      Uncached(mapList[..|mapList| - 1], c, now, sha)
        + (if IsCacheValid(c, HashKey(last.0, last.1, sha), now) then [] else [last])
  }

  /** Each key with a valid cache entry is answered from the cache; exactly
      the class keys of the other entries, in order, remain to be fetched. */
  lemma PartitionSpec(mapList: seq<(string, MapValue)>, c: Cache, now: int, sha: MapValue -> string)
    requires DistinctKeys(mapList)
    ensures var p := PartitionByCache(mapList, c, now, sha);
      && (forall i :: 0 <= i < |mapList| ==>
            var cacheKey := HashKey(mapList[i].0, mapList[i].1, sha);
            (IsCacheValid(c, cacheKey, now) <==> mapList[i].0 in p.result)
            && (IsCacheValid(c, cacheKey, now) ==> p.result[mapList[i].0] == c.entries[cacheKey]))
      && p.noCacheKeys == KeysOf(Uncached(mapList, c, now, sha))
  {
    PartitionResult(mapList, c, now, sha);
    PartitionNoCache(mapList, c, now, sha);
  }

  /** The class keys left to fetch are those of the uncached entries. */
  lemma {:induction false} PartitionNoCache(mapList: seq<(string, MapValue)>, c: Cache, now: int, sha: MapValue -> string)
    ensures PartitionByCache(mapList, c, now, sha).noCacheKeys == KeysOf(Uncached(mapList, c, now, sha))
    decreases |mapList|
  {
    if |mapList| > 0 {
      var n := |mapList| - 1;
      var init := mapList[..n];
      PartitionNoCache(init, c, now, sha);
      KeysOfAppend(Uncached(init, c, now, sha),
        if IsCacheValid(c, HashKey(mapList[n].0, mapList[n].1, sha), now) then [] else [mapList[n]]);
    }
  }

  /** A key is answered from the cache exactly when its entry is valid. */
  lemma {:induction false} PartitionResult(mapList: seq<(string, MapValue)>, c: Cache, now: int, sha: MapValue -> string)
    requires DistinctKeys(mapList)
    ensures var p := PartitionByCache(mapList, c, now, sha);
      forall i :: 0 <= i < |mapList| ==>
        var cacheKey := HashKey(mapList[i].0, mapList[i].1, sha);
        (IsCacheValid(c, cacheKey, now) <==> mapList[i].0 in p.result)
        && (IsCacheValid(c, cacheKey, now) ==> p.result[mapList[i].0] == c.entries[cacheKey])
    decreases |mapList|
  {
    if |mapList| > 0 {
      var n := |mapList| - 1;
      var init := mapList[..n];
      assert DistinctKeys(init) by {
        forall i, j | 0 <= i < j < |init| ensures init[i].0 != init[j].0 {
          assert init[i] == mapList[i] && init[j] == mapList[j];
        }
      }
      PartitionResult(init, c, now, sha);
      var prefix := PartitionByCache(init, c, now, sha);
      var p := PartitionByCache(mapList, c, now, sha);
      var k, v := mapList[n].0, mapList[n].1;
      var valid := IsCacheValid(c, HashKey(k, v, sha), now);
      assert p.result == if valid then prefix.result[k := c.entries[HashKey(k, v, sha)]] else prefix.result;
      forall i | 0 <= i < |mapList|
        ensures var cacheKey := HashKey(mapList[i].0, mapList[i].1, sha);
          (IsCacheValid(c, cacheKey, now) <==> mapList[i].0 in p.result)
          && (IsCacheValid(c, cacheKey, now) ==> p.result[mapList[i].0] == c.entries[cacheKey])
      {
        if i < n {
          assert init[i] == mapList[i];
          assert mapList[i].0 != k;
        }
      }
    }
  }

  /** The class keys of some mapping entries, in order. */
  function KeysOf(entries: seq<(string, MapValue)>): (r: seq<string>)
    ensures |r| == |entries|
    ensures forall i :: 0 <= i < |entries| ==> r[i] == entries[i].1.key
  {
    if |entries| == 0 then [] else KeysOf(entries[..|entries| - 1]) + [entries[|entries| - 1].1.key]
  }

  lemma KeysOfAppend(a: seq<(string, MapValue)>, b: seq<(string, MapValue)>)
    ensures KeysOf(a + b) == KeysOf(a) + KeysOf(b)
  {
  }

  /** `requestKeys.indexOf(classKey)` */
  function FirstIndex(keys: seq<string>, k: string): (i: int)
    ensures -1 <= i < |keys|
    ensures i == -1 <==> k !in keys
    ensures 0 <= i ==> keys[i] == k && k !in keys[..i]
  {
    if |keys| == 0 then -1
    else if keys[0] == k then 0
    else
      var j := FirstIndex(keys[1..], k);
      if j == -1 then -1
      else
        assert keys[..j + 1] == [keys[0]] + keys[1..][..j];
        j + 1
  }

  /** Folding the fetched groups into the answer and the cache: a non-empty
      group goes to the first mapping entry whose class key equals the
      group's first `classKey`; empty or unmatched groups are ignored. */
  function ApplyGroups(groups: seq<seq<Item>>, mapList: seq<(string, MapValue)>,
                       result: map<string, seq<ResultType>>, c: Cache, now: int, sha: MapValue -> string)
    : (r: (map<string, seq<ResultType>>, Cache))
    ensures r.0.Keys <= result.Keys + set i | 0 <= i < |mapList| :: mapList[i].0
    ensures result.Keys <= r.0.Keys && c.entries.Keys <= r.1.entries.Keys
    ensures forall k :: k in result && (forall i :: 0 <= i < |mapList| ==> mapList[i].0 != k) ==> r.0[k] == result[k]
    decreases |groups|
  {
    if |groups| == 0 then (result, c)
    else
      var items := groups[0];
      if |items| == 0 then ApplyGroups(groups[1..], mapList, result, c, now, sha)
      else
        var idx := FirstIndex(KeysOf(mapList), items[0].classKey);
        if idx == -1 then ApplyGroups(groups[1..], mapList, result, c, now, sha)
        else
          var (mapKey, param) := mapList[idx];
          var options := ToOptions(param, items);
          ApplyGroups(groups[1..], mapList, result[mapKey := options],
                      UpdateCache(c, HashKey(mapKey, param, sha), options, now), now, sha)
  }

  /** A single fetched group lands under the first entry asking for its class. */
  lemma ApplyOneGroup(items: seq<Item>, mapList: seq<(string, MapValue)>,
                      result: map<string, seq<ResultType>>, c: Cache, now: int, sha: MapValue -> string)
    requires |items| > 0
    ensures var idx := FirstIndex(KeysOf(mapList), items[0].classKey);
      var r := ApplyGroups([items], mapList, result, c, now, sha);
      && (idx == -1 ==> r == (result, c))
      && (idx >= 0 ==>
            && mapList[idx].1.key == items[0].classKey
            && (forall j :: 0 <= j < idx ==> mapList[j].1.key != items[0].classKey)
            && r.0 == result[mapList[idx].0 := ToOptions(mapList[idx].1, items)]
            && r.1 == UpdateCache(c, HashKey(mapList[idx].0, mapList[idx].1, sha), ToOptions(mapList[idx].1, items), now))
  {
    var idx := FirstIndex(KeysOf(mapList), items[0].classKey);
    assert [items][1..] == [];
    if idx >= 0 {
      forall j | 0 <= j < idx ensures mapList[j].1.key != items[0].classKey {
        assert KeysOf(mapList)[..idx][j] == KeysOf(mapList)[j];
      }
    }
  }

  /** Folding two runs of groups is folding the first, then the second. */
  lemma {:induction false} ApplyGroupsAppend(g1: seq<seq<Item>>, g2: seq<seq<Item>>, mapList: seq<(string, MapValue)>,
                                             result: map<string, seq<ResultType>>, c: Cache, now: int, sha: MapValue -> string)
    ensures var m := ApplyGroups(g1, mapList, result, c, now, sha);
      ApplyGroups(g1 + g2, mapList, result, c, now, sha) == ApplyGroups(g2, mapList, m.0, m.1, now, sha)
    decreases |g1|
  {
    if |g1| > 0 {
      assert (g1 + g2)[0] == g1[0] && (g1 + g2)[1..] == g1[1..] + g2;
      var items := g1[0];
      if |items| == 0 || FirstIndex(KeysOf(mapList), items[0].classKey) == -1 {
        ApplyGroupsAppend(g1[1..], g2, mapList, result, c, now, sha);
      } else {
        var idx := FirstIndex(KeysOf(mapList), items[0].classKey);
        var options := ToOptions(mapList[idx].1, items);
        ApplyGroupsAppend(g1[1..], g2, mapList, result[mapList[idx].0 := options],
                          UpdateCache(c, HashKey(mapList[idx].0, mapList[idx].1, sha), options, now), now, sha);
      }
    } else {
      assert g1 + g2 == g2;
    }
  }

  /** The first entry asking for a class is answered once any non-empty group
      of that class is fetched. */
  lemma {:induction false} ApplyGroupsAnswers(groups: seq<seq<Item>>, mapList: seq<(string, MapValue)>,
                                              result: map<string, seq<ResultType>>, c: Cache, now: int,
                                              sha: MapValue -> string, g: nat, i: nat)
    requires g < |groups| && |groups[g]| > 0 && i < |mapList|
    requires groups[g][0].classKey == mapList[i].1.key
    requires forall j :: 0 <= j < i ==> mapList[j].1.key != mapList[i].1.key
    ensures mapList[i].0 in ApplyGroups(groups, mapList, result, c, now, sha).0
    decreases |groups|
  {
    var items := groups[0];
    if g == 0 {
      var idx := FirstIndex(KeysOf(mapList), items[0].classKey);
      assert KeysOf(mapList)[i] == items[0].classKey;
      assert idx == i;
    } else {
      if |items| == 0 || FirstIndex(KeysOf(mapList), items[0].classKey) == -1 {
        ApplyGroupsAnswers(groups[1..], mapList, result, c, now, sha, g - 1, i);
      } else {
        var idx := FirstIndex(KeysOf(mapList), items[0].classKey);
        var options := ToOptions(mapList[idx].1, items);
        ApplyGroupsAnswers(groups[1..], mapList, result[mapList[idx].0 := options],
                           UpdateCache(c, HashKey(mapList[idx].0, mapList[idx].1, sha), options, now), now, sha, g - 1, i);
      }
    }
  }

  /** How the class request ended. */
  datatype Fetch = Fetched(groups: seq<seq<Item>>) | FetchFailed

  /** The result of `GetSystemParams`: the answer map (or a rejection), the
      cache afterwards, and the class-key list sent, if a request was made. */
  datatype ParamsResult = ParamsResult(result: Option<map<string, seq<ResultType>>>, cache: Cache, request: Option<seq<string>>)

  /** `GetSystemParams(mapList)`: the cache is consulted at `now` and
      refreshed at `later`, once the class request has answered. */
  function GetSystemParams(mapList: seq<(string, MapValue)>, c: Cache, now: int, later: int,
                           sha: MapValue -> string, fetch: Fetch): (r: ParamsResult)
    requires DistinctKeys(mapList)
    ensures var p := PartitionByCache(mapList, c, now, sha);
      && (|p.noCacheKeys| == 0 <==> r.request.None?)
      && (r.request.Some? ==> r.request.value == KeysOf(Uncached(mapList, c, now, sha)))
      && (r.request.None? ==> r.result == Some(p.result) && r.cache == c)
      && (fetch.FetchFailed? && r.request.Some? ==> r.result.None? && r.cache == c)
      && (fetch.Fetched? && r.request.Some? ==>
            r.result.Some? && (r.result.value, r.cache) == ApplyGroups(fetch.groups, mapList, p.result, c, later, sha))
    ensures r.result.Some? ==> r.result.value.Keys <= set i | 0 <= i < |mapList| :: mapList[i].0
    ensures r.result.Some? ==> forall i :: 0 <= i < |mapList| && IsCacheValid(c, HashKey(mapList[i].0, mapList[i].1, sha), now)
                                  ==> mapList[i].0 in r.result.value
  {
    PartitionSpec(mapList, c, now, sha);
    var p := PartitionByCache(mapList, c, now, sha);
    if |p.noCacheKeys| == 0 then ParamsResult(Some(p.result), c, None)
    else
      match fetch
      case FetchFailed => ParamsResult(None, c, Some(p.noCacheKeys))
      case Fetched(groups) =>
        var (result, c') := ApplyGroups(groups, mapList, p.result, c, later, sha);
        ParamsResult(Some(result), c', Some(p.noCacheKeys))
  }

  /** Once the class request answers, every entry is answered that was cached
      or that is the first to ask for a class the answer holds a non-empty
      group of. */
  lemma FetchedAnswers(mapList: seq<(string, MapValue)>, c: Cache, now: int, later: int,
                       sha: MapValue -> string, groups: seq<seq<Item>>, i: nat)
    requires DistinctKeys(mapList) && i < |mapList|
    requires forall j :: 0 <= j < i ==> mapList[j].1.key != mapList[i].1.key
    requires IsCacheValid(c, HashKey(mapList[i].0, mapList[i].1, sha), now)
          || exists g :: 0 <= g < |groups| && |groups[g]| > 0 && groups[g][0].classKey == mapList[i].1.key
    ensures var r := GetSystemParams(mapList, c, now, later, sha, Fetched(groups));
      r.result.Some? && mapList[i].0 in r.result.value
  {
    var p := PartitionByCache(mapList, c, now, sha);
    PartitionSpec(mapList, c, now, sha);
    if !IsCacheValid(c, HashKey(mapList[i].0, mapList[i].1, sha), now) {
      var g :| 0 <= g < |groups| && |groups[g]| > 0 && groups[g][0].classKey == mapList[i].1.key;
      assert mapList[i] in Uncached(mapList, c, now, sha) by { UncachedHas(mapList, c, now, sha, i); }
      ApplyGroupsAnswers(groups, mapList, p.result, c, later, sha, g, i);
    }
  }

  /** An entry whose cache is not valid is among the uncached ones. */
  lemma {:induction false} UncachedHas(mapList: seq<(string, MapValue)>, c: Cache, now: int, sha: MapValue -> string, i: nat)
    requires i < |mapList| && !IsCacheValid(c, HashKey(mapList[i].0, mapList[i].1, sha), now)
    ensures mapList[i] in Uncached(mapList, c, now, sha)
    decreases |mapList|
  {
    var n := |mapList| - 1;
    if i < n {
      assert mapList[..n][i] == mapList[i];
      UncachedHas(mapList[..n], c, now, sha, i);
    }
  }
}

=== FILE: use_actions.dfy ===
/** `useActionHandler`: the five EasyCrud actions (query, add, edit,
    remove, submit) as transitions of the form and table stores. How each
    request ends is a parameter; dialogs, toasts, console output and the
    requests themselves are recorded as effects, in the order they happen.
    Every hook that is handed the form store may write to it, and the action
    goes on with the store as the hook left it. */
module UseActions {
  import opened Values
  import opened CrudTypes
  import UseHooks

  /** The two stores an action works on. */
  datatype State = State(form: FormStore, table: TableStore)

  datatype ToastKind = Success | Warning

  /** Observable side effects of an action. `TypeErrorThrown` is the exception
      raised by `Object.assign(undefined, …)`. */
  datatype Effect =
    | Send(url: string, data: Record)
    | ConfirmDelete
    | Toast(kind: ToastKind, message: string)
    | ConsoleWarn(message: string)
    | TypeErrorThrown

  /** The state after an action and the effects it produced. */
  datatype Step = Step(state: State, effects: seq<Effect>)

  /** The store a hook's return value leaves behind: a hook that hands back
      the store, or answers together with the store it wrote, leaves that
      store; any other return value leaves the store it was given. */
  function StoreLeft(p: Payload, given: FormStore): FormStore {
    match p
    case StorePayload(s) => s
    case ValidateErrPayload(_, s) => s
    case Answer(_, s) => s
    case _ => given
  }

  /** Whether the action may go on after `hookHandler(name, formStore)`, and
      the form store as the hook left it. */
  datatype HookRun = HookRun(allows: bool, store: FormStore)

  /** `if (!hookHandler(name, formStore)) return` on the live store. */
  function RunHook(hooks: HooksConfig, name: HookName, s: FormStore): (h: HookRun)
    ensures name !in hooks || hooks[name].NotCallable? ==> h == HookRun(true, s)
    ensures name in hooks && hooks[name].Callable? ==>
      && (h.allows <==> PayloadTruthy(hooks[name].f(StorePayload(s))))
      && h.store == StoreLeft(hooks[name].f(StorePayload(s)), s)
  {
    var p := UseHooks.HookHandler(hooks, name, StorePayload(s));
    HookRun(PayloadTruthy(p), StoreLeft(p, s))
  }

  /** A hook that answers with a plain value writes nothing: the action goes
      on with the very store it handed over. */
  lemma PlainAnswerKeepsStore(hooks: HooksConfig, name: HookName, s: FormStore, v: Value)
    requires name in hooks && hooks[name].Callable? && hooks[name].f(StorePayload(s)) == PlainPayload(v)
    ensures RunHook(hooks, name, s) == HookRun(Truthy(v), s)
  {
  }

  /** `${url}/${endpoint}` */
  function Endpoint(url: string, endpoint: Prop<string>): (u: string)
    ensures endpoint.Given? ==> u == url + "/" + endpoint.value
    ensures !endpoint.Given? ==> u == url + "/undefined"
  {
    url + "/" + Show(endpoint)
  }

  /** What the query hook returns, as table rows; a truthy result that is not
      a row list is outside the hook's declared type and yields no rows. */
  function RowsOf(p: Payload): seq<Record> {
    if p.RowsPayload? then p.rows else []
  }

  /** `x || 0` for a number that may be missing. */
  function OrZero(p: Option<Page>, total: bool): (n: int)
    ensures p.None? ==> n == 0
    ensures p.Some? ==> n == (if total then p.value.total else p.value.pageNum)
  {
    if p.None? then 0 else if total then p.value.total else p.value.pageNum
  }

  /** The query payload: page number and size, overlaid by the search form,
      overlaid by the caller's parameters. */
  function QueryData(st: State, params: Record): (d: Record)
    ensures d.Keys == {"pagenum", "pagesize"} + st.form.searchForm.Keys + params.Keys
    ensures forall k :: k in params ==> d[k] == params[k]
    ensures forall k :: k !in params && k in st.form.searchForm ==> d[k] == st.form.searchForm[k]
    ensures "pagenum" !in params && "pagenum" !in st.form.searchForm ==> d["pagenum"] == Num(st.table.currentPage)
    ensures "pagesize" !in params && "pagesize" !in st.form.searchForm ==> d["pagesize"] == Num(st.table.pageSize)
  {
    map["pagenum" := Num(st.table.currentPage), "pagesize" := Num(st.table.pageSize)] + st.form.searchForm + params
  }

  /** `Res.data` as handed to the query hook: a row list, or `null`. */
  function DataPayload(env: Envelope): Payload {
    if env.data.Some? then RowsPayload(env.data.value) else PlainPayload(Null)
  }

  /** `hookHandler('afterQueryHandler', Res.data)` */
  function AfterQueryResult(cfg: CrudConfig, env: Envelope): Payload {
    UseHooks.HookHandler(cfg.hooks, AfterQuery, DataPayload(env))
  }

  /** The store `beforeQuery` is handed: the query payload in `formData`. */
  function QueryStore(st: State, params: Record): FormStore {
    st.form.(formData := QueryData(st, params))
  }

  /** `Query(params)` with the request ending as `outcome`. The payload is
      written to `formData` first and read back after `beforeQuery` ran. The
      table takes the answer only when the request succeeded and `afterQuery`
      returned something truthy; it stops loading then, or when the request
      failed with an error that is not a cancellation. */
  function Query(cfg: CrudConfig, st: State, params: Record, outcome: Outcome): (r: Step)
    ensures var h := RunHook(cfg.hooks, BeforeQuery, QueryStore(st, params));
      && r.state.form == h.store
      && (!h.allows ==> r.effects == [])
      && (h.allows ==> r.effects == [Send(Endpoint(cfg.url, cfg.apiEndpoints.query), h.store.formData)])
    ensures var h := RunHook(cfg.hooks, BeforeQuery, QueryStore(st, params));
      var shown := h.allows && outcome.Ok? && PayloadTruthy(AfterQueryResult(cfg, outcome.envelope));
      && (shown ==>
            && r.state.table.tableData == RowsOf(AfterQueryResult(cfg, outcome.envelope))
            && r.state.table.total == OrZero(outcome.envelope.page, true)
            && r.state.table.currentPage == OrZero(outcome.envelope.page, false))
      && (!shown ==>
            && r.state.table.tableData == st.table.tableData
            && r.state.table.total == st.table.total
            && r.state.table.currentPage == st.table.currentPage)
      && (r.state.table.loading <==> !shown && !(h.allows && outcome.AppError?))
    ensures r.state.table.checkColumn == st.table.checkColumn && r.state.table.pageSize == st.table.pageSize
    ensures r.state.table.pageSizes == st.table.pageSizes && r.state.table.layout == st.table.layout
  {
    var h := RunHook(cfg.hooks, BeforeQuery, QueryStore(st, params));
    var loadingTable := st.table.(loading := true);
    if !h.allows then
      Step(State(h.store, loadingTable), [])
    else
      var effects := [Send(Endpoint(cfg.url, cfg.apiEndpoints.query), h.store.formData)];
      match outcome
      case Ok(env) =>
        var after := AfterQueryResult(cfg, env);
        if !PayloadTruthy(after) then Step(State(h.store, loadingTable), effects)
        else
          Step(State(h.store, loadingTable.(
                 tableData := RowsOf(after),
                 total := OrZero(env.page, true),
                 currentPage := OrZero(env.page, false),
                 loading := false)),
               effects)
      case AppError => Step(State(h.store, st.table.(loading := false)), effects)
      case Cancelled => Step(State(h.store, loadingTable), effects)
  }

  /** Without hooks a query sends exactly its payload, and a successful one
      shows exactly the rows and counters the server sent; a server `null`
      instead of rows leaves the table untouched and still loading. */
  lemma QueryWithoutHooks(cfg: CrudConfig, st: State, params: Record, env: Envelope)
    requires cfg.hooks == map[]
    ensures var r := Query(cfg, st, params, Ok(env));
      var t := r.state.table;
      && r.effects == [Send(Endpoint(cfg.url, cfg.apiEndpoints.query), QueryData(st, params))]
      && (env.data.Some? ==>
            t.tableData == env.data.value && !t.loading
            && t.total == (if env.page.Some? then env.page.value.total else 0)
            && t.currentPage == (if env.page.Some? then env.page.value.pageNum else 0))
      && (env.data.None? ==> t == st.table.(loading := true))
  {
  }

  /** Querying again with the same parameters and the same answer leaves the
      table as one query left it: the table a query leaves does not depend on
      the rows, total and page it found. */
  lemma QueryTwiceSameAnswer(cfg: CrudConfig, st: State, params: Record, outcome: Outcome)
    requires RunHook(cfg.hooks, BeforeQuery, QueryStore(st, params)).allows
    requires RunHook(cfg.hooks, BeforeQuery, QueryStore(Query(cfg, st, params, outcome).state, params)).allows
    ensures var s1 := Query(cfg, st, params, outcome).state;
      Query(cfg, s1, params, outcome).state.table == s1.table
  {
  }

  /** A hook table whose only entry is a `beforeQuery` hook that writes `x`
      into `formData` and answers `true`. */
  function WriteFormDataHook(x: Record): HooksConfig {
    map[BeforeQuery := UseHooks.Callable((p: Payload) =>
      if p.StorePayload? then Answer(Bool(true), p.store.(formData := x)) else p)]
  }

  /** The request carries `formData` as `beforeQuery` left it: a hook that
      overwrites it changes what is sent, whatever the search form holds. */
  lemma QuerySendsWhatHookWrote(cfg: CrudConfig, st: State, params: Record, outcome: Outcome, x: Record)
    ensures var r := Query(cfg.(hooks := WriteFormDataHook(x)), st, params, outcome);
      && r.effects == [Send(Endpoint(cfg.url, cfg.apiEndpoints.query), x)]
      && r.state.form.formData == x
  {
    var hooks := WriteFormDataHook(x);
    var s := QueryStore(st, params);
    assert hooks[BeforeQuery].f(StorePayload(s)) == Answer(Bool(true), s.(formData := x));
  }

  /** `Add()`: the drawer is titled for creation, then opened unless the
      hook objects. */
  function Add(cfg: CrudConfig, st: State): (r: Step)
    ensures var h := RunHook(cfg.hooks, BeforeAdd, st.form.(drawerTitle := Create));
      && r.effects == [] && r.state.table == st.table
      && r.state.form == (if h.allows then h.store.(drawerVisible := true) else h.store)
  {
    var h := RunHook(cfg.hooks, BeforeAdd, st.form.(drawerTitle := Create));
    if !h.allows then Step(State(h.store, st.table), [])
    else Step(State(h.store.(drawerVisible := true), st.table), [])
  }

  /** `editor.forEach(key => editForm[key] = row[key])` */
  function CopyEditorFields(editForm: Record, editor: seq<string>, row: Record): (f: Record)
    ensures f.Keys == editForm.Keys + set k | k in editor
    ensures forall k :: k in editor ==> f[k] == Get(row, k)
    ensures forall k :: k in editForm && k !in editor ==> f[k] == editForm[k]
  {
    editForm + map k | k in editor :: Get(row, k)
  }

  /** The store `beforeEdit` is handed: titled for editing, the row as the
      current row, and the row's editor fields copied into the edit form;
      nothing else differs. */
  function EditingStore(cfg: CrudConfig, form: FormStore, row: Record): (f: FormStore)
    ensures f.drawerTitle == Update && f.currentRow == row
    ensures forall k :: k in cfg.source.fields.editor ==> k in f.editForm && f.editForm[k] == Get(row, k)
    ensures forall k :: k !in cfg.source.fields.editor ==> Get(f.editForm, k) == Get(form.editForm, k)
    ensures f.searchForm == form.searchForm && f.formData == form.formData && f.drawerVisible == form.drawerVisible
    ensures f.searchSnapshot == form.searchSnapshot && f.editSnapshot == form.editSnapshot
  {
    form.(
      drawerTitle := Update,
      currentRow := row,
      editForm := CopyEditorFields(form.editForm, cfg.source.fields.editor, row))
  }

  /** `Edit(row)`: the editing store is set up, then the drawer opens unless
      the hook objects. */
  function Edit(cfg: CrudConfig, st: State, row: Record): (r: Step)
    ensures var h := RunHook(cfg.hooks, BeforeEdit, EditingStore(cfg, st.form, row));
      && r.effects == [] && r.state.table == st.table
      && r.state.form == (if h.allows then h.store.(drawerVisible := true) else h.store)
  {
    var h := RunHook(cfg.hooks, BeforeEdit, EditingStore(cfg, st.form, row));
    if !h.allows then Step(State(h.store, st.table), [])
    else Step(State(h.store.(drawerVisible := true), st.table), [])
  }

  const RemoveConfirmWarning: string := "rowKey 和 rowKeys 均未定义"
  const RemovedMessage: string := "删除成功"
  const AddedMessage: string := "新增成功"
  const UpdatedMessage: string := "修改成功"
  const InvalidMessage: string := "参数校验错误"

  /** The removal payload: the key field(s) of the row and the toggled flag. */
  function RemoveData(row: Record, key: KeyChoice): (d: Record)
    requires !key.NoKey?
    ensures d.Keys == GetValueFromRow(row, key).Keys + {"deleteFlag"}
    ensures d["deleteFlag"] == (if Get(row, "deleteFlag") == Num(0) then Num(1) else Num(0))
    ensures forall k :: k in d && k != "deleteFlag" ==> d[k] == Get(row, k)
  {
    GetValueFromRow(row, key)["deleteFlag" := ToggledDeleteFlag(row)]
  }

  /** `Remove(row)`: the user's answer to the confirmation dialog and the
      request's outcome are parameters. The table is never touched: a removal
      does not re-query. The dialog appears once `beforeRemove` allows; the
      request, to the delete endpoint, carries `formData` as that hook left
      it; success is reported only when `afteRemove` agrees. */
  function Remove(cfg: CrudConfig, st: State, row: Record, confirmed: bool, outcome: Outcome): (r: Step)
    ensures r.state.table == st.table
    ensures KeyToUse(cfg.rowKey, cfg.rowKeys).NoKey? ==>
      r.state == st && r.effects == [ConsoleWarn(RemoveConfirmWarning)]
    ensures !KeyToUse(cfg.rowKey, cfg.rowKeys).NoKey? ==>
      var h := RunHook(cfg.hooks, BeforeRemove, st.form.(formData := RemoveData(row, KeyToUse(cfg.rowKey, cfg.rowKeys))));
      var sends := h.allows && confirmed;
      var a := RunHook(cfg.hooks, AfterRemove, h.store);
      && (ConfirmDelete in r.effects <==> h.allows)
      && ((exists u, d :: Send(u, d) in r.effects) <==> sends)
      && (sends ==> |r.effects| >= 2 && r.effects[1] == Send(Endpoint(cfg.url, cfg.apiEndpoints.delete), h.store.formData))
      && (Toast(Success, RemovedMessage) in r.effects <==> sends && outcome.Ok? && a.allows)
      && r.state.form == (if sends && outcome.Ok? then a.store else h.store)
  {
    var key := KeyToUse(cfg.rowKey, cfg.rowKeys);
    if key.NoKey? then Step(st, [ConsoleWarn(RemoveConfirmWarning)])
    else
      var h := RunHook(cfg.hooks, BeforeRemove, st.form.(formData := RemoveData(row, key)));
      if !h.allows then Step(State(h.store, st.table), [])
      else if !confirmed then Step(State(h.store, st.table), [ConfirmDelete])
      else
        var sent := [ConfirmDelete, Send(Endpoint(cfg.url, cfg.apiEndpoints.delete), h.store.formData)];
        if !outcome.Ok? then Step(State(h.store, st.table), sent)
        else
          var a := RunHook(cfg.hooks, AfterRemove, h.store);
          if a.allows then Step(State(a.store, st.table), sent + [Toast(Success, RemovedMessage)])
          else Step(State(a.store, st.table), sent)
  }

  /** Without hooks a confirmed removal sends the row's key fields with the
      toggled flag to the delete endpoint, and reports success exactly when
      the request succeeds. */
  lemma RemoveWithoutHooks(cfg: CrudConfig, st: State, row: Record, outcome: Outcome)
    requires cfg.hooks == map[]
    requires !KeyToUse(cfg.rowKey, cfg.rowKeys).NoKey?
    ensures var r := Remove(cfg, st, row, true, outcome);
      var sent := [ConfirmDelete, Send(Endpoint(cfg.url, cfg.apiEndpoints.delete), RemoveData(row, KeyToUse(cfg.rowKey, cfg.rowKeys)))];
      r.effects == (if outcome.Ok? then sent + [Toast(Success, RemovedMessage)] else sent)
  {
  }

  /** `handleAdd()`: `formData` becomes a copy of the edit form; the request
      carries `formData` as `beforeSubmitAdd` left it; on success, and if
      `afterSubmitAdd` agrees, the page is re-queried with the edit form as
      that hook left it, the drawer closes and success is reported. */
  function HandleAdd(cfg: CrudConfig, st: State, outcome: Outcome, queryOutcome: Outcome): (r: Step)
    ensures var h := RunHook(cfg.hooks, BeforeSubmitAdd, st.form.(formData := st.form.editForm));
      var a := RunHook(cfg.hooks, AfterSubmitAdd, h.store);
      var added := h.allows && outcome.Ok? && a.allows;
      && (r.effects == [] <==> !h.allows)
      && (h.allows ==> r.effects[0] == Send(Endpoint(cfg.url, cfg.apiEndpoints.add), h.store.formData))
      && (added ==>
            var q := Query(cfg, State(a.store, st.table), a.store.editForm, queryOutcome);
            && r.state == State(q.state.form.(drawerVisible := false), q.state.table)
            && r.effects == [r.effects[0]] + q.effects + [Toast(Success, AddedMessage)])
      && (!added ==>
            && r.state.table == st.table
            && r.state.form == (if h.allows && outcome.Ok? then a.store else h.store)
            && |r.effects| <= 1 && Toast(Success, AddedMessage) !in r.effects)
  {
    var h := RunHook(cfg.hooks, BeforeSubmitAdd, st.form.(formData := st.form.editForm));
    if !h.allows then Step(State(h.store, st.table), [])
    else
      var sent := [Send(Endpoint(cfg.url, cfg.apiEndpoints.add), h.store.formData)];
      if !outcome.Ok? then Step(State(h.store, st.table), sent)
      else
        var a := RunHook(cfg.hooks, AfterSubmitAdd, h.store);
        if !a.allows then Step(State(a.store, st.table), sent)
        else
          var q := Query(cfg, State(a.store, st.table), a.store.editForm, queryOutcome);
          Step(State(q.state.form.(drawerVisible := false), q.state.table),
               sent + q.effects + [Toast(Success, AddedMessage)])
  }

  /** Without hooks a successful creation sends the edit form, then queries
      with the edit form as parameters, closes the drawer and reports. */
  lemma HandleAddWithoutHooks(cfg: CrudConfig, st: State, env: Envelope, queryOutcome: Outcome)
    requires cfg.hooks == map[]
    ensures var r := HandleAdd(cfg, st, Ok(env), queryOutcome);
      var form := st.form.(formData := st.form.editForm);
      && r.effects == [Send(Endpoint(cfg.url, cfg.apiEndpoints.add), st.form.editForm),
                       Send(Endpoint(cfg.url, cfg.apiEndpoints.query), QueryData(State(form, st.table), st.form.editForm)),
                       Toast(Success, AddedMessage)]
      && !r.state.form.drawerVisible
  {
  }

  /** `tableData.findIndex(i => i[rowKey] === formData[rowKey])` */
  function FindRow(rows: seq<Record>, key: string, v: Value): (i: int)
    ensures -1 <= i < |rows|
    ensures i == -1 <==> forall j :: 0 <= j < |rows| ==> Get(rows[j], key) != v
    ensures 0 <= i ==> Get(rows[i], key) == v && forall j :: 0 <= j < i ==> Get(rows[j], key) != v
    decreases |rows|
  {
    if |rows| == 0 then -1
    else if Get(rows[0], key) == v then 0
    else
      var j := FindRow(rows[1..], key, v);
      if j == -1 then -1 else j + 1
  }

  /** What `handleEdit` does once the edit request succeeded and the hook
      agreed: with a truthy `rowKey`, patch the first row of the page whose
      key equals the submitted one (none matching is a `TypeError`); with
      none, re-query with the submitted data. `s.form.formData` is that data. */
  function PatchOrRequery(cfg: CrudConfig, s: State, queryOutcome: Outcome): (r: Step)
    ensures TruthyString(cfg.rowKey) ==> r.state.form == s.form.(drawerVisible := r.state.form.drawerVisible)
    ensures !TruthyString(cfg.rowKey) ==> r == RequeryAfterEdit(cfg, s, queryOutcome)
    ensures TypeErrorThrown in r.effects <==>
      TruthyString(cfg.rowKey)
      && FindRow(s.table.tableData, cfg.rowKey.value, Get(s.form.formData, cfg.rowKey.value)) == -1
    ensures TypeErrorThrown in r.effects ==> r == Step(s, [TypeErrorThrown])
    ensures TypeErrorThrown !in r.effects ==>
      !r.state.form.drawerVisible && |r.effects| > 0 && r.effects[|r.effects| - 1] == Toast(Success, UpdatedMessage)
  {
    var data := s.form.formData;
    if TruthyString(cfg.rowKey) then
      var rk := cfg.rowKey.value;
      var idx := FindRow(s.table.tableData, rk, Get(data, rk));
      if idx == -1 then Step(s, [TypeErrorThrown])
      else
        var rows := s.table.tableData[idx := s.table.tableData[idx] + data];
        Step(State(s.form.(drawerVisible := false), s.table.(tableData := rows)), [Toast(Success, UpdatedMessage)])
    else RequeryAfterEdit(cfg, s, queryOutcome)
  }

  /** The re-query branch of `handleEdit`: query with the submitted data,
      close the drawer, report. */
  function RequeryAfterEdit(cfg: CrudConfig, s: State, queryOutcome: Outcome): (r: Step)
    ensures var h := RunHook(cfg.hooks, BeforeQuery, QueryStore(s, s.form.formData));
      && r.state.form == h.store.(drawerVisible := false)
      && r.effects == (if h.allows then [Send(Endpoint(cfg.url, cfg.apiEndpoints.query), h.store.formData)] else [])
                      + [Toast(Success, UpdatedMessage)]
  {
    var q := Query(cfg, s, s.form.formData, queryOutcome);
    Step(State(q.state.form.(drawerVisible := false), q.state.table), q.effects + [Toast(Success, UpdatedMessage)])
  }

  /** `handleEdit()`: `formData` becomes the current row overlaid by the edit
      form; the request carries `formData` as `beforeSubmitEdit` left it; on
      success, and if `afterSubmitEdit` agrees, the page is patched or
      re-queried with `formData` as that hook left it. */
  function HandleEdit(cfg: CrudConfig, st: State, outcome: Outcome, queryOutcome: Outcome): (r: Step)
    ensures var h := RunHook(cfg.hooks, BeforeSubmitEdit, st.form.(formData := st.form.currentRow + st.form.editForm));
      var a := RunHook(cfg.hooks, AfterSubmitEdit, h.store);
      var edited := h.allows && outcome.Ok? && a.allows;
      && (r.effects == [] <==> !h.allows)
      && (h.allows ==> r.effects[0] == Send(Endpoint(cfg.url, cfg.apiEndpoints.edit), h.store.formData))
      && (edited ==>
            var p := PatchOrRequery(cfg, State(a.store, st.table), queryOutcome);
            r.state == p.state && r.effects == [r.effects[0]] + p.effects)
      && (!edited ==>
            && r.state.table == st.table
            && r.state.form == (if h.allows && outcome.Ok? then a.store else h.store)
            && |r.effects| <= 1 && Toast(Success, UpdatedMessage) !in r.effects)
  {
    var h := RunHook(cfg.hooks, BeforeSubmitEdit, st.form.(formData := st.form.currentRow + st.form.editForm));
    if !h.allows then Step(State(h.store, st.table), [])
    else
      var sent := [Send(Endpoint(cfg.url, cfg.apiEndpoints.edit), h.store.formData)];
      if !outcome.Ok? then Step(State(h.store, st.table), sent)
      else
        var a := RunHook(cfg.hooks, AfterSubmitEdit, h.store);
        if !a.allows then Step(State(a.store, st.table), sent)
        else
          var p := PatchOrRequery(cfg, State(a.store, st.table), queryOutcome);
          Step(p.state, sent + p.effects)
  }

  /** A successful in-place edit patches exactly the first row whose key
      matches the submitted data: it gains every submitted field, and every
      other row and the page length stay as they were. */
  lemma EditPatchesOneRow(cfg: CrudConfig, st: State, queryOutcome: Outcome, env: Envelope)
    requires TruthyString(cfg.rowKey)
    requires RunHook(cfg.hooks, BeforeSubmitEdit, st.form.(formData := st.form.currentRow + st.form.editForm)).allows
    requires RunHook(cfg.hooks, AfterSubmitEdit,
      RunHook(cfg.hooks, BeforeSubmitEdit, st.form.(formData := st.form.currentRow + st.form.editForm)).store).allows
    ensures var h := RunHook(cfg.hooks, BeforeSubmitEdit, st.form.(formData := st.form.currentRow + st.form.editForm));
      var a := RunHook(cfg.hooks, AfterSubmitEdit, h.store);
      var data := a.store.formData;
      var rk := cfg.rowKey.value;
      var idx := FindRow(st.table.tableData, rk, Get(data, rk));
      var r := HandleEdit(cfg, st, Ok(env), queryOutcome);
      && (idx == -1 ==> r.state.table == st.table && r.effects[|r.effects| - 1] == TypeErrorThrown
                        && r.state.form == a.store)
      && (idx >= 0 ==>
            && |r.state.table.tableData| == |st.table.tableData|
            && (forall j :: 0 <= j < |st.table.tableData| && j != idx ==> r.state.table.tableData[j] == st.table.tableData[j])
            && (forall k :: k in data ==> r.state.table.tableData[idx][k] == data[k])
            && (forall k :: k in st.table.tableData[idx] && k !in data ==>
                  r.state.table.tableData[idx][k] == st.table.tableData[idx][k])
            && !r.state.form.drawerVisible
            && r.effects[|r.effects| - 1] == Toast(Success, UpdatedMessage))
  {
  }

  /** What the form widget's `validate` reports, if there is a widget. */
  datatype Validation = NoFormEl | Valid | Invalid(fields: seq<string>)

  /** `Submit(formEl)`. The branch is chosen by the drawer title as
      `beforeSubmit` left it. */
  function Submit(cfg: CrudConfig, st: State, v: Validation, outcome: Outcome, queryOutcome: Outcome): (r: Step)
    ensures v.NoFormEl? ==> r == Step(st, [])
    ensures v.Invalid? ==>
      var p := UseHooks.HookHandler(cfg.hooks, SubmitValidateErr, ValidateErrPayload(v.fields, st.form));
      && r.state == State(StoreLeft(p, st.form), st.table)
      && (r.effects == [Toast(Warning, InvalidMessage)] <==> PayloadTruthy(p))
      && (r.effects == [] || r.effects == [Toast(Warning, InvalidMessage)])
    ensures v.Valid? ==>
      var h := RunHook(cfg.hooks, BeforeSubmit, st.form);
      && (!h.allows ==> r == Step(State(h.store, st.table), []))
      && (h.allows ==>
            r == (if h.store.drawerTitle == Create then HandleAdd(cfg, State(h.store, st.table), outcome, queryOutcome)
                  else HandleEdit(cfg, State(h.store, st.table), outcome, queryOutcome)))
  {
    match v
    case NoFormEl => Step(st, [])
    case Valid =>
      var h := RunHook(cfg.hooks, BeforeSubmit, st.form);
      if !h.allows then Step(State(h.store, st.table), [])
      else if h.store.drawerTitle == Create then HandleAdd(cfg, State(h.store, st.table), outcome, queryOutcome)
      else HandleEdit(cfg, State(h.store, st.table), outcome, queryOutcome)
    case Invalid(fields) =>
      var p := UseHooks.HookHandler(cfg.hooks, SubmitValidateErr, ValidateErrPayload(fields, st.form));
      if !PayloadTruthy(p) then Step(State(StoreLeft(p, st.form), st.table), [])
      else Step(State(StoreLeft(p, st.form), st.table), [Toast(Warning, InvalidMessage)])
  }

  /** Editing a row and submitting the form unchanged sends the row back:
      with no hooks, every field of the row reaches the edit request with
      its own value, provided the edit form holds nothing but editor fields. */
  lemma {:induction false} EditThenSubmitSendsRow(cfg: CrudConfig, st: State, row: Record, outcome: Outcome, queryOutcome: Outcome)
    requires cfg.hooks == map[]
    requires forall k :: k in st.form.editForm ==> k in cfg.source.fields.editor
    ensures var s1 := Edit(cfg, st, row).state;
      var r := Submit(cfg, s1, Valid, outcome, queryOutcome);
      && |r.effects| >= 1 && r.effects[0].Send?
      && r.effects[0].url == Endpoint(cfg.url, cfg.apiEndpoints.edit)
      && forall k :: Get(r.effects[0].data, k) == Get(row, k)
  {
    var s1 := Edit(cfg, st, row).state;
    assert s1.form.drawerTitle == Update;
    var data := s1.form.currentRow + s1.form.editForm;
    forall k ensures Get(data, k) == Get(row, k) {
      if k in s1.form.editForm {
        assert k in cfg.source.fields.editor;
      }
    }
  }

  /** Opening the drawer for creation and submitting at once sends the edit
      form as it stands. */
  lemma AddThenSubmitSendsEditForm(cfg: CrudConfig, st: State, outcome: Outcome, queryOutcome: Outcome)
    requires cfg.hooks == map[]
    ensures var s1 := Add(cfg, st).state;
      var r := Submit(cfg, s1, Valid, outcome, queryOutcome);
      r.effects[0] == Send(Endpoint(cfg.url, cfg.apiEndpoints.add), st.form.editForm)
  {
  }

  /** Removing twice with the flag already toggled puts the flag back: the
      two payloads carry 1 then 0 for an active row (flag 0), and 0 then 1
      for a disabled one (flag 1). */
  lemma RemoveToggleInvolutive(row: Record, key: KeyChoice)
    requires !key.NoKey?
    requires Get(row, "deleteFlag") == Num(0) || Get(row, "deleteFlag") == Num(1)
    ensures RemoveData(row["deleteFlag" := RemoveData(row, key)["deleteFlag"]], key)["deleteFlag"] == Get(row, "deleteFlag")
  {
  }
}

=== FILE: use_config.dfy ===
/** `useConfig`: the caller's EasyCrud options resolved against the
    defaults. Each option group is `{ ...defaults, ...given }`, so a key the
    caller leaves out keeps its default, while a key the caller sets, even to
    `undefined`, replaces it. */
module UseConfig {
  import opened Values
  import opened CrudTypes

  const DefaultPageSizes: seq<int> := [10, 20, 50, 100]
  const DefaultLayout: string := "total, ->, sizes, prev, pager, next, jumper"

  /** The default for `table.defButVisible`: a row's own buttons show while
      its `deleteFlag` is exactly 0. */
  predicate IsActiveRow(row: Record) {
    Get(row, "deleteFlag") == Num(0)
  }

  /** Option groups the caller left out entirely: every key missing. */
  const NoTable: TableConfig := TableConfig(Absent, Absent, Absent, Absent, Absent)
  const NoPagination: PaginationConfig := PaginationConfig(Absent, Absent, Absent, Absent)
  const NoButtonAuth: ButtonAuth := ButtonAuth(Absent, Absent, Absent)
  const NoEndpoints: ApiEndpoints := ApiEndpoints(Absent, Absent, Absent, Absent, Absent)
  const NoAttrs: AttrsProps := AttrsProps(None, None, None, None)

  /** `{ ...defaults, ...given }` for an attribute bag; `...undefined` adds nothing. */
  function SpreadRecord(defaults: Record, given: Option<Record>): (r: Record)
    ensures r.Keys == defaults.Keys + (if given.Some? then given.value.Keys else {})
    ensures given.Some? ==> forall k :: k in given.value ==> r[k] == given.value[k]
    ensures forall k :: k in defaults && (given.None? || k !in given.value) ==> r[k] == defaults[k]
  {
    if given.Some? then defaults + given.value else defaults
  }

  /** One key of an option group after `{ ...defaults, ...given }`: the
      default when the caller left the key out, the caller's entry (possibly
      `undefined`) otherwise. */
  ghost predicate Resolved<T>(given: Prop<T>, default: T, r: Prop<T>) {
    if given.Absent? then r == Given(default) else r == given
  }

  /** Form and drawer attributes merge over label width 120 and size 500;
      table and pagination attributes have no defaults. */
  function ResolveAttrs(a: AttrsProps): (r: Attrs)
    ensures r.form == SpreadRecord(map["labelWidth" := Num(120)], a.form)
    ensures r.drawer == SpreadRecord(map["size" := Num(500)], a.drawer)
    ensures r.table == a.table.GetOr(map[]) && r.pagination == a.pagination.GetOr(map[])
  {
    Attrs(
      SpreadRecord(map["labelWidth" := Num(120)], a.form),
      SpreadRecord(map["size" := Num(500)], a.drawer),
      SpreadRecord(map[], a.table),
      SpreadRecord(map[], a.pagination))
  }

  function ResolveTable(t: TableConfig): (r: TableConfig)
    ensures Resolved(t.menuVisible, true, r.menuVisible)
    ensures Resolved(t.menuAlign, AlignCenter, r.menuAlign)
    ensures Resolved(t.menuWidth, 150, r.menuWidth)
    ensures Resolved(t.menuTitle, true, r.menuTitle)
    ensures Resolved(t.defButVisible, IsActiveRow, r.defButVisible)
  {
    TableConfig(
      t.menuVisible.Spread(true),
      t.menuAlign.Spread(AlignCenter),
      t.menuWidth.Spread(150),
      t.menuTitle.Spread(true),
      t.defButVisible.Spread(IsActiveRow))
  }

  function ResolvePagination(p: PaginationConfig): (r: PaginationConfig)
    ensures Resolved(p.current, 1, r.current) && Resolved(p.pageSize, 10, r.pageSize)
    ensures Resolved(p.pageSizes, DefaultPageSizes, r.pageSizes) && Resolved(p.layout, DefaultLayout, r.layout)
  {
    PaginationConfig(
      p.current.Spread(1),
      p.pageSize.Spread(10),
      p.pageSizes.Spread(DefaultPageSizes),
      p.layout.Spread(DefaultLayout))
  }

  function ResolveButtonAuth(b: ButtonAuth): (r: ButtonAuth)
    ensures Resolved(b.add, true, r.add) && Resolved(b.edit, true, r.edit) && Resolved(b.delete, true, r.delete)
  {
    ButtonAuth(b.add.Spread(true), b.edit.Spread(true), b.delete.Spread(true))
  }

  function ResolveEndpoints(e: ApiEndpoints): (r: ApiEndpoints)
    ensures Resolved(e.query, "query", r.query) && Resolved(e.add, "add", r.add) && Resolved(e.edit, "edit", r.edit)
    ensures Resolved(e.delete, "delete", r.delete) && Resolved(e.deleteFlag, "deleteFlag", r.deleteFlag)
  {
    ApiEndpoints(
      e.query.Spread("query"),
      e.add.Spread("add"),
      e.edit.Spread("edit"),
      e.delete.Spread("delete"),
      e.deleteFlag.Spread("deleteFlag"))
  }

  /** `useConfig(props)`: every option group key by key, a group the caller
      left out counting as one with every key missing. */
  function UseConfig(props: CrudProps): (c: CrudConfig)
    ensures c.url == props.url && c.source == props.source
    ensures c.rowKey == props.rowKey && c.rowKeys == props.rowKeys
    ensures c.debug == (props.debug == Some(true))
    ensures c.isAfterMountQuery == (props.isAfterMountQuery == Some(true))
    ensures c.hooks == (if props.hooks.Some? then props.hooks.value else map[])
    ensures c.attrs == ResolveAttrs(props.attrs.GetOr(NoAttrs))
    ensures c.table == ResolveTable(props.table.GetOr(NoTable))
    ensures c.pagination == ResolvePagination(props.pagination.GetOr(NoPagination))
    ensures c.buttonAuth == ResolveButtonAuth(props.buttonAuth.GetOr(NoButtonAuth))
    ensures c.apiEndpoints == ResolveEndpoints(props.apiEndpoints.GetOr(NoEndpoints))
  {
    CrudConfig(
      props.debug.GetOr(false),
      props.isAfterMountQuery.GetOr(false),
      props.url,
      props.rowKey,
      props.rowKeys,
      props.source,
      ResolveAttrs(props.attrs.GetOr(NoAttrs)),
      props.hooks.GetOr(map[]),
      ResolveEndpoints(props.apiEndpoints.GetOr(NoEndpoints)),
      ResolveButtonAuth(props.buttonAuth.GetOr(NoButtonAuth)),
      ResolveTable(props.table.GetOr(NoTable)),
      ResolvePagination(props.pagination.GetOr(NoPagination)))
  }

  /** The options of a component given nothing but `url` and `source`. */
  function MinimalProps(url: string, source: Source): CrudProps {
    CrudProps(None, None, url, None, None, source, None, None, None, None, None, None)
  }

  /** With no options every documented default applies. */
  lemma DefaultsWhenAbsent(url: string, source: Source)
    ensures var c := UseConfig(MinimalProps(url, source));
      && c.attrs == Attrs(map["labelWidth" := Num(120)], map["size" := Num(500)], map[], map[])
      && c.table.menuVisible == Given(true) && c.table.menuAlign == Given(AlignCenter)
      && c.table.menuWidth == Given(150) && c.table.menuTitle == Given(true)
      && c.table.defButVisible.Given?
      && (forall row :: c.table.defButVisible.value(row) <==> Get(row, "deleteFlag") == Num(0))
      && c.pagination == PaginationConfig(Given(1), Given(10), Given([10, 20, 50, 100]),
                                          Given("total, ->, sizes, prev, pager, next, jumper"))
      && c.buttonAuth == ButtonAuth(Given(true), Given(true), Given(true))
      && c.apiEndpoints == ApiEndpoints(Given("query"), Given("add"), Given("edit"), Given("delete"), Given("deleteFlag"))
      && !c.debug && !c.isAfterMountQuery && c.hooks == map[]
  {
  }

  /** A key the caller sets, to a value or to `undefined`, reaches the
      configuration unchanged; only a missing key takes the default. */
  lemma CallerKeysWin(props: CrudProps)
    ensures var c := UseConfig(props);
      && (props.pagination.Some? ==>
            && (props.pagination.value.current != Absent ==> c.pagination.current == props.pagination.value.current)
            && (props.pagination.value.pageSize != Absent ==> c.pagination.pageSize == props.pagination.value.pageSize)
            && (props.pagination.value.pageSizes != Absent ==> c.pagination.pageSizes == props.pagination.value.pageSizes)
            && (props.pagination.value.layout != Absent ==> c.pagination.layout == props.pagination.value.layout))
      && (props.apiEndpoints.Some? ==>
            && (props.apiEndpoints.value.query != Absent ==> c.apiEndpoints.query == props.apiEndpoints.value.query)
            && (props.apiEndpoints.value.add != Absent ==> c.apiEndpoints.add == props.apiEndpoints.value.add)
            && (props.apiEndpoints.value.edit != Absent ==> c.apiEndpoints.edit == props.apiEndpoints.value.edit)
            && (props.apiEndpoints.value.delete != Absent ==> c.apiEndpoints.delete == props.apiEndpoints.value.delete)
            && (props.apiEndpoints.value.deleteFlag != Absent ==> c.apiEndpoints.deleteFlag == props.apiEndpoints.value.deleteFlag))
      && (props.buttonAuth.Some? ==>
            && (props.buttonAuth.value.add != Absent ==> c.buttonAuth.add == props.buttonAuth.value.add)
            && (props.buttonAuth.value.edit != Absent ==> c.buttonAuth.edit == props.buttonAuth.value.edit)
            && (props.buttonAuth.value.delete != Absent ==> c.buttonAuth.delete == props.buttonAuth.value.delete))
      && (props.table.Some? ==>
            && (props.table.value.menuVisible != Absent ==> c.table.menuVisible == props.table.value.menuVisible)
            && (props.table.value.menuAlign != Absent ==> c.table.menuAlign == props.table.value.menuAlign)
            && (props.table.value.menuWidth != Absent ==> c.table.menuWidth == props.table.value.menuWidth)
            && (props.table.value.menuTitle != Absent ==> c.table.menuTitle == props.table.value.menuTitle)
            && (props.table.value.defButVisible != Absent ==> c.table.defButVisible == props.table.value.defButVisible))
      && (props.attrs.Some? && props.attrs.value.form.Some? ==>
            forall k :: k in props.attrs.value.form.value ==> c.attrs.form[k] == props.attrs.value.form.value[k])
      && (props.attrs.Some? && props.attrs.value.drawer.Some? ==>
            forall k :: k in props.attrs.value.drawer.value ==> c.attrs.drawer[k] == props.attrs.value.drawer.value[k])
      && (props.attrs.Some? && props.attrs.value.table.Some? ==> c.attrs.table == props.attrs.value.table.value)
      && (props.attrs.Some? && props.attrs.value.pagination.Some? ==> c.attrs.pagination == props.attrs.value.pagination.value)
  {
  }

  /** No resolved option group has a missing key: every one carries a value
      or an explicit `undefined` the caller put there. */
  predicate Complete(c: CrudConfig) {
    && c.table.menuVisible != Absent && c.table.menuAlign != Absent && c.table.menuWidth != Absent
    && c.table.menuTitle != Absent && c.table.defButVisible != Absent
    && c.pagination.current != Absent && c.pagination.pageSize != Absent
    && c.pagination.pageSizes != Absent && c.pagination.layout != Absent
    && c.buttonAuth.add != Absent && c.buttonAuth.edit != Absent && c.buttonAuth.delete != Absent
    && c.apiEndpoints.query != Absent && c.apiEndpoints.add != Absent && c.apiEndpoints.edit != Absent
    && c.apiEndpoints.delete != Absent && c.apiEndpoints.deleteFlag != Absent
    && "labelWidth" in c.attrs.form && "size" in c.attrs.drawer
  }

  /** A resolved configuration handed back in as options. */
  function AsProps(c: CrudConfig): CrudProps {
    CrudProps(Some(c.debug), Some(c.isAfterMountQuery), c.url, c.rowKey, c.rowKeys, c.source,
      Some(AttrsProps(Some(c.attrs.form), Some(c.attrs.drawer), Some(c.attrs.table), Some(c.attrs.pagination))),
      Some(c.hooks), Some(c.apiEndpoints), Some(c.buttonAuth), Some(c.table), Some(c.pagination))
  }

  /** Resolution always yields a complete configuration, and resolving a
      complete configuration again changes nothing. */
  lemma ResolveIdempotent(props: CrudProps)
    ensures Complete(UseConfig(props))
    ensures UseConfig(AsProps(UseConfig(props))) == UseConfig(props)
  {
    var c := UseConfig(props);
    AttrsAbsorb(c.attrs);
    assert ResolveTable(c.table) == c.table;
    assert ResolvePagination(c.pagination) == c.pagination;
    assert ResolveButtonAuth(c.buttonAuth) == c.buttonAuth;
    assert ResolveEndpoints(c.apiEndpoints) == c.apiEndpoints;
  }

  /** Resolving attribute bags that already hold the default keys gives
      them back. */
  lemma AttrsAbsorb(a: Attrs)
    requires "labelWidth" in a.form && "size" in a.drawer
    ensures ResolveAttrs(AttrsProps(Some(a.form), Some(a.drawer), Some(a.table), Some(a.pagination))) == a
  {
    SpreadRecordAbsorbs(map["labelWidth" := Num(120)], a.form);
    SpreadRecordAbsorbs(map["size" := Num(500)], a.drawer);
    SpreadRecordAbsorbs(map[], a.table);
    SpreadRecordAbsorbs(map[], a.pagination);
  }

  /** Spreading a bag that already holds every default key over the
      defaults gives that bag back. */
  lemma SpreadRecordAbsorbs(defaults: Record, r: Record)
    requires defaults.Keys <= r.Keys
    ensures SpreadRecord(defaults, Some(r)) == r
  {
    assert (defaults + r).Keys == r.Keys;
  }
}

=== FILE: use_form.dfy ===
/** `useFormStore`: the search and edit models seeded from the column
    definitions, the frozen seed snapshots they are reset to, and the change
    notifications watched fields raise. */
module UseForm {
  import opened Values
  import opened CrudTypes

  /** The seed of one model: every defined field named in `names`, holding its
      declared default (an undeclared default is an own key holding `undefined`). */
  function Seed(defs: map<string, ColumnDef>, names: seq<string>, search: bool): (r: Record)
    ensures r.Keys == set k | k in defs && k in names
    ensures forall k :: k in r ==> r[k] == (if search then defs[k].searchDefaultValue else defs[k].addDefaultValue)
  {
    map k | k in defs && k in names :: if search then defs[k].searchDefaultValue else defs[k].addDefaultValue
  }

  /** `useFormStore(config)`: the search form shown, the drawer closed and
      titled for creation, both models equal to their snapshots, and an empty
      current row and submission payload. */
  function UseFormStore(cfg: CrudConfig): (s: FormStore)
    ensures s.formVisible && !s.drawerVisible && s.drawerTitle == Create
    ensures s.searchForm == s.searchSnapshot && s.editForm == s.editSnapshot
    ensures forall k :: k in s.searchForm <==> k in cfg.source.definitions && k in cfg.source.fields.filter
    ensures forall k :: k in s.editForm <==> k in cfg.source.definitions && k in cfg.source.fields.editor
    ensures forall k :: k in s.searchForm ==> s.searchForm[k] == cfg.source.definitions[k].searchDefaultValue
    ensures forall k :: k in s.editForm ==> s.editForm[k] == cfg.source.definitions[k].addDefaultValue
    ensures s.currentRow == map[] && s.formData == map[]
  {
    var defs := cfg.source.definitions;
    var search := Seed(defs, cfg.source.fields.filter, true);
    var edit := Seed(defs, cfg.source.fields.editor, false);
    FormStore(true, false, Create, search, search, edit, edit, map[], map[])
  }

  /** Which form a change notification is about: `change:searchForm` or
      `change:editForm`. */
  datatype FormEvent = SearchChanged(key: string) | EditChanged(key: string)

  /** The keys of `snapshot` whose value in `form` differs from it: the
      watchers that fire when `form` is put back to `snapshot`. */
  function ChangedKeys(form: Record, snapshot: Record): (ks: set<string>)
    ensures forall k :: k in ks <==> k in snapshot && Get(form, k) != snapshot[k]
  {
    set k | k in snapshot && Get(form, k) != snapshot[k]
  }

  /** The result of `reset`: the store afterwards, whether the form widget's
      own `resetFields` was invoked, and the keys whose watchers fire. */
  datatype ResetResult = ResetResult(store: FormStore, widgetReset: bool, changed: set<string>)

  /** `reset(formEl, mode, close)`. With `close`, every snapshot key is copied
      back into the addressed model; keys the snapshot lacks stay. Without
      it, the reset is delegated to the form widget, when there is one. */
  function Reset(s: FormStore, formElPresent: bool, mode: ResetMode, close: bool): (r: ResetResult)
    ensures !close ==> r.store == s && r.changed == {} && r.widgetReset == formElPresent
    ensures close ==> !r.widgetReset
    ensures close && mode == Search ==>
      && r.store == s.(searchForm := r.store.searchForm)
      && (forall k :: k in s.searchSnapshot ==> k in r.store.searchForm && r.store.searchForm[k] == s.searchSnapshot[k])
      && (forall k :: k !in s.searchSnapshot ==> Get(r.store.searchForm, k) == Get(s.searchForm, k))
      && (forall k :: k in r.changed <==> k in s.searchSnapshot && Get(s.searchForm, k) != s.searchSnapshot[k])
    ensures close && mode == Update ==>
      && r.store == s.(editForm := r.store.editForm)
      && (forall k :: k in s.editSnapshot ==> k in r.store.editForm && r.store.editForm[k] == s.editSnapshot[k])
      && (forall k :: k !in s.editSnapshot ==> Get(r.store.editForm, k) == Get(s.editForm, k))
      && (forall k :: k in r.changed <==> k in s.editSnapshot && Get(s.editForm, k) != s.editSnapshot[k])
  {
    if !close then ResetResult(s, formElPresent, {})
    else if mode == Search then
      ResetResult(s.(searchForm := s.searchForm + s.searchSnapshot), false, ChangedKeys(s.searchForm, s.searchSnapshot))
    else
      ResetResult(s.(editForm := s.editForm + s.editSnapshot), false, ChangedKeys(s.editForm, s.editSnapshot))
  }

  /** The effect of the user typing `v` into field `key` of one model:
      the store afterwards and the notification raised, if any. Only the
      seeded keys (those of the snapshot) are watched, and a watcher fires
      only when the value actually changes. */
  datatype Edit = Edit(store: FormStore, event: Option<FormEvent>)

  function SetField(s: FormStore, mode: ResetMode, key: string, v: Value): (r: Edit)
    ensures mode == Search ==> r.store == s.(searchForm := s.searchForm[key := v])
    ensures mode == Update ==> r.store == s.(editForm := s.editForm[key := v])
    ensures r.event.Some? <==>
      (if mode == Search then key in s.searchSnapshot && Get(s.searchForm, key) != v
       else key in s.editSnapshot && Get(s.editForm, key) != v)
    ensures r.event.Some? ==> r.event.value == (if mode == Search then SearchChanged(key) else EditChanged(key))
  {
    if mode == Search then
      Edit(s.(searchForm := s.searchForm[key := v]),
           if key in s.searchSnapshot && Get(s.searchForm, key) != v then Some(SearchChanged(key)) else None)
    else
      Edit(s.(editForm := s.editForm[key := v]),
           if key in s.editSnapshot && Get(s.editForm, key) != v then Some(EditChanged(key)) else None)
  }

  /** A sequence of user edits to one model. */
  function ApplyEdits(s: FormStore, mode: ResetMode, edits: seq<(string, Value)>): FormStore
    decreases |edits|
  {
    if |edits| == 0 then s
    else ApplyEdits(SetField(s, mode, edits[0].0, edits[0].1).store, mode, edits[1..])
  }

  /** Edits touch only the addressed model: the snapshots, the other model and
      every flag stay as they were. */
  lemma {:induction false} EditsKeepSnapshots(s: FormStore, mode: ResetMode, edits: seq<(string, Value)>)
    ensures var t := ApplyEdits(s, mode, edits);
      && t.searchSnapshot == s.searchSnapshot && t.editSnapshot == s.editSnapshot
      && t.formVisible == s.formVisible && t.drawerVisible == s.drawerVisible
      && t.drawerTitle == s.drawerTitle && t.currentRow == s.currentRow && t.formData == s.formData
      && (mode == Search ==> t.editForm == s.editForm)
      && (mode == Update ==> t.searchForm == s.searchForm)
    decreases |edits|
  {
    if |edits| > 0 {
      EditsKeepSnapshots(SetField(s, mode, edits[0].0, edits[0].1).store, mode, edits[1..]);
    }
  }

  /** Closing reset undoes any sequence of edits on every seeded key, so a
      fresh store edited and reset agrees with the seed wherever the seed
      has a key. */
  lemma ResetRestoresSeed(cfg: CrudConfig, mode: ResetMode, edits: seq<(string, Value)>)
    ensures var s0 := UseFormStore(cfg);
      var t := Reset(ApplyEdits(s0, mode, edits), false, mode, true).store;
      && (mode == Search ==> forall k :: k in s0.searchForm ==> Get(t.searchForm, k) == s0.searchForm[k])
      && (mode == Update ==> forall k :: k in s0.editForm ==> Get(t.editForm, k) == s0.editForm[k])
  {
    EditsKeepSnapshots(UseFormStore(cfg), mode, edits);
  }

  /** A closing reset is idempotent, and the second one fires no watcher. */
  lemma ResetIdempotent(s: FormStore, mode: ResetMode)
    ensures var r1 := Reset(s, false, mode, true);
      var r2 := Reset(r1.store, false, mode, true);
      r2.store == r1.store && r2.changed == {}
  {
  }

  /** For a well-formed source the seeded search form holds exactly the
      `filter` names, each at its declared search default. */
  lemma SearchSeedOfWellFormed(cfg: CrudConfig)
    requires WellFormedSource(cfg.source)
    ensures var s := UseFormStore(cfg);
      (forall k :: k in s.searchForm <==> k in cfg.source.fields.filter)
      && (forall k :: k in s.searchForm ==> s.searchForm[k] == cfg.source.definitions[k].searchDefaultValue)
  {
  }
}

=== FILE: use_hooks.dfy ===
/** The EasyCrud hook dispatcher (`useHooks`): look a callback up by name and
    apply it, or hand the payload back unchanged. */
module UseHooks {

  /** What a hooks object holds under a name: a callable, or some value that
      is not a function. A name with nothing registered is simply absent. */
  datatype Entry<!P> = Callable(f: P -> P) | NotCallable

  /** `hookHandler(hookName, Data)`. The dispatcher keeps no state of its own:
      everything it returns is decided by `hooks[name]` and `data`. */
  function HookHandler<K, P>(hooks: map<K, Entry<P>>, name: K, data: P): (r: P)
    ensures name !in hooks ==> r == data
    ensures name in hooks && hooks[name].NotCallable? ==> r == data
    ensures name in hooks && hooks[name].Callable? ==> r == hooks[name].f(data)
  {
    if name in hooks && hooks[name].Callable? then hooks[name].f(data) else data
  }

  /** Registering or replacing the hook under one name leaves the dispatch of
      every other name as it was. */
  lemma HookHandlerIsolated<K, P>(hooks: map<K, Entry<P>>, name: K, other: K, e: Entry<P>, data: P)
    requires other != name
    ensures HookHandler(hooks[name := e], other, data) == HookHandler(hooks, other, data)
  {
  }

  /** Two hook tables that agree on a name dispatch that name identically, so
      the result depends on nothing but `hooks[name]` and the payload. */
  lemma HookHandlerDependsOnEntryOnly<K, P>(h1: map<K, Entry<P>>, h2: map<K, Entry<P>>, name: K, data: P)
    requires (name in h1 <==> name in h2) && (name in h1 ==> h1[name] == h2[name])
    ensures HookHandler(h1, name, data) == HookHandler(h2, name, data)
  {
  }
}

=== FILE: use_table.dfy ===
/** `useTableStore`: the table rows, the loading flag, the user's column
    selection and the pagination state, seeded from the resolved
    configuration. */
module UseTable {
  import opened Values
  import opened CrudTypes
  import UseConfig

  /** `sub` can be obtained from `s` by deleting elements. */
  predicate IsSubseq<T(==)>(sub: seq<T>, s: seq<T>)
    decreases |s|
  {
    |sub| == 0
    || (|s| > 0 && ((sub[0] == s[0] && IsSubseq(sub[1..], s[1..])) || IsSubseq(sub, s[1..])))
  }

  /** `expand.filter(key => checkColumn.includes(key))`: the columns shown. */
  function TableColumns(expand: seq<string>, check: seq<string>): (cols: seq<string>)
    ensures |cols| <= |expand|
    ensures forall k :: k in cols <==> k in expand && k in check
    decreases |expand|
  {
    if |expand| == 0 then []
    else (if expand[0] in check then [expand[0]] else []) + TableColumns(expand[1..], check)
  }

  /** The shown columns keep the order of `expand`. */
  lemma {:induction false} TableColumnsOrdered(expand: seq<string>, check: seq<string>)
    ensures IsSubseq(TableColumns(expand, check), expand)
    decreases |expand|
  {
    if |expand| > 0 {
      TableColumnsOrdered(expand[1..], check);
      var rest := TableColumns(expand[1..], check);
      if expand[0] in check {
        assert TableColumns(expand, check) == [expand[0]] + rest;
        assert ([expand[0]] + rest)[1..] == rest;
      } else {
        assert TableColumns(expand, check) == rest;
      }
    }
  }

  /** Only which names are checked matters, not their order or repetition. */
  lemma {:induction false} TableColumnsSetOnly(expand: seq<string>, c1: seq<string>, c2: seq<string>)
    requires forall k :: k in c1 <==> k in c2
    ensures TableColumns(expand, c1) == TableColumns(expand, c2)
    decreases |expand|
  {
    if |expand| > 0 {
      TableColumnsSetOnly(expand[1..], c1, c2);
    }
  }

  /** Only the membership of `expand`'s own names matters. */
  lemma {:induction false} TableColumnsOnExpand(expand: seq<string>, c1: seq<string>, c2: seq<string>)
    requires forall i :: 0 <= i < |expand| ==> (expand[i] in c1 <==> expand[i] in c2)
    ensures TableColumns(expand, c1) == TableColumns(expand, c2)
    decreases |expand|
  {
    if |expand| > 0 {
      assert forall i :: 0 <= i < |expand| - 1 ==> expand[1..][i] == expand[i + 1];
      TableColumnsOnExpand(expand[1..], c1, c2);
    }
  }

  lemma {:induction false} SubseqElements<T>(sub: seq<T>, s: seq<T>)
    requires IsSubseq(sub, s)
    ensures forall x :: x in sub ==> x in s
    decreases |s|
  {
    if |sub| > 0 {
      if sub[0] == s[0] && IsSubseq(sub[1..], s[1..]) {
        SubseqElements(sub[1..], s[1..]);
        assert forall x :: x in sub ==> x == sub[0] || x in sub[1..];
      } else {
        SubseqElements(sub, s[1..]);
      }
    }
  }

  /** No name is listed twice. */
  predicate Distinct(s: seq<string>) {
    forall i, j :: 0 <= i < j < |s| ==> s[i] != s[j]
  }

  /** With distinct `expand` names, a selection already listed in `expand`
      order is shown exactly as listed. */
  lemma {:induction false} TableColumnsOfOrderedCheck(expand: seq<string>, check: seq<string>)
    requires Distinct(expand) && IsSubseq(check, expand)
    ensures TableColumns(expand, check) == check
    decreases |expand|
  {
    if |expand| > 0 {
      var rest := expand[1..];
      assert Distinct(rest) by {
        assert forall i :: 0 <= i < |rest| ==> rest[i] == expand[i + 1];
      }
      assert expand[0] !in rest by {
        assert forall i :: 0 <= i < |rest| ==> rest[i] == expand[i + 1];
      }
      if |check| > 0 && check[0] == expand[0] && IsSubseq(check[1..], rest) {
        TableColumnsOfOrderedCheck(rest, check[1..]);
        assert forall i :: 0 <= i < |rest| ==> (rest[i] in check <==> rest[i] in check[1..]) by {
          assert forall x :: x in check <==> x == check[0] || x in check[1..];
        }
        TableColumnsOnExpand(rest, check, check[1..]);
        assert check == [check[0]] + check[1..];
      } else {
        assert IsSubseq(check, rest);
        SubseqElements(check, rest);
        TableColumnsOfOrderedCheck(rest, check);
      }
    } else {
      assert |check| == 0;
    }
  }

  /** `useTableStore(config)`: not loading, no rows, every listed column
      selected, total 0, and each pagination value falling back (`??`) when
      the configuration holds `undefined`. */
  function UseTableStore(cfg: CrudConfig): (t: TableStore)
    ensures !t.loading && t.tableData == [] && t.total == 0
    ensures t.checkColumn == cfg.source.fields.column
    ensures t.currentPage == (if cfg.pagination.current.Given? then cfg.pagination.current.value else 1)
    ensures t.pageSize == (if cfg.pagination.pageSize.Given? then cfg.pagination.pageSize.value else 10)
    ensures t.pageSizes == (if cfg.pagination.pageSizes.Given? then cfg.pagination.pageSizes.value else [10, 20, 30, 40, 50])
    ensures t.layout == (if cfg.pagination.layout.Given? then cfg.pagination.layout.value else UseConfig.DefaultLayout)
  {
    TableStore(
      false, [], cfg.source.fields.column,
      cfg.pagination.current.OrElse(1),
      cfg.pagination.pageSize.OrElse(10),
      0,
      cfg.pagination.pageSizes.OrElse([10, 20, 30, 40, 50]),
      cfg.pagination.layout.OrElse(UseConfig.DefaultLayout))
  }

  /** The page-size list the table starts with: the configuration default
      [10, 20, 50, 100] when the caller gives no pagination options, and the
      store's own fallback [10, 20, 30, 40, 50] only when the caller sets
      `pageSizes` to `undefined` explicitly. */
  lemma PageSizesFallbacks(props: CrudProps)
    ensures props.pagination.None? ==>
      UseTableStore(UseConfig.UseConfig(props)).pageSizes == [10, 20, 50, 100]
    ensures props.pagination.Some? && props.pagination.value.pageSizes.Undef? ==>
      UseTableStore(UseConfig.UseConfig(props)).pageSizes == [10, 20, 30, 40, 50]
  {
  }

  /** At start-up the table shows the `column` names, in `expand` order, that
      are also in `expand`. */
  lemma InitialColumns(cfg: CrudConfig)
    ensures var t := UseTableStore(cfg);
      forall k :: k in TableColumns(cfg.source.fields.expand, t.checkColumn)
        <==> k in cfg.source.fields.expand && k in cfg.source.fields.column
  {
  }
}

=== FILE: user_store.dfy ===
/** `useUserStore`: what a login leaves behind (user info, token, rights
    tree and the permission map derived from it), the derived `isLogin` and
    `ownRole`, and `$reset`. Session-storage persistence is not modelled. */
module UserStore {
  import opened Values

  /** A node of the permission tree. Only `nodeData.domKey` and `children`
      take part in any decision; an absent `children` is the empty list,
      since every use treats the two alike. */
  datatype TreeNode = TreeNode(funcId: int, domKey: string, children: seq<TreeNode>)

  /** What `rights` holds: the object `{}` that a login stores when the
      parsed rights are falsy, a parsed permission tree, or some other truthy
      JSON value (an array, a number, an object without `nodeData`). */
  datatype Rights = NoTree | Tree(root: TreeNode) | NotATree

  /** A role name mapped to the `domKey`s of its children. */
  type PermissionsMap = map<string, seq<string>>

  /** The user record returned by the server; the store only tests whether
      it is present. */
  datatype UserInfo = UserInfo(userId: int, userName: string, realName: string)

  datatype UserState = UserState(
    userInfo: Option<UserInfo>,
    token: Option<string>,
    rights: Option<Rights>,
    permissions: Option<PermissionsMap>)

  /** `!!token && !!permissions && !!userInfo`: a token is truthy unless it
      is missing or empty; the two objects are truthy whenever present, even
      an empty permission map. */
  predicate IsLogin(s: UserState) {
    s.token.Some? && s.token.value != "" && s.permissions.Some? && s.userInfo.Some?
  }

  /** `Object.keys(permissions)`, or nothing without a permission map. Only
      membership is ever asked of it, so it is a set here. */
  function OwnRole(s: UserState): (roles: set<string>)
    ensures s.permissions.Some? ==> roles == s.permissions.value.Keys
    ensures s.permissions.None? ==> roles == {}
  {
    if s.permissions.Some? then s.permissions.value.Keys else {}
  }

  /** The store as it starts, before any login. */
  const Initial: UserState := UserState(None, None, None, None)

  /** `$reset`: every field back to `undefined`, whatever the state was. */
  function Reset(s: UserState): (r: UserState)
    ensures r.userInfo.None? && r.token.None? && r.rights.None? && r.permissions.None?
  {
    Initial
  }

  /** After `$reset` the user is logged out and owns no role. */
  lemma ResetLogsOut(s: UserState)
    ensures !IsLogin(Reset(s))
    ensures OwnRole(Reset(s)) == {}
  {
  }

  /** A login needs all three parts: without any one of them, whatever the
      others hold, the user is not logged in. */
  lemma LoginNeedsAllParts(s: UserState)
    ensures s.token.None? || s.token == Some("") ==> !IsLogin(s)
    ensures s.permissions.None? ==> !IsLogin(s)
    ensures s.userInfo.None? ==> !IsLogin(s)
    ensures s.token.Some? && s.token.value != "" && s.permissions.Some? && s.userInfo.Some? ==> IsLogin(s)
  {
  }
}

=== FILE: values.dfy ===
/** JavaScript values as the modelled code sees them: primitives, records of
    primitives, optional properties and the `??` / `||` / spread idioms. */
module Values {

  datatype Option<+T> = None | Some(value: T) {
    /** `x ?? d` for a value that may be missing */
    function GetOr(d: T): T {
      match this
      case Some(v) => v
      case None => d
    }
  }

  /** An optional property of a TypeScript object literal: the key may be
      missing, present holding `undefined`, or present holding a value. */
  datatype Prop<+T> = Absent | Undef | Given(value: T) {

    /** The property after `{ key: d, ...obj }`: only a missing key keeps the
        default; an explicit `undefined` overrides it. */
    function Spread(d: T): Prop<T> {
      if Absent? then Given(d) else this
    }

    /** `obj.key ?? d` */
    function OrElse(d: T): T {
      if Given? then value else d
    }
  }

  /** Primitive values held by rows and forms. Numbers are integers; JS
      floating point is not modelled. */
  datatype Value = Undefined | Null | Bool(b: bool) | Num(n: int) | Str(s: string)

  /** JS truthiness of a primitive. */
  predicate Truthy(v: Value) {
    match v
    case Undefined => false
    case Null => false
    case Bool(b) => b
    case Num(n) => n != 0
    case Str(s) => s != ""
  }

  /** A plain object whose own keys hold primitives (a row, a form model). */
  type Record = map<string, Value>

  /** `row[key]`: a missing key reads as `undefined`. */
  function Get(r: Record, k: string): Value {
    if k in r then r[k] else Undefined
  }

  /** A string interpolated into a template literal: `${x}` of `undefined`
      is the text "undefined". */
  function Show(p: Prop<string>): string {
    if p.Given? then p.value else "undefined"
  }

  /** JS truthiness of an optional string. */
  predicate TruthyString(p: Option<string>) {
    p.Some? && p.value != ""
  }
}
